=== FILE: README.md ===
# Serverless shop: the fault-tolerant dispatcher and the handlers' string and list logic

This project models, in Dafny, the decision logic of a serverless shop
backend written in Java for AWS Lambda.

**The dispatcher.** `FaultTolerance.handleRequest` is modelled in module `FaultTolerance`:
- It builds the route key `httpMethod:path`.
- It takes the first route of an insertion-ordered table whose pattern matches the whole key.
- It derives the target's function name from its ARN and uses it as the metric dimension.
- It guards every attempt with a circuit breaker, which is modelled in module `ErrorTracker`. The breaker counts the target's error records that have not yet expired.
- It invokes the target at most `retries` times. It logs every failure as a record keyed by function and expiry second, so two failures in one second collapse into one record.
- It publishes the metric counters of `MetricsHandler` as it goes.
- It ends with the target's payload, or with the route's 500 fallback response.

The Lambda invocations are an oracle: `oracle(n)` says how attempt `n` ends
and what the clock reads at its breaker check and when its failure is
logged. The error table and the published metrics are explicit state.

**The shared helpers.**
- `ResponseGenerator.generateResponse`: the response map and its three CORS headers.
- `ResponseTransformer`: the attribute-map flattening and the cart `OrderList` format `pid:qty;pid:qty;...`.
- `RequestParams`: the query-string defaults and Bearer-token and proxy-path extraction.
- `JavaInts`: Java's 32-bit `int` wrap-around, `Integer.parseInt` and `Integer.toString`.
- `Pagination`: the `ceil`/`start`/`end`/`subList` paging that every list endpoint repeats, with Java's 32-bit `int` arithmetic written out.
- `JavaStrings`: Java's `String.split`, including its dropping of trailing empty strings (`";".split(";")` is empty).

**The handlers.**
- `AddToCart`: order-list upsert.
- `DeleteFromCart`: order-list removal and the quantity removed.
- `GetAndSearchProducts`: filter-expression builder and product pages.
- `GetCart`: cart pages.
- `GetProductComments` and `getComments`: comment pages and the rating histogram.
- `GetOrders`: order pages over a query capped by `pageSize`.

The outside services are parameters of the handlers: the DynamoDB reads, the token verifier, the sort by a floating-point attribute, and the order presentation. Each handler's result is a datatype of its responses and of the exceptions that escape it.

## Model

| member | source | states |
|---|---|---|
| FaultTolerance.FindRoute | src/main/java/serverless/FaultTolerance.java:50-56 | the index found is the first route in table order whose pattern matches the whole key; none is found exactly when no route matches |
| FaultTolerance.FindRouteFrom | src/main/java/serverless/FaultTolerance.java:50-56 | from a given index on, the route found matches and none before it does; none is found exactly when no later route matches |
| FaultTolerance.RouteTable | src/main/java/serverless/FaultTolerance.java:31-38 | the catalog listing routes to entry 0, any non-empty product suffix under `catalog/` to entry 1, the catalog post to entry 2, and the bare `catalog/` path to no route |
| FaultTolerance.HandleRequest | src/main/java/serverless/FaultTolerance.java:44-60 | an unrouted key is answered 400 "Invalid path or method" with no invocation, no metric and the error table untouched; an ARN without a name segment escapes as an index error; otherwise the guarded loop of the route found runs |
| FaultTolerance.FunctionNameOfArn | src/main/java/serverless/FaultTolerance.java:141-144 | for an ARN of the account's form, the metric dimension is the function name after the last colon |
| FaultTolerance.Fallback | src/main/java/serverless/FaultTolerance.java:182-184 | the fallback is the generated response with status 500 and the route's fallback message as the body |
| FaultTolerance.ResponseOf | src/main/java/serverless/FaultTolerance.java:58-60 | a generated reply becomes a response map that carries its status and body; a forwarded payload does not |
| FaultTolerance.Guarded | src/main/java/serverless/FaultTolerance.java:62-138 | the metric dimension is the route's function name; an open breaker at the pre-check falls back with zero invocations and the table unchanged, publishing exactly two data: one prevented call and one fallback; invocations never exceed the retry budget; a forwarded payload is exactly what the last invocation returned |
| FaultTolerance.RetryLoop | src/main/java/serverless/FaultTolerance.java:73-138 | invocations never exceed the budget; the reply is the payload of the attempt that returned or the fallback; exactly one fallback counter when falling back, none otherwise; at most one prevented call, and none when the payload is forwarded; each failed invocation has logged its record, in order |
| FaultTolerance.Continue | src/main/java/serverless/FaultTolerance.java:74-135 | one loop iteration at a time, with the same budget, reply, counter and error-record guarantees as the whole loop |
| FaultTolerance.Invoke | src/main/java/serverless/FaultTolerance.java:80-121 | the loop ends with the payload exactly when it is returned and parses, leaving the table untouched; every other outcome logs one record with its message; the loop goes on after a function error whose message was read, or after an exception while attempts remain |
| FaultTolerance.AttemptCounters | src/main/java/serverless/FaultTolerance.java:90-134 | a returned call counts one success and one not-timed-out call, even if its payload fails to parse, and a success without retries exactly on attempt 1; only a function error counts a failed call; a function error whose message was read counts a timeout exactly when the message contains "Task timed out", a not-timed-out call otherwise, and a failed retry exactly when attempt < retries; an exception or an unreadable error counts no timing and, on the last attempt only, a failed retry and a fallback; no prevented call is counted |
| FaultTolerance.Caught | src/main/java/serverless/FaultTolerance.java:122-134 | an exception logs one error record, then retries while attempts remain and otherwise falls back |
| FaultTolerance.InvokeAccounted | src/main/java/serverless/FaultTolerance.java:90-134 | one attempt's error table is the input table plus exactly that attempt's record when it failed |
| FaultTolerance.RetryLoopPrevented | src/main/java/serverless/FaultTolerance.java:74-78 | a breaker open at the start of an attempt ends the loop with the fallback, one prevented call and one fallback counter, no further invocation and the table as it was |
| FaultTolerance.NoBudget | src/main/java/serverless/FaultTolerance.java:73-138 | with retries of zero or less the loop invokes nothing and counts one fallback |
| FaultTolerance.NoRetriesFallsBack | src/main/java/serverless/FaultTolerance.java:67-138 | with retries of zero or less a routed request falls back with zero invocations, the table unchanged, one fallback counter, and one prevented call exactly when the breaker was open |
| FaultTolerance.SucceedsAt | src/main/java/serverless/FaultTolerance.java:111-121 | a successful attempt n returns its payload unchanged after n invocations with the table untouched, counting one succeeded and one not-timed-out call, no failed or timed-out call, and a success without retries when n is 1 and with retries otherwise |
| FaultTolerance.NeverSucceedsFallsBack | src/main/java/serverless/FaultTolerance.java:122-138 | when no attempt within the budget returns a parsable payload, the request falls back and counts exactly one fallback |
| FaultTolerance.GuardedMetrics | src/main/java/serverless/FaultTolerance.java:53-138 | the published data hold one fallback exactly when the reply is not forwarded, exactly one prevented call when the breaker is open at the pre-check and none when the reply is forwarded, and every datum carries the route's function name as its dimension |
| FaultTolerance.GuardedStore | src/main/java/serverless/FaultTolerance.java:98-123 | the error table gains exactly the records of the failed invocations, at most one per invocation |
| FaultTolerance.LogAttemptsKeys | src/main/java/serverless/FaultTolerance.java:163-178 | logging a run of attempts adds exactly their failure keys to the table |
| FaultTolerance.FailureKeys | src/main/java/serverless/FaultTolerance.java:168-169 | every record a run of attempts writes is keyed by the target's ARN |
| FaultTolerance.FailureKeysBound | src/main/java/serverless/FaultTolerance.java:168-169 | a run of n attempts writes at most n distinct keys |
| FaultTolerance.Emit | src/main/java/serverless/lib/MetricsHandler.java:61-74 | publishing a list of counters appends one datum per counter and keeps what was published before |
| FaultTolerance.EmitTally | src/main/java/serverless/lib/MetricsHandler.java:61-74 | after publishing a list of counters, each counter's tally has grown by its number of occurrences in the list |
| FaultTolerance.EmitDimension | src/main/java/serverless/lib/MetricsHandler.java:61-74 | every newly published datum has the current function name as its dimension, the `FaultTolerance` namespace and the value 1 |
| ErrorTracker.ActiveRecords | src/main/java/serverless/FaultTolerance.java:146-160 | the records the breaker counts are exactly the target's records whose expiry second is at or after the current second |
| ErrorTracker.LogError | src/main/java/serverless/FaultTolerance.java:163-178 | logging adds the key (target, current second + reset timeout) with the message and leaves every other record as it was |
| ErrorTracker.LoggedFailureCountsUntilExpiry | src/main/java/serverless/FaultTolerance.java:163-171 | a failure logged at second t counts toward the breaker at query second q exactly when q is at most t + resetTimeout |
| ErrorTracker.ExpiredFailureIsIgnored | src/main/java/serverless/FaultTolerance.java:149-165 | once its expiry has passed, a logged failure changes nothing the breaker sees |
| ErrorTracker.OtherTargetsUnaffected | src/main/java/serverless/FaultTolerance.java:148-169 | logging a failure for one target leaves every other target's breaker view unchanged |
| ErrorTracker.LogErrorCountsAtMostOnce | src/main/java/serverless/FaultTolerance.java:167-178 | one logged failure raises the breaker's count by zero or one |
| ErrorTracker.SameSecondFailuresCollapse | src/main/java/serverless/FaultTolerance.java:164-169 | two failures in the same second leave the same table as the second one alone: the put overwrites |
| ErrorTracker.ActiveCountAntitone | src/main/java/serverless/FaultTolerance.java:149-160 | with no new failures the breaker's count can only fall as time passes |
| ErrorTracker.ClosedStaysClosed | src/main/java/serverless/FaultTolerance.java:146-161 | a breaker closed at one time stays closed later if no failure is logged in between |
| ErrorTracker.CircuitHeals | src/main/java/serverless/FaultTolerance.java:153-160 | with a positive threshold, once all of a target's records have expired the breaker is closed with no explicit close action |
| MetricsHandler.NewHandler | src/main/java/serverless/lib/MetricsHandler.java:14-19 | a new handler has no function name and has published nothing |
| MetricsHandler.SetLambdaFunctionName | src/main/java/serverless/lib/MetricsHandler.java:20-22 | setting the name replaces the dimension value and publishes nothing |
| MetricsHandler.Increment | src/main/java/serverless/lib/MetricsHandler.java:24-74 | each increment publishes exactly one datum: namespace `FaultTolerance`, the counter's metric name, dimension `LambdaFunction` set to the name most recently set, value 1, unit Count |
| MetricsHandler.MetricNamesDistinct | src/main/java/serverless/lib/MetricsHandler.java:24-59 | the nine counters have nine distinct metric names |
| MetricsHandler.TallyIncrement | src/main/java/serverless/lib/MetricsHandler.java:61-74 | an increment adds one to its own counter's tally and leaves every other counter's tally alone |
| MetricsHandler.IncrementKeepsWellFormed | src/main/java/serverless/lib/MetricsHandler.java:61-74 | every published datum keeps the fixed namespace, dimension name, value and unit |
| ResponseGenerator.GenerateResponse | src/main/java/serverless/lib/ResponseGenerator.java:8-20 | the response has exactly the keys statusCode, body and headers; status and body are the arguments unchanged; the headers are the three CORS entries |
| ResponseGenerator.GenerateResponseInjective | src/main/java/serverless/lib/ResponseGenerator.java:10-11 | two responses are equal exactly when their status codes and bodies are |
| ResponseGenerator.CorsHeadersAreThree | src/main/java/serverless/lib/ResponseGenerator.java:13-17 | the header map holds three distinct entries |
| ResponseGenerator.JsonString | src/main/java/serverless/ShoppingCart/GetOrders.java:52 | a string encoded as a JSON body is quoted |
| ResponseGenerator.JsonStringPlain | src/main/java/serverless/ShoppingCart/GetOrders.java:91 | a message without characters that need escaping is encoded as itself between quotes |
| ResponseTransformer.TransformItem | src/main/java/serverless/lib/ResponseTransformer.java:13-23 | each attribute becomes its S text, else its N text; attributes with neither are dropped, so the keys are a subset of the item's |
| ResponseTransformer.TransformStringItem | src/main/java/serverless/lib/ResponseTransformer.java:13-23 | flattening an item made of S attributes gives back the string map it was made from |
| ResponseTransformer.TransformItems | src/main/java/serverless/lib/ResponseTransformer.java:25-31 | the list keeps its length and order, and element i is item i flattened |
| ResponseTransformer.TransformItemsSlice | src/main/java/serverless/lib/ResponseTransformer.java:25-31 | flattening a slice equals the same slice of the flattened list |
| ResponseTransformer.ParseOrder | src/main/java/serverless/lib/ResponseTransformer.java:47-51 | an entry parses exactly when it splits on `:` into at least two pieces, giving the first as productId and the second as quantity |
| ResponseTransformer.ParseOrders | src/main/java/serverless/lib/ResponseTransformer.java:46-52 | the list parses exactly when every entry does, in order, one product per entry |
| ResponseTransformer.ParsedLength | src/main/java/serverless/lib/ResponseTransformer.java:44-52 | an OrderList string never yields more products than it has characters plus one |
| ResponseTransformer.TransformCartItem | src/main/java/serverless/lib/ResponseTransformer.java:36-59 | every key but OrderList is kept, and only `products` is added, for an OrderList; TotalPrice becomes its N text and every other attribute its S text; OrderList becomes the parsed product list and fails exactly when it has no S value or an entry lacks a colon |
| ResponseTransformer.TransformCartItems | src/main/java/serverless/lib/ResponseTransformer.java:33-64 | the list keeps its length, succeeds exactly when every item does, and item i is transformed alone |
| ResponseTransformer.EmptyOrderList | src/main/java/serverless/lib/ResponseTransformer.java:44 | the initial list `;` parses to no products |
| ResponseTransformer.OrderWithoutColon | src/main/java/serverless/lib/ResponseTransformer.java:44-50 | a non-empty entry without a colon makes the parse fail |
| ResponseTransformer.EntrySplit | src/main/java/serverless/lib/ResponseTransformer.java:47-50 | a stored entry splits on `:` into exactly its id and its quantity |
| ResponseTransformer.SplitRendered | src/main/java/serverless/lib/ResponseTransformer.java:44-50 | a list joined with `;` splits back into its entries, and each entry parses to its product |
| ResponseTransformer.OrderListRoundTrip | src/main/java/serverless/lib/ResponseTransformer.java:42-53 | parsing a non-empty product list joined with `;` gives the products back, in order |
| ResponseTransformer.TerminatedRoundTrip | src/main/java/serverless/lib/ResponseTransformer.java:42-53 | the same holds when every entry is followed by `;`, the form DeleteFromCart writes |
| ResponseTransformer.StoredSplit | src/main/java/serverless/lib/ResponseTransformer.java:44 | splitting a `;`-terminated list drops the trailing empty piece |
| RequestParams.AuthorizationHeader | src/main/java/serverless/ShoppingCart/AddToCart.java:81 | a missing headers map throws a null-pointer error; otherwise the header is present exactly when its key is |
| RequestParams.BearerToken | src/main/java/serverless/ShoppingCart/AddToCart.java:81-85 | a header that starts with "Bearer " is that prefix followed by the token; any other or missing header gives the empty token |
| RequestParams.BearerTokenRoundTrip | src/main/java/serverless/ShoppingCart/AddToCart.java:82-85 | prefixing a token with "Bearer " and extracting it gives the token back |
| RequestParams.ProxyProductId | src/main/java/serverless/ShoppingCart/DeleteFromCart.java:93-96 | a missing proxy parameter throws a null-pointer error; a proxy of slashes only throws an index error; otherwise the id contains no slash |
| RequestParams.ProxyProductIdOf | src/main/java/serverless/ShoppingCart/DeleteFromCart.java:93-96 | the id of `prefix/id` is its last segment |
| RequestParams.ProxyProductIdWhole | src/main/java/serverless/ShoppingCart/DeleteFromCart.java:93-96 | a proxy without slashes is the id itself |
| RequestParams.ProxyOfSlashes | src/main/java/serverless/ShoppingCart/DeleteFromCart.java:95-96 | a proxy made of slashes only throws an index error |
| RequestParams.QueryOrThrow | src/main/java/serverless/ShoppingCart/GetCart.java:111-112 | a missing query string throws a null-pointer error where the handler reads it without a guard |
| RequestParams.IntParam | src/main/java/serverless/ShoppingCart/GetOrders.java:98-99 | the parameter or its default is parsed, and a malformed number throws a number-format error |
| RequestParams.IntParamRoundTrip | src/main/java/serverless/ShoppingCart/GetOrders.java:98-99 | a parameter holding a number's decimal text reads back as that number |
| RequestParams.IntParamDefault | src/main/java/serverless/ShoppingCart/GetOrders.java:98-99 | an absent parameter reads as its default |
| RequestParams.PageParams | src/main/java/serverless/CatalogProduct/GetAndSearchProducts.java:51-52 | without page and pageSize parameters the page is 1 and the size is the handler's default; a malformed one throws a number-format error |
| JavaInts.Wrap32 | src/main/java/serverless/CatalogProduct/GetAndSearchProducts.java:130 | the result is the 32-bit value congruent to the exact one, and equals it when it is in range |
| JavaInts.ParseInt | src/main/java/serverless/ShoppingCart/GetOrders.java:98 | only a non-empty text can parse |
| JavaInts.ToDecimal | src/main/java/serverless/ShoppingCart/AddToCart.java:143 | a number's text is non-empty and made of digits and minus signs |
| JavaInts.DigitsRoundTrip | src/main/java/serverless/ShoppingCart/AddToCart.java:143 | the digits of a natural number read back as that number |
| JavaInts.ParseToDecimal | src/main/java/serverless/ShoppingCart/AddToCart.java:143 | parsing the decimal text of any 32-bit number gives the number back |
| JavaInts.ParseNegative | src/main/java/serverless/ShoppingCart/AddToCart.java:143 | a minus sign followed by the digits of m parses to -m, down to the smallest int |
| JavaInts.DecimalHasNoSeparators | src/main/java/serverless/ShoppingCart/AddToCart.java:143-144 | a number's text holds no `:`, `;` or space, so it never breaks the cart format |
| JavaInts.DecimalInjective | src/main/java/serverless/ShoppingCart/AddToCart.java:143 | distinct natural numbers have distinct texts |
| JavaStrings.Split | src/main/java/serverless/lib/ResponseTransformer.java:44 | no piece contains the delimiter; a string without it is its own single piece; when the delimiter occurs, the last piece is never empty |
| JavaStrings.AllDelimitersSplitEmpty | src/main/java/serverless/lib/ResponseTransformer.java:44 | a split yields no pieces exactly when the string is non-empty and made of delimiters only |
| JavaStrings.JoinSplit | src/main/java/serverless/ShoppingCart/AddToCart.java:137-153 | joining pieces with the delimiter and splitting again gives the pieces back when the last is non-empty |
| JavaStrings.SplitTerminated | src/main/java/serverless/ShoppingCart/DeleteFromCart.java:117-125 | splitting a string in which every piece is followed by the delimiter gives the pieces without their trailing empties |
| JavaStrings.SplitFirst | src/main/java/serverless/ShoppingCart/AddToCart.java:140-141 | the first piece is a prefix of the string, ended by the delimiter or by the end |
| JavaStrings.LastSegment | src/main/java/serverless/FaultTolerance.java:141-144 | the last segment contains no delimiter; it is missing exactly when the string is non-empty and made of delimiters only |
| JavaStrings.LastSegmentOf | src/main/java/serverless/FaultTolerance.java:141-144 | the last segment after a delimiter is the non-empty name that follows it |
| JavaStrings.LastSegmentWhole | src/main/java/serverless/ShoppingCart/DeleteFromCart.java:95-96 | a string without the delimiter is its own last segment |
| JavaStrings.ToLower | src/main/java/serverless/CatalogProduct/GetAndSearchProducts.java:47 | every character is lower-cased in place |
| JavaStrings.ToUpper | src/main/java/serverless/CatalogProduct/GetAndSearchProducts.java:111 | every character is upper-cased in place |
| CartEntries.EntryId | src/main/java/serverless/ShoppingCart/AddToCart.java:140-141 | the id is the text before the first colon; only an entry made of colons alone throws an index error |
| CartEntries.QuantityText | src/main/java/serverless/ShoppingCart/DeleteFromCart.java:121-123 | the quantity is the second piece and throws an index error when there is none |
| CartEntries.ReadEntry | src/main/java/serverless/ShoppingCart/AddToCart.java:140-143 | a stored entry reads back as its id and quantity |
| CartEntries.EntryIdOf | src/main/java/serverless/ShoppingCart/AddToCart.java:151 | an appended `id:quantity` entry has the id as its id |
| AddToCart.FindOrder | src/main/java/serverless/ShoppingCart/AddToCart.java:139-148 | the index found is the first entry whose id equals the product id, and every earlier entry differs; an entry of colons only before it throws an index error |
| AddToCart.FindPrefix | src/main/java/serverless/ShoppingCart/AddToCart.java:139-148 | a search that starts after a run of non-matching entries finds the same result |
| AddToCart.Rewrite | src/main/java/serverless/ShoppingCart/AddToCart.java:143-144 | the entry keeps its id and takes the parsed quantity in decimal; a missing or malformed quantity throws a number-format error |
| AddToCart.Upsert | src/main/java/serverless/ShoppingCart/AddToCart.java:138-152 | an absent product is appended as `productId:quantity`; a present one has only its first entry rewritten, with the count and every other entry unchanged |
| AddToCart.UpsertLoop | src/main/java/serverless/ShoppingCart/AddToCart.java:138-152 | the loop with its early exit computes the upsert |
| AddToCart.HandleAddToCart | src/main/java/serverless/ShoppingCart/AddToCart.java:81-153 | a missing headers map throws; a refused token gives 403 and writes nothing; a missing or incomplete cart ends up holding exactly the new entry |
| AddToCart.AddToInitialList | src/main/java/serverless/ShoppingCart/AddToCart.java:118-153 | starting from the initial `;`, the stored list is exactly `productId:quantity` |
| AddToCart.StoredEntries | src/main/java/serverless/ShoppingCart/AddToCart.java:133-137 | a stored list has no trailing `;`, and after the appended `;` it splits into its entries |
| AddToCart.AddToStoredList | src/main/java/serverless/ShoppingCart/AddToCart.java:133-153 | updating a stored list is the upsert of its entries, joined with `;` |
| AddToCart.FindInEntries | src/main/java/serverless/ShoppingCart/AddToCart.java:139-142 | in a stored list the search finds the first product with the id, or none |
| AddToCart.RewriteEntry | src/main/java/serverless/ShoppingCart/AddToCart.java:143-144 | rewriting a stored entry gives the entry of the same product with the parsed quantity |
| AddToCart.AppendedList | src/main/java/serverless/ShoppingCart/AddToCart.java:149-153 | adding a product absent from the list stores the list with the product appended |
| AddToCart.AddNewProduct | src/main/java/serverless/ShoppingCart/AddToCart.java:149-153 | the stored result parses back to the old products followed by the new one |
| AddToCart.UpdatedList | src/main/java/serverless/ShoppingCart/AddToCart.java:139-153 | adding a product already listed stores the list with only its first entry's quantity replaced |
| AddToCart.UpdateProduct | src/main/java/serverless/ShoppingCart/AddToCart.java:139-153 | the stored result parses back to the old products with only that product's quantity replaced by the parsed number |
| AddToCart.HandleNewProduct | src/main/java/serverless/ShoppingCart/AddToCart.java:133-153 | for an accepted token and an existing cart, the handler writes a list that parses to the cart's products plus the new one |
| AddToCart.HandleUpdatedProduct | src/main/java/serverless/ShoppingCart/AddToCart.java:133-153 | for an accepted token and an existing cart, the handler writes a list that parses to the cart's products with the named one's quantity replaced |
| DeleteFromCart.RemovedQuantity | src/main/java/serverless/ShoppingCart/DeleteFromCart.java:121-123 | a matching entry's quantity is its second piece parsed; no second piece throws an index error and a malformed one a number-format error |
| DeleteFromCart.Kept | src/main/java/serverless/ShoppingCart/DeleteFromCart.java:120-126 | the entries kept are exactly those whose id differs from the target |
| DeleteFromCart.Remove | src/main/java/serverless/ShoppingCart/DeleteFromCart.java:117-127 | the removal fails only with an index or number-format error |
| DeleteFromCart.RemoveReads | src/main/java/serverless/ShoppingCart/DeleteFromCart.java:117-127 | the removal succeeds exactly when every entry can be read, and then keeps exactly the non-matching entries in order |
| DeleteFromCart.LastMatchWins | src/main/java/serverless/ShoppingCart/DeleteFromCart.java:119-124 | the quantity removed is that of the last matching entry |
| DeleteFromCart.NoMatchRemovesNothing | src/main/java/serverless/ShoppingCart/DeleteFromCart.java:119-124 | with no matching entry the quantity removed is 0 |
| DeleteFromCart.RemoveFailureStays | src/main/java/serverless/ShoppingCart/DeleteFromCart.java:120-127 | once an entry makes the loop throw, the later entries do not matter |
| DeleteFromCart.RemoveLoop | src/main/java/serverless/ShoppingCart/DeleteFromCart.java:117-127 | the loop writes every kept entry followed by `;` and returns the removed quantity, or throws the removal's error |
| DeleteFromCart.HandleDeleteFromCart | src/main/java/serverless/ShoppingCart/DeleteFromCart.java:76-142 | a refused token gives 403; a product missing from the product table gives 404 with the cart unwritten; a deletion is written only after the loop got through the cart, the list written is the loop's kept orders each followed by `;`, and the quantity removed is the loop's |
| DeleteFromCart.TerminatedEnds | src/main/java/serverless/ShoppingCart/DeleteFromCart.java:125 | a list written by the loop is empty or ends with `;` |
| DeleteFromCart.Without | src/main/java/serverless/ShoppingCart/DeleteFromCart.java:120-126 | the products left are exactly those whose id differs from the target |
| DeleteFromCart.KeptEntries | src/main/java/serverless/ShoppingCart/DeleteFromCart.java:120-126 | on a stored list the loop keeps exactly the entries of the products left |
| DeleteFromCart.RemoveEntries | src/main/java/serverless/ShoppingCart/DeleteFromCart.java:117-127 | a stored list with numeric quantities is always readable, and the removal keeps the entries of the products left |
| DeleteFromCart.DeleteStoredProduct | src/main/java/serverless/ShoppingCart/DeleteFromCart.java:110-149 | for an accepted token and a listed product, the handler writes a list that parses to the cart's products without the target |
| DeleteFromCart.DeleteTwice | src/main/java/serverless/ShoppingCart/DeleteFromCart.java:120-126 | while another product is left, removing the same id again leaves the list as it is and removes nothing (an emptied cart is the exception, see `EmptiedCart`) |
| DeleteFromCart.DeleteTwiceFromStored | src/main/java/serverless/ShoppingCart/DeleteFromCart.java:116-126 | reading an empty stored list as no orders, removing the same id twice equals removing it once for every cart, the emptied one included |
| DeleteFromCart.WithoutAbsent | src/main/java/serverless/ShoppingCart/DeleteFromCart.java:120-126 | removing an id that is not listed keeps every product |
| DeleteFromCart.EmptiedCart | src/main/java/serverless/ShoppingCart/DeleteFromCart.java:113-125 | an empty OrderList splits into one empty entry, which is kept and written back as `;`, so a second deletion changes an emptied cart |
| GetAndSearchProducts.Words | src/main/java/serverless/CatalogProduct/GetAndSearchProducts.java:70-74 | the words kept are the non-empty pieces, never more than the pieces |
| GetAndSearchProducts.PlaceholdersDistinct | src/main/java/serverless/CatalogProduct/GetAndSearchProducts.java:80 | distinct word numbers give distinct placeholders, and none is the category placeholder |
| GetAndSearchProducts.CapitalizedLowers | src/main/java/serverless/CatalogProduct/GetAndSearchProducts.java:75 | a capitalized word keeps its length, starts with its first letter upper-cased and lower-cases to the word |
| GetAndSearchProducts.SearchExpressionJoins | src/main/java/serverless/CatalogProduct/GetAndSearchProducts.java:76-79 | the expression is the numbered `contains` clauses joined by " AND " |
| GetAndSearchProducts.SearchValuesBind | src/main/java/serverless/CatalogProduct/GetAndSearchProducts.java:80 | placeholder i is bound to word i capitalized, and no other placeholder is bound |
| GetAndSearchProducts.BuildSearch | src/main/java/serverless/CatalogProduct/GetAndSearchProducts.java:69-85 | the loop numbers the non-empty words from 0 and builds their clauses and bindings |
| GetAndSearchProducts.ScanFilter | src/main/java/serverless/CatalogProduct/GetAndSearchProducts.java:69-100 | no filter is attached exactly when there is no word and no category; a category clause comes last |
| GetAndSearchProducts.ScanFilterBinds | src/main/java/serverless/CatalogProduct/GetAndSearchProducts.java:69-95 | the filter binds each word's placeholder to the capitalized word, the category placeholder to the category when there is one, and nothing else |
| GetAndSearchProducts.SearchForWords | src/main/java/serverless/CatalogProduct/GetAndSearchProducts.java:69-85 | a term made of words joined by spaces yields those words, a filter, and their bindings |
| GetAndSearchProducts.SortOrdering | src/main/java/serverless/CatalogProduct/GetAndSearchProducts.java:107-122 | only AverageRating and Price sort; the order is reversed exactly when sortOrder is DSC in any case; the handler sorts by exactly this ordering and keeps scan order without one (HandleGetAndSearchProducts) |
| GetAndSearchProducts.HandleGetAndSearchProducts | src/main/java/serverless/CatalogProduct/GetAndSearchProducts.java:39-144 | a listing carries the filter built from the lower-cased term and the category; totalProducts is the number of scanned items; the products are the requested page of the scan, sorted by the request's ordering or left in scan order, each flattened; currentRangeStart is the page start plus one and currentRangeEnd its end; a listing exactly when the sort and the page succeed; a failing sort's exception and a malformed number throw |
| GetAndSearchProducts.DefaultListing | src/main/java/serverless/CatalogProduct/GetAndSearchProducts.java:47-52 | without query parameters the scan is unfiltered and the first four items are listed, numbered from 1 |
| GetAndSearchProducts.ListedPage | src/main/java/serverless/CatalogProduct/GetAndSearchProducts.java:128-141 | without a sort, and while p·k fits in an int, page p of size k exists exactly when (p-1)·k items precede it, and then lists the scanned items (p-1)·k up to p·k or the end, flattened, with range (p-1)·k+1 to that end |
| Pagination.TotalPages | src/main/java/serverless/CatalogProduct/GetAndSearchProducts.java:128 | with a positive size, the fewest pages that hold all items; a zero size gives 0 or the largest int, as the double division does |
| Pagination.CeilDiv | src/main/java/serverless/CatalogProduct/GetAndSearchProducts.java:128 | the integer ceiling quotient is the fewest pages that hold n items |
| Pagination.PageEnd | src/main/java/serverless/CatalogProduct/GetAndSearchProducts.java:131 | the end of a page never passes the number of items |
| Pagination.SubList | src/main/java/serverless/CatalogProduct/GetAndSearchProducts.java:132 | a slice succeeds exactly when its bounds are ordered and in range, and throws an index or illegal-argument error otherwise |
| Pagination.Paginate | src/main/java/serverless/CatalogProduct/GetAndSearchProducts.java:128-132 | a page is the items between start and end, never more than pageSize of them, with totalPages as computed |
| Pagination.PaginateExact | src/main/java/serverless/CatalogProduct/GetAndSearchProducts.java:130-132 | for a page of 1 or more with page·pageSize within an int, the slice succeeds exactly when its start is within the items, starts at (page-1)*pageSize and ends at min(page*pageSize, n) |
| Pagination.FirstPage | src/main/java/serverless/CatalogProduct/GetAndSearchProducts.java:130-132 | page 1 is the first pageSize items |
| Pagination.PageBelowOne | src/main/java/serverless/CatalogProduct/GetAndSearchProducts.java:130-132 | with a positive size, a page below 1 whose start (page-1)·pageSize does not overflow throws an index error |
| Pagination.PagesCover | src/main/java/serverless/CatalogProduct/GetAndSearchProducts.java:128-132 | with a positive size and items plus one page within an int, the pages from 1 to totalPages, concatenated, are exactly the items |
| Pagination.ItemOnItsPage | src/main/java/serverless/CatalogProduct/GetAndSearchProducts.java:128-132 | item q*pageSize+m is at position m of page q+1, which exists |
| Pagination.PageOfItem | src/main/java/serverless/CatalogProduct/GetAndSearchProducts.java:130-132 | every item appears on page i/pageSize+1 at position i%pageSize |
| Pagination.AtMostOnePage | src/main/java/serverless/CatalogProduct/GetAndSearchProducts.java:128 | no more items than pageSize fit on at most one page |
| Pagination.FarPageWraps | src/main/java/serverless/CatalogProduct/GetAndSearchProducts.java:130-132 | page 429496731 of size 10 wraps its start to 4, so against ten items it lists the last six although there is one page |
| Pagination.NegativePageWraps | src/main/java/serverless/CatalogProduct/GetAndSearchProducts.java:130-132 | page -268435454 of size 16 wraps its start to 16, so against 32 items it lists the second half instead of throwing |
| Pagination.CappedResult | src/main/java/serverless/ShoppingCart/GetOrders.java:112-115 | with no more items than a positive pageSize there is at most one page, and any later page whose page·pageSize fits in an int is empty if it does not throw |
| GetCart.OrderListOf | src/main/java/serverless/ShoppingCart/GetCart.java:97 | a cart without an OrderList S value throws a null-pointer error |
| GetCart.HandleGetCart | src/main/java/serverless/ShoppingCart/GetCart.java:76-126 | the raw header is verified; a caught refusal gives 401 with "Invalid token: " and the message, other refusals escape; an accepted token reads the cart |
| GetCart.ReadCart | src/main/java/serverless/ShoppingCart/GetCart.java:97-126 | the empty-cart response is given exactly when there is no cart or its OrderList is empty; otherwise a listing is a page of the parsed products |
| GetCart.CartItemProducts | src/main/java/serverless/ShoppingCart/GetCart.java:107-109 | transforming the cart item succeeds exactly when its OrderList parses, and gives its products and TotalPrice |
| GetCart.ListPage | src/main/java/serverless/ShoppingCart/GetCart.java:111-123 | a missing query string throws; a listing is the requested page of the products with totalPages and the stored TotalPrice echoed |
| GetCart.StoredCartReads | src/main/java/serverless/ShoppingCart/GetCart.java:107-123 | a cart written by AddToCart is listed as its own products |
| GetCart.StoredCartFirstPage | src/main/java/serverless/ShoppingCart/GetCart.java:111-117 | with no parameters, the first ten products are listed |
| GetCart.ProductOnItsPage | src/main/java/serverless/ShoppingCart/GetCart.java:112-117 | every product in the cart appears on its own page |
| GetCart.TerminatorOnlyCart | src/main/java/serverless/ShoppingCart/GetCart.java:97-117 | a cart holding only `;` passes the emptiness check and lists no products on zero pages |
| GetCart.NoQueryString | src/main/java/serverless/ShoppingCart/GetCart.java:111-112 | a non-empty cart read without a query string throws a null-pointer error |
| GetOrders.LimitedQuery | src/main/java/serverless/ShoppingCart/GetOrders.java:101-107 | a query limited to pageSize returns the first min(pageSize, n) orders; a limit below 1 is rejected |
| GetOrders.PresentAll | src/main/java/serverless/ShoppingCart/GetOrders.java:116-124 | the orders are presented one by one, in order, and any failure fails them all |
| GetOrders.HandleWith | src/main/java/serverless/ShoppingCart/GetOrders.java:46-140 | a missing headers map gives 500; a refused token gives 401; a listing is the requested page of the limited query's result with its totalPages |
| GetOrders.ListedWith | src/main/java/serverless/ShoppingCart/GetOrders.java:97-130 | when every step succeeds, the response is the presented page and its totalPages |
| GetOrders.HandleGetOrders | src/main/java/serverless/ShoppingCart/GetOrders.java:101-115 | a listing's totalPages counts only the min(pageSize, n) orders the limited query returns |
| GetOrders.OrdersCapped | src/main/java/serverless/ShoppingCart/GetOrders.java:101-115 | a listing has at most one page, and any page from 2 on whose page·pageSize fits in an int is empty |
| GetOrders.SecondPageOfElevenOrders | src/main/java/serverless/ShoppingCart/GetOrders.java:101-115 | a user with eleven orders asking for page 2 gets no orders and one page |
| GetOrders.HandleGetOrdersUncapped | src/main/java/serverless/ShoppingCart/GetOrders.java:112-115 | with the query not limited, totalPages counts all of the user's orders |
| GetOrders.EveryOrderOnItsPage | src/main/java/serverless/ShoppingCart/GetOrders.java:112-115 | with the query not limited, every order appears on its own page |
| GetOrders.PresentedPage | src/main/java/serverless/ShoppingCart/GetOrders.java:116-119 | a page of orders that can all be presented is presented |
| ProductComments.CommentsPage | src/main/java/serverless/CatalogProduct/GetProductComments.java:101-117 | the comments are the page's items flattened, at most pageSize of them; totalComments is the number of items and ratingCounts their histogram; the slice is checked before the ratings are read |
| ProductComments.HandleGetProductComments | src/main/java/serverless/CatalogProduct/GetProductComments.java:76-121 | the product id is the last segment of the proxy; a bad proxy or number throws, and so does a failing comment query; a listing is the comment page of that product |
| ProductComments.HandleGetComments | src/main/java/serverless/CatalogProduct/getComments.java:60-99 | the numbers are read first; missing path parameters throw a null-pointer error; a listing is the comment page of the productId parameter, unsplit |
| ProductComments.CountsCoverAllComments | src/main/java/serverless/CatalogProduct/GetProductComments.java:107-112 | the histogram has a key for each rating present, counts its occurrences, and the counts sum to totalComments |
| ProductComments.SameCountsOnEveryPage | src/main/java/serverless/CatalogProduct/GetProductComments.java:102-117 | totalComments and ratingCounts do not depend on the page asked for |
| ProductComments.DefaultCommentsPage | src/main/java/serverless/CatalogProduct/GetProductComments.java:84-106 | without parameters the first four comments are listed |
| ProductComments.ReadOrder | src/main/java/serverless/CatalogProduct/getComments.java:64-67 | with a bad page and no path parameters, getComments throws a number-format error and GetProductComments a null-pointer error |
| RatingCounts.Ratings | src/main/java/serverless/CatalogProduct/GetProductComments.java:109-110 | every item's Rating N text, in order; a missing Rating throws a null-pointer error |
| RatingCounts.Occurrences | src/main/java/serverless/CatalogProduct/GetProductComments.java:108-112 | a rating never occurs more often than there are ratings |
| RatingCounts.HistogramCounts | src/main/java/serverless/CatalogProduct/GetProductComments.java:108-112 | the histogram has a key exactly for each rating present, mapped to its number of occurrences |
| RatingCounts.CountsSumToTotal | src/main/java/serverless/CatalogProduct/GetProductComments.java:107-112 | the counts, each key taken once, sum to the number of comments |
| RatingCounts.SumOfCounts | src/main/java/serverless/CatalogProduct/GetProductComments.java:107-112 | the same sum, by induction over the ratings |
| RatingCounts.CountRatings | src/main/java/serverless/CatalogProduct/GetProductComments.java:108-112 | the loop over all items, not just the page, computes the histogram, or throws where a Rating is missing |

## Left out

- Floating-point prices are not modelled: the cart's TotalPrice arithmetic in AddToCart (lines 169-199) and DeleteFromCart (lines 114, 143-146) and the `discountPrice` lookup. TotalPrice is carried as its stored text.
- The double-keyed sort of GetAndSearchProducts is a parameter. Only the choice of sort attribute and direction is modelled (`SortOrdering`).
- Gson is modelled only for a bare string (`ResponseGenerator.JsonString`); the rest of Gson is not, and request and response bodies are abstract values. `transformOrderItem` and the TimeStamp reformatting of GetOrders are one parameter, `present`.
- `Thread.sleep` and its interrupt handling are left out. An interrupted sleep at line 107 of FaultTolerance.java would re-enter the catch and log a second record; the model does not capture that.
- The metrics sink and the error table are treated as infallible. In the source, a throwing publish inside the try counts as a failed attempt.
- All AWS I/O is a parameter of the model: Lambda invoke, DynamoDB get/put/query/scan/update, CloudWatch, configuration, X-Ray and logging. The wall clock reads become `now` and the per-attempt clocks of the oracle.
- DynamoDB's 1 MB result paging is left out: a query or scan returns all matching items.
- Token verification is a parameter returning a verdict. Which failures each handler catches is modelled.
- Concurrency across dispatcher instances is left out: the error table is read and written by one request at a time.
- Case mapping covers ASCII letters only; Java's full Unicode case tables are not modelled.
- JavaInts.ParseInt: accepts ASCII digits only, where Java also accepts other Unicode decimal digits. Its own contract states only that empty text fails; its meaning is stated by the round trips `ParseToDecimal` and `ParseNegative`.
- DeleteFromCart.Remove: its own contract names only the errors it can throw. What it keeps and when it succeeds is stated by `RemoveReads`, and the quantity it removes by `LastMatchWins` and `NoMatchRemovesNothing`.
- The DynamoDbException wrapping of AddToCart and DeleteFromCart is left out: every exception escaping a handler is one `Throws` outcome.
- Lists and strings are assumed to fit the Java `int` range (`JavaSized`, `|items| <= MaxInt`), as Java lists and strings do.
- Pagination.PaginateExact: stated only while page·pageSize fits in an int. Beyond that the start wraps and a far page can list items again, as `FarPageWraps` shows.
- Pagination.PageBelowOne: stated only while (page-1)·pageSize does not overflow. Beyond that a page below 1 can list items, as `NegativePageWraps` shows.
- Pagination.PagesCover: stated for a positive pageSize only. With pageSize 0 and some items, totalPages is the largest int and every page is empty, so the items are on no page.
- Pagination.CappedResult: the later pages are stated empty only while page·pageSize fits in an int, for the reason given for `PaginateExact`.
- GetOrders.OrdersCapped: the same overflow bound as `Pagination.CappedResult`.
- GetAndSearchProducts.ListedPage: the same overflow bound as `Pagination.PaginateExact`.
- ResponseTransformer.TransformCartItem: for an item holding both `OrderList` and an attribute named `products`, Java's result depends on the item map's iteration order; the model lets the parsed product list win.
- FaultTolerance.FunctionNameOfArn: proved for any colon-free name after the account's ARN prefix. That the three literal function names in the table contain no colon is not proved, because the solver does not unfold long string literals.
- FaultTolerance.NeverSucceedsFallsBack: states the fallback and its single counter. The number of invocations when every attempt throws is bounded by `Guarded`, but not stated as exactly `retries`.

## Findings

| source | as written | input that shows it | evidently intended | confidence | as-written member | corrected member |
|---|---|---|---|---|---|---|
| src/main/java/serverless/ShoppingCart/GetOrders.java:101-115 | the query is limited to `pageSize` items and the result is then paged again by `page`, so `totalPages` is at most 1 and every page from 2 on is empty or throws, as long as page·pageSize fits in an int | a user with 11 orders asks for `page=2` with the default size 10: the reply is no orders and `totalPages` 1 | page over all of the user's orders: `totalPages` counts them all, and order i appears on page i/10+1 (GetOrders.EveryOrderOnItsPage) | not executed | GetOrders.SecondPageOfElevenOrders | GetOrders.HandleGetOrdersUncapped |
| src/main/java/serverless/ShoppingCart/DeleteFromCart.java:113-126 | an emptied cart stores `""`, which `split(";")` reads as one empty order; that order is kept, so deleting any product from the emptied cart stores `";"` | delete the only product `p1` from `p1:2`, then delete `p1` again: the first call stores `""`, the second `";"`, and the cart reader then lists zero products on 0 pages instead of the empty-cart reply | deleting a product twice equals deleting it once, reading an empty list as no orders (DeleteFromCart.StoredOrders) | not executed | DeleteFromCart.EmptiedCart | DeleteFromCart.DeleteTwiceFromStored |

=== FILE: add_to_cart.dfy ===
/** `AddToCart.handleRequest`: verify the Bearer token, make sure the cart
    has an `OrderList` and a `TotalPrice`, then either rewrite the quantity
    of the first entry for the product or append a new `pid:qty` entry, and
    store the entries joined by `;`.

    The cart table is reduced to the item read before the update; the
    price recomputation that follows the write is not modelled. */
module AddToCart {
  import opened Wrappers
  import opened JavaExceptions
  import opened JavaStrings
  import opened JavaInts
  import opened RequestParams
  import opened CartEntries
  import RT = ResponseTransformer

  const InitialOrderList: string := ";"
  const InitialTotalPrice: string := "0.0"
  const ProductIdKey: string := "productId"
  const QuantityKey: string := "quantity"

  /** An order the scan passes over: its id reads, and is not the product's
      (`equals(null)` is false). */
  predicate Unmatched(order: string, productId: Option<string>) {
    EntryId(order).Success? && productId != Some(EntryId(order).value)
  }

  /** The scan for the first order, from `from` on, whose id is the product
      id; reading an order's id can throw. */
  function FindOrder(orders: seq<string>, productId: Option<string>, from: nat): (r: Result<Option<nat>, Thrown>)
    requires from <= |orders|
    ensures r.Success? && r.value.Some? ==>
      && from <= r.value.value < |orders|
      && EntryId(orders[r.value.value]).Success?
      && productId == Some(EntryId(orders[r.value.value]).value)
    ensures r.Success? ==>
      forall j :: from <= j < (if r.value.Some? then r.value.value else |orders|) ==> Unmatched(orders[j], productId)
    ensures r.Failure? ==> r.error == IndexOutOfBounds
    ensures r.Failure? ==> exists j :: from <= j < |orders| && EntryId(orders[j]).Failure?
    decreases |orders| - from
  {
    if from == |orders| then Success(None)
    else
      var id :- EntryId(orders[from]);
      if productId == Some(id) then Success(Some(from)) else FindOrder(orders, productId, from + 1)
  }

  /** The matched entry with its quantity replaced:
      `parts[1] = String.valueOf(Integer.parseInt(quantity))`, then the parts
      joined by `:`. The quantity is parsed before the store into `parts[1]`,
      so a bad quantity throws NumberFormatException even for an entry with
      no second piece. */
  function Rewrite(order: string, quantity: Option<string>): (r: Result<string, Thrown>)
    ensures r.Failure? <==> quantity.None? || ParseInt(quantity.value).None? || |Split(order, ':')| < 2
    ensures quantity.None? || ParseInt(quantity.value).None? ==> r == Failure(NumberFormat)
    // the id is kept and the quantity is the parsed number in decimal
    ensures r.Success? ==> EntryId(r.value) == EntryId(order)
    ensures r.Success? ==> QuantityText(r.value) == Success(ToDecimal(ParseInt(quantity.value).value))
  {
    if quantity.None? || ParseInt(quantity.value).None? then Failure(NumberFormat)
    else
      var parts := Split(order, ':');
      if |parts| < 2 then Failure(IndexOutOfBounds)
      else
        var q := ToDecimal(ParseInt(quantity.value).value);
        var parts' := parts[1 := q];
        DecimalHasNoSeparators(ParseInt(quantity.value).value);
        assert parts'[|parts'| - 1] != "";
        JoinSplit(parts', ':');
        Success(JoinWith(parts', ":"))
  }

  /** The entry appended for a product not in the cart: the raw quantity,
      unparsed, and "null" for a missing field. */
  function NewEntry(productId: Option<string>, quantity: Option<string>): string {
    Show(productId) + ":" + Show(quantity)
  }

  /** The loop over the orders: rewrite the first match, or append. */
  function Upsert(orders: seq<string>, productId: Option<string>, quantity: Option<string>): (r: Result<seq<string>, Thrown>)
    ensures r.Success? ==> FindOrder(orders, productId, 0).Success?
    ensures r.Success? && FindOrder(orders, productId, 0).value.None? ==> r.value == orders + [NewEntry(productId, quantity)]
    ensures r.Success? && FindOrder(orders, productId, 0).value.Some? ==>
      var i := FindOrder(orders, productId, 0).value.value;
      && |r.value| == |orders|
      && Rewrite(orders[i], quantity).Success?
      && r.value[i] == Rewrite(orders[i], quantity).value
      && forall j :: 0 <= j < |orders| && j != i ==> r.value[j] == orders[j]
  {
    var found :- FindOrder(orders, productId, 0);
    if found.None? then Success(orders + [NewEntry(productId, quantity)])
    else
      var e :- Rewrite(orders[found.value], quantity);
      Success(orders[found.value := e])
  }

  /** The loop as written, with its `break` at the first match. */
  method UpsertLoop(orders: seq<string>, productId: Option<string>, quantity: Option<string>) returns (r: Result<seq<string>, Thrown>)
    ensures r == Upsert(orders, productId, quantity)
  {
    var i := 0;
    while i < |orders|
      invariant 0 <= i <= |orders|
      invariant FindOrder(orders, productId, 0) == FindOrder(orders, productId, i)
    {
      var id := EntryId(orders[i]);
      if id.Failure? {
        return Failure(id.error);
      }
      if productId == Some(id.value) {
        var e := Rewrite(orders[i], quantity);
        if e.Failure? {
          return Failure(e.error);
        }
        return Success(orders[i := e.value]);
      }
      i := i + 1;
    }
    return Success(orders + [NewEntry(productId, quantity)]);
  }

  /** The `OrderList` written back: the stored list given a trailing `;`,
      split, updated, and joined by `;`. */
  function AddToOrderList(stored: string, productId: Option<string>, quantity: Option<string>): Result<string, Thrown> {
    var terminated := if EndsWith(stored, ";") then stored else stored + ";";
    var updated :- Upsert(Split(terminated, ';'), productId, quantity);
    Success(JoinWith(updated, ";"))
  }

  // ---------------------------------------------------------------------
  // The handler

  /** What the handler's write step produced: the token refused, the
      `OrderList` written, or an exception. The price update and reply
      that follow a write are not modelled. */
  datatype Outcome =
    | Forbidden                                  // 403 "Invalid token."
    | Written(orderList: string, initialised: bool) // the `OrderList` stored, and whether the cart was initialised first
    | Throws(cause: Thrown)                      // an exception left the handler

  /** A cart that is first initialised to `OrderList = ";"` and
      `TotalPrice = 0.0`: a missing item, or one without either attribute. */
  predicate NeedsInit(cart: Option<RT.Item>) {
    cart.None? || RT.OrderListKey !in cart.value || RT.TotalPriceKey !in cart.value
  }

  /** The `OrderList` text read after the initialisation, null when the
      attribute is not a string. */
  function StoredOrderList(cart: Option<RT.Item>): Option<string> {
    if NeedsInit(cart) then Some(InitialOrderList) else cart.value[RT.OrderListKey].s
  }

  function HandleAddToCart(e: Event, body: Option<Params>, verify: string -> Verification, cart: Option<RT.Item>): (r: Outcome)
    ensures e.headers.None? ==> r == Throws(NullPointer)
    ensures e.headers.Some? ==>
      var v := verify(BearerToken(AuthorizationHeader(e).value));
      && (r == Forbidden <==> v.Refused? && CartWriterCatches(v.failure))
      && (r.Written? ==> v.Verified?)
    // a new or incomplete cart ends up holding exactly the new entry
    ensures e.headers.Some? && verify(BearerToken(AuthorizationHeader(e).value)).Verified? && body.Some? && NeedsInit(cart) ==>
      r == Written(NewEntry(Get(body.value, ProductIdKey), Get(body.value, QuantityKey)), true)
  {
    var header := AuthorizationHeader(e);
    if header.Failure? then Throws(header.error)
    else
      match verify(BearerToken(header.value))
      case Refused(failure, message) =>
        if CartWriterCatches(failure) then Forbidden else Throws(Unverified(message))
      case Verified(_) =>
        if body.None? then Throws(NullPointer)
        else
          var productId := Get(body.value, ProductIdKey);
          var quantity := Get(body.value, QuantityKey);
          var stored := StoredOrderList(cart);
          if stored.None? then Throws(NullPointer)
          else
            AddToInitialList(productId, quantity);
            match AddToOrderList(stored.value, productId, quantity)
            case Success(list) => Written(list, NeedsInit(cart))
            case Failure(cause) => Throws(cause)
  }

  // ---------------------------------------------------------------------
  // Properties of the order-list update

  /** Adding to the initial list `";"` stores exactly the new entry. */
  lemma AddToInitialList(productId: Option<string>, quantity: Option<string>)
    ensures AddToOrderList(InitialOrderList, productId, quantity) == Success(NewEntry(productId, quantity))
  {
    assert EndsWith(InitialOrderList, ";");
    AllDelimitersSplitEmpty(InitialOrderList, ';');
  }

  /** The stored list of a non-empty product list, given its trailing `;`,
      splits back into the products' entries. */
  lemma StoredEntries(ps: seq<RT.Product>)
    requires |ps| > 0
    requires forall i :: 0 <= i < |ps| ==> RT.Storable(ps[i])
    ensures !EndsWith(RT.RenderOrderList(ps), ";")
    ensures Split(RT.RenderOrderList(ps) + ";", ';') == RT.Entries(ps)
  {
    var entries := RT.Entries(ps);
    var s := RT.RenderOrderList(ps);
    var last := entries[|entries| - 1];
    JoinEndsWithLast(entries, ";");
    assert s[|s| - 1] == last[|last| - 1];
    assert ';' !in last;
    forall i | 0 <= i < |entries| ensures ';' !in entries[i] {
      RT.EntrySplit(ps[i]);
    }
    JoinTerminated(entries, ';');
    SplitTerminated(entries, ';');
  }

  /** The stored list of a non-empty product list goes through the update
      as the products' own entries. */
  lemma AddToStoredList(ps: seq<RT.Product>, productId: Option<string>, quantity: Option<string>)
    requires |ps| > 0
    requires forall i :: 0 <= i < |ps| ==> RT.Storable(ps[i])
    ensures AddToOrderList(RT.RenderOrderList(ps), productId, quantity) == Joined(Upsert(RT.Entries(ps), productId, quantity))
  {
    StoredEntries(ps);
  }

  /** An updated list of entries joined by `;`. */
  function Joined(r: Result<seq<string>, Thrown>): Result<string, Thrown> {
    if r.Success? then Success(JoinWith(r.value, ";")) else Failure(r.error)
  }

  /** The scan of stored entries stops at the first product with the id,
      and reaches the end when there is none. */
  lemma FindInEntries(ps: seq<RT.Product>, pid: string, i: nat)
    requires forall j :: 0 <= j < |ps| ==> RT.Storable(ps[j])
    requires i <= |ps| && forall j :: 0 <= j < i ==> ps[j].productId != pid
    requires i < |ps| ==> ps[i].productId == pid
    ensures FindOrder(RT.Entries(ps), Some(pid), 0) == Success(if i < |ps| then Some(i) else None)
  {
    var entries := RT.Entries(ps);
    forall j | 0 <= j < |entries| ensures EntryId(entries[j]) == Success(ps[j].productId) {
      ReadEntry(ps[j]);
    }
    FindPrefix(entries, Some(pid), i);
  }

  /** Rewriting a stored entry's quantity gives the entry of the product
      with the number in decimal. */
  lemma RewriteEntry(p: RT.Product, quantity: string, n: Int32)
    requires RT.Storable(p) && ParseInt(quantity) == Some(n)
    ensures Rewrite(RT.EntryOf(p), Some(quantity)) == Success(RT.EntryOf(RT.Product(p.productId, ToDecimal(n))))
  {
    RT.EntrySplit(p);
    var parts' := [p.productId, ToDecimal(n)];
    assert Split(RT.EntryOf(p), ':')[1 := ToDecimal(n)] == parts';
    assert JoinWith(parts', ":") == p.productId + ":" + ToDecimal(n) by {
      assert parts'[1..] == [ToDecimal(n)];
    }
  }

  /** Adding a product the cart does not hold appends it as the last
      product and leaves the others as they were. */
  lemma AddNewProduct(ps: seq<RT.Product>, p: RT.Product)
    requires forall i :: 0 <= i < |ps| ==> RT.Storable(ps[i])
    requires RT.Storable(p)
    requires forall i :: 0 <= i < |ps| ==> ps[i].productId != p.productId
    ensures AddToOrderList(RT.RenderOrderList(ps), Some(p.productId), Some(p.quantity)).Success?
    ensures RT.ParseOrderList(AddToOrderList(RT.RenderOrderList(ps), Some(p.productId), Some(p.quantity)).value)
      == Success(ps + [p])
  {
    AppendedList(ps, p);
    RT.OrderListRoundTrip(ps + [p]);
  }

  /** The list stored for a new product is the rendering of the products
      with it appended. */
  lemma AppendedList(ps: seq<RT.Product>, p: RT.Product)
    requires forall i :: 0 <= i < |ps| ==> RT.Storable(ps[i])
    requires RT.Storable(p)
    requires forall i :: 0 <= i < |ps| ==> ps[i].productId != p.productId
    ensures AddToOrderList(RT.RenderOrderList(ps), Some(p.productId), Some(p.quantity)) == Success(RT.RenderOrderList(ps + [p]))
  {
    var pid := Some(p.productId);
    var qty := Some(p.quantity);
    assert NewEntry(pid, qty) == RT.EntryOf(p);
    if |ps| == 0 {
      assert RT.RenderOrderList(ps) + ";" == InitialOrderList;
      AddToInitialList(pid, qty);
      assert ps + [p] == [p];
    } else {
      AppendedStoredList(ps, p);
    }
  }

  /** The append step `AddNewProduct` uses for a non-empty stored list: the
      new product's entry follows the stored ones. */
  lemma AppendedStoredList(ps: seq<RT.Product>, p: RT.Product)
    requires |ps| > 0 && forall i :: 0 <= i < |ps| ==> RT.Storable(ps[i])
    requires RT.Storable(p) && NewEntry(Some(p.productId), Some(p.quantity)) == RT.EntryOf(p)
    requires forall i :: 0 <= i < |ps| ==> ps[i].productId != p.productId
    ensures AddToOrderList(RT.RenderOrderList(ps), Some(p.productId), Some(p.quantity)) == Success(RT.RenderOrderList(ps + [p]))
  {
    var pid := Some(p.productId);
    var qty := Some(p.quantity);
    AddToStoredList(ps, pid, qty);
    FindInEntries(ps, p.productId, |ps|);
    assert Upsert(RT.Entries(ps), pid, qty) == Success(RT.Entries(ps) + [RT.EntryOf(p)]);
    assert RT.Entries(ps + [p]) == RT.Entries(ps) + [RT.EntryOf(p)];
  }

  /** Adding a product the cart holds rewrites the quantity of its first
      entry to the parsed number and leaves every other entry, and the
      order, as they were. */
  lemma UpdateProduct(ps: seq<RT.Product>, i: nat, quantity: string, n: Int32)
    requires forall j :: 0 <= j < |ps| ==> RT.Storable(ps[j])
    requires i < |ps| && forall j :: 0 <= j < i ==> ps[j].productId != ps[i].productId
    requires ParseInt(quantity) == Some(n)
    ensures AddToOrderList(RT.RenderOrderList(ps), Some(ps[i].productId), Some(quantity)).Success?
    ensures RT.ParseOrderList(AddToOrderList(RT.RenderOrderList(ps), Some(ps[i].productId), Some(quantity)).value)
      == Success(ps[i := RT.Product(ps[i].productId, ToDecimal(n))])
  {
    var ps' := ps[i := RT.Product(ps[i].productId, ToDecimal(n))];
    UpdatedList(ps, i, quantity, n);
    DecimalHasNoSeparators(n);
    assert forall j :: 0 <= j < |ps'| ==> RT.Storable(ps'[j]);
    RT.OrderListRoundTrip(ps');
  }

  /** The list stored for a product the cart holds is the rendering of the
      products with that one's quantity replaced. */
  lemma UpdatedList(ps: seq<RT.Product>, i: nat, quantity: string, n: Int32)
    requires forall j :: 0 <= j < |ps| ==> RT.Storable(ps[j])
    requires i < |ps| && forall j :: 0 <= j < i ==> ps[j].productId != ps[i].productId
    requires ParseInt(quantity) == Some(n)
    ensures AddToOrderList(RT.RenderOrderList(ps), Some(ps[i].productId), Some(quantity))
      == Success(RT.RenderOrderList(ps[i := RT.Product(ps[i].productId, ToDecimal(n))]))
  {
    var pid := ps[i].productId;
    var ps' := ps[i := RT.Product(pid, ToDecimal(n))];
    AddToStoredList(ps, Some(pid), Some(quantity));
    FindInEntries(ps, pid, i);
    RewriteEntry(ps[i], quantity, n);
    assert Upsert(RT.Entries(ps), Some(pid), Some(quantity)) == Success(RT.Entries(ps)[i := RT.EntryOf(ps'[i])]);
    assert RT.Entries(ps') == RT.Entries(ps)[i := RT.EntryOf(ps'[i])];
  }

  /** A verified request for a product the stored cart does not hold
      appends it to the cart's products. */
  lemma HandleNewProduct(e: Event, body: Params, verify: string -> Verification, cart: RT.Item, ps: seq<RT.Product>, p: RT.Product)
    requires e.headers.Some? && verify(BearerToken(AuthorizationHeader(e).value)).Verified?
    requires Get(body, ProductIdKey) == Some(p.productId) && Get(body, QuantityKey) == Some(p.quantity)
    requires RT.OrderListKey in cart && RT.TotalPriceKey in cart
    requires cart[RT.OrderListKey].s == Some(RT.RenderOrderList(ps))
    requires forall i :: 0 <= i < |ps| ==> RT.Storable(ps[i])
    requires RT.Storable(p) && forall i :: 0 <= i < |ps| ==> ps[i].productId != p.productId
    ensures var r := HandleAddToCart(e, Some(body), verify, Some(cart));
      r.Written? && !r.initialised && RT.ParseOrderList(r.orderList) == Success(ps + [p])
  {
    assert !NeedsInit(Some(cart)) && StoredOrderList(Some(cart)) == Some(RT.RenderOrderList(ps));
    AddNewProduct(ps, p);
  }

  /** A verified request for a product the stored cart holds sets that
      product's quantity and keeps the rest of the cart. */
  lemma HandleUpdatedProduct(e: Event, body: Params, verify: string -> Verification, cart: RT.Item, ps: seq<RT.Product>, i: nat, n: Int32)
    requires e.headers.Some? && verify(BearerToken(AuthorizationHeader(e).value)).Verified?
    requires i < |ps| && forall j :: 0 <= j < i ==> ps[j].productId != ps[i].productId
    requires Get(body, ProductIdKey) == Some(ps[i].productId) && QuantityKey in body && ParseInt(body[QuantityKey]) == Some(n)
    requires RT.OrderListKey in cart && RT.TotalPriceKey in cart
    requires cart[RT.OrderListKey].s == Some(RT.RenderOrderList(ps))
    requires forall j :: 0 <= j < |ps| ==> RT.Storable(ps[j])
    ensures var r := HandleAddToCart(e, Some(body), verify, Some(cart));
      r.Written? && !r.initialised && RT.ParseOrderList(r.orderList) == Success(ps[i := RT.Product(ps[i].productId, ToDecimal(n))])
  {
    assert !NeedsInit(Some(cart)) && StoredOrderList(Some(cart)) == Some(RT.RenderOrderList(ps));
    UpdateProduct(ps, i, body[QuantityKey], n);
  }

  /** Orders the scan passes over do not change where it stops. */
  lemma {:induction false} FindPrefix(orders: seq<string>, productId: Option<string>, k: nat)
    requires k <= |orders|
    requires forall j :: 0 <= j < k ==> Unmatched(orders[j], productId)
    ensures FindOrder(orders, productId, 0) == FindOrder(orders, productId, k)
    decreases k
  {
    if k > 0 {
      FindPrefix(orders, productId, k - 1);
    }
  }
}

=== FILE: cart_entries.dfy ===
/** Reading one `pid:qty` entry of a cart's `OrderList` the way AddToCart
    and DeleteFromCart do: `order.split(":")`, then `parts[0]` for the
    product id and `parts[1]` for the quantity. */
module CartEntries {
  import opened Wrappers
  import opened JavaExceptions
  import opened JavaStrings
  import RT = ResponseTransformer

  /** `order.split(":")[0]`: the text before the first colon. Only an entry
      made of colons alone splits into nothing and throws. */
  function EntryId(order: string): (r: Result<string, Thrown>)
    ensures r.Failure? <==> order != "" && forall i :: 0 <= i < |order| ==> order[i] == ':'
    ensures r.Failure? ==> r.error == IndexOutOfBounds
    ensures r.Success? ==> ':' !in r.value && StartsWith(order, r.value)
    ensures r.Success? ==> |r.value| == |order| || order[|r.value|] == ':'
  {
    var parts := Split(order, ':');
    AllDelimitersSplitEmpty(order, ':');
    assert order != "" ==> order[0] in order;
    if |parts| == 0 then Failure(IndexOutOfBounds)
    else
      SplitFirst(order, ':');
      Success(parts[0])
  }

  /** `order.split(":")[1]`: the text after the first colon, up to the next
      one; an entry with fewer than two pieces throws. */
  function QuantityText(order: string): (r: Result<string, Thrown>)
    ensures r.Failure? <==> |Split(order, ':')| < 2
    ensures r.Failure? ==> r.error == IndexOutOfBounds
    ensures r.Success? ==> ':' !in r.value
  {
    var parts := Split(order, ':');
    if |parts| < 2 then Failure(IndexOutOfBounds) else Success(parts[1])
  }

  /** A stored product's entry reads back as its id and quantity. */
  lemma ReadEntry(p: RT.Product)
    requires RT.Storable(p)
    ensures EntryId(RT.EntryOf(p)) == Success(p.productId)
    ensures QuantityText(RT.EntryOf(p)) == Success(p.quantity)
  {
    RT.EntrySplit(p);
  }

  /** The id of an entry made of an id and more text after a colon. */
  lemma EntryIdOf(id: string, rest: string)
    requires id != "" && ':' !in id
    ensures EntryId(id + ":" + rest) == Success(id)
  {
    var order := id + ":" + rest;
    assert order == id + [':'] + rest;
    assert order[|id|] == ':';
    RawSplitAppend(id, rest, ':');
    RawSplitNoDelimiter(id, ':');
    var raw := RawSplit(order, ':');
    assert raw[0] == id;
    assert |DropTrailingEmpty(raw)| > 0;
  }
}

=== FILE: delete_from_cart.dfy ===
/** `DeleteFromCart.handleRequest`: verify the Bearer token, take the
    product id from the end of the `proxy` path, drop every entry of the
    cart's `OrderList` with that id (remembering the quantity of the last
    one), and store the remaining entries each followed by `;`, unless the
    product is not in the product table.

    The cart is the item stored under the verified user's id, read before
    the update; the product is the product table's item for the id, empty
    when there is none. The new `TotalPrice` is floating-point arithmetic
    and is not modelled. */
module DeleteFromCart {
  import opened Wrappers
  import opened JavaExceptions
  import opened JavaStrings
  import opened JavaInts
  import opened RequestParams
  import opened CartEntries
  import RT = ResponseTransformer

  const DiscountPriceKey: string := "discountPrice"

  /** An order whose id is the product being deleted. */
  predicate Matches(order: string, target: string) {
    EntryId(order) == Success(target)
  }

  /** An order the loop keeps: its id reads and is another product's. */
  predicate KeptOrder(order: string, target: string) {
    EntryId(order).Success? && EntryId(order).value != target
  }

  /** `Integer.parseInt(parts[1])` for a matched order: the index throws
      before the parse does. */
  function RemovedQuantity(order: string): (r: Result<Int32, Thrown>)
    ensures r.Failure? <==> QuantityText(order).Failure? || ParseInt(QuantityText(order).value).None?
    ensures r.Failure? ==> r.error == (if QuantityText(order).Failure? then IndexOutOfBounds else NumberFormat)
    ensures r.Success? ==> ParseInt(QuantityText(order).value) == Some(r.value)
  {
    var text :- QuantityText(order);
    var n := ParseInt(text);
    if n.None? then Failure(NumberFormat) else Success(n.value)
  }

  /** An order the loop gets through without throwing. */
  predicate Readable(order: string, target: string) {
    EntryId(order).Success? && (Matches(order, target) ==> RemovedQuantity(order).Success?)
  }

  /** The orders that are kept, in order: every order of another product. */
  function Kept(orders: seq<string>, target: string): (r: seq<string>)
    ensures forall x :: x in r <==> x in orders && KeptOrder(x, target)
    ensures |r| <= |orders|
    decreases |orders|
  {
    if |orders| == 0 then []
    else
      var n := |orders| - 1;
      var prefix := Kept(orders[..n], target);
      assert orders == orders[..n] + [orders[n]];
      if KeptOrder(orders[n], target) then prefix + [orders[n]] else prefix
  }

  /** What the loop leaves: the orders kept and the quantity removed. */
  datatype Removal = Removal(kept: seq<string>, quantity: Int32)

  /** The loop over the orders, one more order at a time: a kept order is
      appended, a matched one sets the quantity, and the first order that
      cannot be read throws. */
  function Remove(orders: seq<string>, target: string): (r: Result<Removal, Thrown>)
    ensures r.Failure? ==> r.error == IndexOutOfBounds || r.error == NumberFormat
    decreases |orders|
  {
    if |orders| == 0 then Success(Removal([], 0))
    else
      var n := |orders| - 1;
      var prev :- Remove(orders[..n], target);
      var id :- EntryId(orders[n]);
      if id == target then
        var q :- RemovedQuantity(orders[n]);
        Success(prev.(quantity := q))
      else
        Success(prev.(kept := prev.kept + [orders[n]]))
  }

  /** The loop gets through exactly when every order is readable, and then
      keeps the orders of the other products. */
  lemma {:induction false} RemoveReads(orders: seq<string>, target: string)
    ensures Remove(orders, target).Success? <==> AllReadable(orders, target)
    ensures Remove(orders, target).Success? ==> Remove(orders, target).value.kept == Kept(orders, target)
    decreases |orders|
  {
    if |orders| > 0 {
      var n := |orders| - 1;
      RemoveReads(orders[..n], target);
      ReadablePrefix(orders, target);
      RemoveSucceedsStep(orders, target);
      KeptStep(orders, target);
    }
  }

  /** One more order gets through exactly when it is readable. */
  lemma RemoveSucceedsStep(orders: seq<string>, target: string)
    requires |orders| > 0
    ensures Remove(orders, target).Success? <==>
      Remove(orders[..|orders| - 1], target).Success? && Readable(orders[|orders| - 1], target)
  {
  }

  /** Every order is readable. */
  predicate AllReadable(orders: seq<string>, target: string) {
    forall i :: 0 <= i < |orders| ==> Readable(orders[i], target)
  }

  /** Every order is readable exactly when every order before the last is
      and the last one is. */
  lemma ReadablePrefix(orders: seq<string>, target: string)
    requires |orders| > 0
    ensures AllReadable(orders, target) <==>
      AllReadable(orders[..|orders| - 1], target) && Readable(orders[|orders| - 1], target)
  {
    var n := |orders| - 1;
    assert forall i :: 0 <= i < n ==> orders[..n][i] == orders[i];
  }

  /** Without a matching order nothing is removed. */
  lemma {:induction false} NoMatchRemovesNothing(orders: seq<string>, target: string)
    requires Remove(orders, target).Success?
    requires NoMatchAfter(orders, target, -1)
    ensures Remove(orders, target).value.quantity == 0
    decreases |orders|
  {
    if |orders| > 0 {
      var n := |orders| - 1;
      NoMatchAfterPrefix(orders, target, -1);
      QuantityKept(orders, target);
      NoMatchRemovesNothing(orders[..n], target);
    }
  }

  /** No order after the `i`-th matches. */
  predicate NoMatchAfter(orders: seq<string>, target: string, i: int) {
    forall j :: 0 <= j < |orders| && i < j ==> !Matches(orders[j], target)
  }

  /** The quantity removed is that of the last matching order: a later
      match overwrites an earlier one. */
  lemma {:induction false} LastMatchWins(orders: seq<string>, target: string, i: nat)
    requires Remove(orders, target).Success?
    requires i < |orders| && Matches(orders[i], target)
    requires NoMatchAfter(orders, target, i)
    ensures RemovedQuantity(orders[i]).Success?
    ensures Remove(orders, target).value.quantity == RemovedQuantity(orders[i]).value
    decreases |orders|
  {
    var n := |orders| - 1;
    if i < n {
      var prefix := orders[..n];
      assert prefix[i] == orders[i];
      NoMatchAfterPrefix(orders, target, i);
      QuantityKept(orders, target);
      LastMatchWins(prefix, target, i);
    } else {
      QuantitySet(orders, target, i);
    }
  }

  /** Dropping the last order keeps the orders after the `i`-th unmatched,
      and the last one was not a match. */
  lemma NoMatchAfterPrefix(orders: seq<string>, target: string, i: int)
    requires -1 <= i < |orders| - 1 && NoMatchAfter(orders, target, i)
    ensures NoMatchAfter(orders[..|orders| - 1], target, i)
    ensures !Matches(orders[|orders| - 1], target)
  {
    var n := |orders| - 1;
    assert forall j :: 0 <= j < n ==> orders[..n][j] == orders[j];
  }

  /** A last order of another product leaves the quantity as it was. */
  lemma QuantityKept(orders: seq<string>, target: string)
    requires |orders| > 0 && Remove(orders, target).Success?
    requires !Matches(orders[|orders| - 1], target)
    ensures Remove(orders[..|orders| - 1], target).Success?
    ensures Remove(orders, target).value.quantity == Remove(orders[..|orders| - 1], target).value.quantity
  {
  }

  /** A last matching order sets the quantity to its own. */
  lemma QuantitySet(orders: seq<string>, target: string, n: nat)
    requires n == |orders| - 1 && Remove(orders, target).Success?
    requires Matches(orders[n], target)
    ensures RemovedQuantity(orders[n]).Success?
    ensures Remove(orders, target).value.quantity == RemovedQuantity(orders[n]).value
  {
    assert Readable(orders[n], target);
  }

  /** A prefix that throws makes the whole loop throw the same exception. */
  lemma {:induction false} RemoveFailureStays(orders: seq<string>, target: string, k: nat)
    requires k <= |orders| && Remove(orders[..k], target).Failure?
    ensures Remove(orders, target) == Remove(orders[..k], target)
    decreases |orders| - k
  {
    if k < |orders| {
      assert orders[..k + 1][..k] == orders[..k];
      RemoveFailureStays(orders, target, k + 1);
    } else {
      assert orders[..k] == orders;
    }
  }

  /** The loop as written: the kept orders appended to a StringBuilder,
      each followed by `;`. */
  method RemoveLoop(orders: seq<string>, target: string) returns (r: Result<(string, Int32), Thrown>)
    ensures Remove(orders, target).Failure? ==> r == Failure(Remove(orders, target).error)
    ensures Remove(orders, target).Success? ==>
      r == Success((Terminated(Remove(orders, target).value.kept, ';'), Remove(orders, target).value.quantity))
  {
    var updated := "";
    var quantity := 0;
    ghost var kept: seq<string> := [];
    var i := 0;
    while i < |orders|
      invariant 0 <= i <= |orders|
      invariant Remove(orders[..i], target) == Success(Removal(kept, quantity))
      invariant updated == Terminated(kept, ';')
    {
      assert orders[..i + 1][..i] == orders[..i];
      var id := EntryId(orders[i]);
      if id.Failure? {
        RemoveFailureStays(orders, target, i + 1);
        return Failure(id.error);
      }
      if id.value == target {
        var q := RemovedQuantity(orders[i]);
        if q.Failure? {
          RemoveFailureStays(orders, target, i + 1);
          return Failure(q.error);
        }
        quantity := q.value;
      } else {
        TerminatedAppend(kept, orders[i], ';');
        updated := updated + orders[i] + ";";
        kept := kept + [orders[i]];
      }
      i := i + 1;
    }
    assert orders[..i] == orders;
    return Success((updated, quantity));
  }

  // ---------------------------------------------------------------------
  // The handler

  /** Where the handler ends. */
  datatype Outcome =
    | Forbidden                                // 403 "Invalid token."
    | NotFound                                 // 404, the cart left as it was
    | Deleted(orderList: string, quantity: Int32) // the `OrderList` stored, and the quantity removed
    | Throws(cause: Thrown)                    // an exception left the handler

  /** `item.get(key).s()` and `item.get(key).n()` throw for a missing
      attribute; `split` and `parseDouble` throw for a null view. */
  predicate CartReadable(cart: RT.Item) {
    && RT.OrderListKey in cart && cart[RT.OrderListKey].s.Some?
    && RT.TotalPriceKey in cart && cart[RT.TotalPriceKey].n.Some?
  }

  function HandleDeleteFromCart(e: Event, verify: string -> Verification, cart: RT.Item, product: RT.Item): (r: Outcome)
    ensures e.headers.None? ==> r == Throws(NullPointer)
    ensures e.headers.Some? ==>
      var v := verify(BearerToken(AuthorizationHeader(e).value));
      && (r == Forbidden <==> v.Refused? && CartWriterCatches(v.failure))
      && (r.Deleted? || r.NotFound? ==> v.Verified? && ProxyProductId(e).Success? && CartReadable(cart))
    // the product table is consulted only after the loop got through the cart
    ensures r.NotFound? ==> product == map[]
    ensures r.Deleted? ==> product != map[]
    ensures (&& e.headers.Some? && verify(BearerToken(AuthorizationHeader(e).value)).Verified?
             && ProxyProductId(e).Success? && CartReadable(cart)
             && Remove(Split(cart[RT.OrderListKey].s.value, ';'), ProxyProductId(e).value).Success?
             && product == map[]) ==> r == NotFound
    // the list stored is the kept orders, each followed by `;`, and the
    // quantity is the one the loop removed
    ensures r.Deleted? ==> Remove(Split(cart[RT.OrderListKey].s.value, ';'), ProxyProductId(e).value).Success?
    ensures r.Deleted? ==>
      var removal := Remove(Split(cart[RT.OrderListKey].s.value, ';'), ProxyProductId(e).value).value;
      r.orderList == Terminated(removal.kept, ';') && r.quantity == removal.quantity
    ensures r.Deleted? ==> ';' !in r.orderList || EndsWith(r.orderList, ";")
  {
    var header := AuthorizationHeader(e);
    if header.Failure? then Throws(header.error)
    else
      match verify(BearerToken(header.value))
      case Refused(failure, message) =>
        if CartWriterCatches(failure) then Forbidden else Throws(Unverified(message))
      case Verified(_) =>
        match ProxyProductId(e)
        case Failure(cause) => Throws(cause)
        case Success(target) =>
          if !CartReadable(cart) then Throws(NullPointer)
          else
            match Remove(Split(cart[RT.OrderListKey].s.value, ';'), target)
            case Failure(cause) => Throws(cause)
            case Success(removal) =>
              if product == map[] then NotFound
              else if DiscountPriceKey !in product || product[DiscountPriceKey].n.None? then Throws(NullPointer)
              else
                TerminatedEnds(removal.kept);
                Deleted(Terminated(removal.kept, ';'), removal.quantity)
  }

  /** A terminated list is empty or ends in `;`. */
  lemma TerminatedEnds(parts: seq<string>)
    ensures Terminated(parts, ';') == "" || EndsWith(Terminated(parts, ';'), ";")
  {
    if |parts| > 0 {
      var n := |parts| - 1;
      assert parts == parts[..n] + [parts[n]];
      TerminatedAppend(parts[..n], parts[n], ';');
    }
  }

  // ---------------------------------------------------------------------
  // Properties of the removal

  /** The products left after deleting an id, in order. */
  function Without(ps: seq<RT.Product>, target: string): (r: seq<RT.Product>)
    ensures forall p :: p in r <==> p in ps && p.productId != target
    decreases |ps|
  {
    if |ps| == 0 then []
    else
      var n := |ps| - 1;
      assert ps == ps[..n] + [ps[n]];
      if ps[n].productId != target then Without(ps[..n], target) + [ps[n]] else Without(ps[..n], target)
  }

  /** On stored products, the orders kept are the entries of the products
      left. */
  lemma {:induction false} KeptEntries(ps: seq<RT.Product>, target: string)
    requires forall i :: 0 <= i < |ps| ==> RT.Storable(ps[i])
    ensures Kept(RT.Entries(ps), target) == RT.Entries(Without(ps, target))
    decreases |ps|
  {
    if |ps| > 0 {
      var n := |ps| - 1;
      KeptEntries(ps[..n], target);
      KeptEntriesStep(ps, target);
    }
  }

  lemma KeptEntriesStep(ps: seq<RT.Product>, target: string)
    requires |ps| > 0 && RT.Storable(ps[|ps| - 1])
    requires Kept(RT.Entries(ps[..|ps| - 1]), target) == RT.Entries(Without(ps[..|ps| - 1], target))
    ensures Kept(RT.Entries(ps), target) == RT.Entries(Without(ps, target))
  {
    var n := |ps| - 1;
    var entries := RT.Entries(ps);
    assert entries[..n] == RT.Entries(ps[..n]);
    assert KeptOrder(entries[n], target) <==> ps[n].productId != target by {
      ReadEntry(ps[n]);
    }
    KeptStep(entries, target);
    WithoutStep(ps, target);
  }

  lemma KeptStep(orders: seq<string>, target: string)
    requires |orders| > 0
    ensures var n := |orders| - 1;
      Kept(orders, target) == Kept(orders[..n], target) + (if KeptOrder(orders[n], target) then [orders[n]] else [])
  {
  }

  lemma WithoutStep(ps: seq<RT.Product>, target: string)
    requires |ps| > 0
    ensures var n := |ps| - 1;
      RT.Entries(Without(ps, target)) == RT.Entries(Without(ps[..n], target)) + (if ps[n].productId != target then [RT.EntryOf(ps[n])] else [])
  {
  }

  /** A stored product whose quantity is an `int`. */
  predicate Counted(p: RT.Product) {
    RT.Storable(p) && ParseInt(p.quantity).Some?
  }

  /** On stored products with `int` quantities, the loop gets through. */
  lemma RemoveEntries(ps: seq<RT.Product>, target: string)
    requires forall i :: 0 <= i < |ps| ==> Counted(ps[i])
    ensures Remove(RT.Entries(ps), target).Success?
    ensures Remove(RT.Entries(ps), target).value.kept == RT.Entries(Without(ps, target))
  {
    var entries := RT.Entries(ps);
    forall i | 0 <= i < |entries| ensures Readable(entries[i], target) {
      ReadEntry(ps[i]);
    }
    RemoveReads(entries, target);
    KeptEntries(ps, target);
  }

  /** Deleting a product from a stored cart of products with `int`
      quantities stores exactly the other products, in order, as long as
      one is left. */
  lemma DeleteStoredProduct(e: Event, verify: string -> Verification, cart: RT.Item, product: RT.Item,
                            ps: seq<RT.Product>, target: string)
    requires e.headers.Some? && verify(BearerToken(AuthorizationHeader(e).value)).Verified?
    requires ProxyProductId(e) == Success(target)
    requires CartReadable(cart) && cart[RT.OrderListKey].s == Some(RT.RenderOrderList(ps))
    requires DiscountPriceKey in product && product[DiscountPriceKey].n.Some?
    requires |ps| > 0 && forall i :: 0 <= i < |ps| ==> Counted(ps[i])
    requires |Without(ps, target)| > 0
    ensures var r := HandleDeleteFromCart(e, verify, cart, product);
      r.Deleted? && RT.ParseOrderList(r.orderList) == Success(Without(ps, target))
  {
    RT.SplitRendered(ps);
    RemoveEntries(ps, target);
    var left := Without(ps, target);
    RT.TerminatedRoundTrip(left);
  }

  /** Deleting the same product again, while another product is left,
      changes nothing further and removes no quantity. A cart emptied by the
      first deletion is the exception: see `EmptiedCart`. */
  lemma DeleteTwice(ps: seq<RT.Product>, target: string)
    requires forall i :: 0 <= i < |ps| ==> Counted(ps[i])
    requires |Without(ps, target)| > 0
    ensures var once := Terminated(RT.Entries(Without(ps, target)), ';');
      && Remove(Split(once, ';'), target).Success?
      && Terminated(Remove(Split(once, ';'), target).value.kept, ';') == once
      && Remove(Split(once, ';'), target).value.quantity == 0
  {
    var left := Without(ps, target);
    WithoutCounted(ps, target);
    RT.StoredSplit(left);
    assert Without(left, target) == left by {
      WithoutAbsent(left, target);
    }
    RemoveEntries(left, target);
    NoMatchInLeft(left, target);
  }

  /** The products left are counted ones, none with the deleted id. */
  lemma WithoutCounted(ps: seq<RT.Product>, target: string)
    requires forall i :: 0 <= i < |ps| ==> Counted(ps[i])
    ensures var left := Without(ps, target);
      forall i :: 0 <= i < |left| ==> Counted(left[i]) && left[i].productId != target
  {
    var left := Without(ps, target);
    forall i | 0 <= i < |left| ensures Counted(left[i]) && left[i].productId != target {
      assert left[i] in ps;
    }
  }

  lemma NoMatchInLeft(left: seq<RT.Product>, target: string)
    requires forall i :: 0 <= i < |left| ==> Counted(left[i]) && left[i].productId != target
    ensures Remove(RT.Entries(left), target).Success?
    ensures Remove(RT.Entries(left), target).value.quantity == 0
  {
    var entries := RT.Entries(left);
    RemoveEntries(left, target);
    forall i | 0 <= i < |entries| ensures !Matches(entries[i], target) {
      ReadEntry(left[i]);
    }
    NoMatchRemovesNothing(entries, target);
  }

  /** Deleting an id no product has keeps every product. */
  lemma {:induction false} WithoutAbsent(ps: seq<RT.Product>, target: string)
    requires forall i :: 0 <= i < |ps| ==> ps[i].productId != target
    ensures Without(ps, target) == ps
    decreases |ps|
  {
    if |ps| > 0 {
      var n := |ps| - 1;
      WithoutAbsent(ps[..n], target);
      assert ps == ps[..n] + [ps[n]];
    }
  }

  /** Deleting the last product stores `""`, which reads back as one empty
      order; deleting any product from that cart then stores `";"`, so a
      second deletion changes an emptied cart. */
  lemma EmptiedCart(target: string)
    requires target != ""
    ensures Remove(Split("", ';'), target) == Success(Removal([""], 0))
    ensures Terminated([""], ';') == ";"
  {
    assert Split("", ';') == [""];
    assert [""][..0] == [];
    assert EntryId("") == Success("");
    assert [] + [""] == [""];
  }

  /** The orders of a stored list with the empty list read as no orders at
      all, as the cart readers' emptiness check treats it. */
  function StoredOrders(orderList: string): (r: seq<string>)
    ensures orderList == "" ==> r == []
    ensures orderList != "" ==> r == Split(orderList, ';')
  {
    if orderList == "" then [] else Split(orderList, ';')
  }

  /** The deletion loop over `StoredOrders`: removing a product, then
      removing it again, leaves the stored list as the first removal wrote
      it and removes no further quantity, whether or not a product is left. */
  lemma DeleteTwiceFromStored(ps: seq<RT.Product>, target: string)
    requires forall i :: 0 <= i < |ps| ==> Counted(ps[i])
    ensures var once := Terminated(RT.Entries(Without(ps, target)), ';');
      && Remove(StoredOrders(once), target).Success?
      && Terminated(Remove(StoredOrders(once), target).value.kept, ';') == once
      && Remove(StoredOrders(once), target).value.quantity == 0
  {
    var once := Terminated(RT.Entries(Without(ps, target)), ';');
    if |Without(ps, target)| > 0 {
      DeleteTwice(ps, target);
      assert once != "" by {
        assert |RT.Entries(Without(ps, target))| > 0;
      }
    } else {
      assert RT.Entries(Without(ps, target)) == [];
      assert once == "";
      assert Remove([], target) == Success(Removal([], 0));
    }
  }
}

=== FILE: error_tracker.dfy ===
/** The `ErrorTracker` table behind the dispatcher's circuit breaker
    (`FaultTolerance.isCircuitOpen` and `FaultTolerance.logError`).

    A record's key is its partition key `PK` (the target's ARN) and sort key
    `SK` (the second at which it stops counting); a put with an existing key
    overwrites, so the table is a map from keys to the stored error text. The
    breaker is a pure predicate over the table: open when enough records for
    the target have not yet expired. Clock readings are milliseconds since the
    epoch, passed in. */
module ErrorTracker {

  datatype ErrorKey = ErrorKey(pk: string, sk: int)

  /** Key to `ErrorType`; the `TTL` attribute always equals `SK`. */
  type Store = map<ErrorKey, string>

  /** `System.currentTimeMillis() / 1000` for a non-negative clock. */
  function Seconds(millis: nat): nat {
    millis / 1000
  }

  /** The records the breaker query `PK = :serviceName and SK >= :now`
      returns. */
  function ActiveRecords(store: Store, service: string, nowMillis: nat): (r: set<ErrorKey>)
    ensures r <= store.Keys
    ensures forall k :: k in r <==> k in store && k.pk == service && k.sk >= Seconds(nowMillis)
  {
    set k | k in store && k.pk == service && k.sk >= Seconds(nowMillis)
  }

  function ActiveCount(store: Store, service: string, nowMillis: nat): nat {
    |ActiveRecords(store, service, nowMillis)|
  }

  /** `isCircuitOpen`: at least `threshold` unexpired records. */
  predicate IsCircuitOpen(store: Store, service: string, threshold: int, nowMillis: nat) {
    ActiveCount(store, service, nowMillis) >= threshold
  }

  /** The key `logError` writes for a failure observed at `nowMillis`. */
  function RecordKey(service: string, resetTimeout: int, nowMillis: nat): ErrorKey {
    ErrorKey(service, Seconds(nowMillis) + resetTimeout)
  }

  /** `logError`: put one record expiring `resetTimeout` seconds after the
      current second, replacing any record with the same key. */
  function LogError(store: Store, service: string, resetTimeout: int, nowMillis: nat, message: string): (r: Store)
    ensures r.Keys == store.Keys + {RecordKey(service, resetTimeout, nowMillis)}
    ensures r[RecordKey(service, resetTimeout, nowMillis)] == message
    ensures forall k :: k in store && k != RecordKey(service, resetTimeout, nowMillis) ==> r[k] == store[k]
  {
    store[RecordKey(service, resetTimeout, nowMillis) := message]
  }

  // ---------------------------------------------------------------------
  // Properties of the breaker

  /** A failure logged at `t` counts toward the breaker exactly at query
      times up to its expiry second `t/1000 + resetTimeout`. */
  lemma LoggedFailureCountsUntilExpiry(store: Store, service: string, resetTimeout: int, t: nat, message: string, q: nat)
    ensures RecordKey(service, resetTimeout, t) in ActiveRecords(LogError(store, service, resetTimeout, t, message), service, q)
      <==> Seconds(q) <= Seconds(t) + resetTimeout
  {
  }

  /** Once a record has expired it no longer affects the breaker: the
      circuit heals without any close action. */
  lemma ExpiredFailureIsIgnored(store: Store, service: string, resetTimeout: int, t: nat, message: string, q: nat)
    requires Seconds(q) > Seconds(t) + resetTimeout
    ensures ActiveRecords(LogError(store, service, resetTimeout, t, message), service, q) == ActiveRecords(store, service, q)
  {
  }

  /** Logging a failure for one target leaves every other target's breaker
      untouched. */
  lemma OtherTargetsUnaffected(store: Store, service: string, other: string, resetTimeout: int, t: nat, message: string, q: nat)
    requires other != service
    ensures ActiveRecords(LogError(store, service, resetTimeout, t, message), other, q) == ActiveRecords(store, other, q)
  {
  }

  /** One logged failure raises the active count by at most one. */
  lemma LogErrorCountsAtMostOnce(store: Store, service: string, resetTimeout: int, t: nat, message: string, q: nat)
    ensures ActiveCount(store, service, q) <= ActiveCount(LogError(store, service, resetTimeout, t, message), service, q) <= ActiveCount(store, service, q) + 1
  {
    var before := ActiveRecords(store, service, q);
    var after := ActiveRecords(LogError(store, service, resetTimeout, t, message), service, q);
    assert before <= after;
    assert after <= before + {RecordKey(service, resetTimeout, t)};
    SubsetCard(before, after);
    SubsetCard(after, before + {RecordKey(service, resetTimeout, t)});
  }

  /** Two failures of one target within the same second write one record:
      the second put overwrites the first. */
  lemma SameSecondFailuresCollapse(store: Store, service: string, resetTimeout: int, t1: nat, t2: nat, m1: string, m2: string, q: nat)
    requires Seconds(t1) == Seconds(t2)
    ensures var once := LogError(store, service, resetTimeout, t2, m2);
            var twice := LogError(LogError(store, service, resetTimeout, t1, m1), service, resetTimeout, t2, m2);
            twice == once && ActiveCount(twice, service, q) <= ActiveCount(store, service, q) + 1
  {
    LogErrorCountsAtMostOnce(store, service, resetTimeout, t2, m2, q);
  }

  /** Records only expire as time advances: the active count never grows
      while no failure is logged. */
  lemma ActiveCountAntitone(store: Store, service: string, q1: nat, q2: nat)
    requires q1 <= q2
    ensures ActiveCount(store, service, q2) <= ActiveCount(store, service, q1)
  {
    assert Seconds(q1) <= Seconds(q2);
    SubsetCard(ActiveRecords(store, service, q2), ActiveRecords(store, service, q1));
  }

  /** With no new failures, a circuit open at a later time was open at every
      earlier time, and a closed circuit stays closed. */
  lemma ClosedStaysClosed(store: Store, service: string, threshold: int, q1: nat, q2: nat)
    requires q1 <= q2
    requires !IsCircuitOpen(store, service, threshold, q1)
    ensures !IsCircuitOpen(store, service, threshold, q2)
  {
    ActiveCountAntitone(store, service, q1, q2);
  }

  /** Past the latest expiry second of the target's records, the circuit is
      closed for every positive threshold. */
  lemma CircuitHeals(store: Store, service: string, threshold: int, q: nat)
    requires threshold > 0
    requires forall k :: k in store && k.pk == service ==> k.sk < Seconds(q)
    ensures !IsCircuitOpen(store, service, threshold, q)
  {
    assert ActiveRecords(store, service, q) == {};
  }

  lemma SubsetCard<T>(a: set<T>, b: set<T>)
    requires a <= b
    ensures |a| <= |b|
  {
    assert b == a + (b - a);
  }
}

=== FILE: fault_tolerance.dfy ===
/** `FaultTolerance.handleRequest`: the dispatcher that routes a request to a
    Lambda function and invokes it under a circuit breaker, a bounded retry
    loop and a fallback response, publishing metrics as it goes.

    The Lambda invocations are an oracle: `oracle(n)` is what the n-th attempt
    observes — the clock when its breaker check runs, how the invocation
    ended, and the clock when a failure is logged. The error table and the
    metrics sink are explicit state threaded through the loop. */
module FaultTolerance {
  import opened Wrappers
  import opened JavaExceptions
  import opened JavaStrings
  import opened ErrorTracker
  import RG = ResponseGenerator
  import M = MetricsHandler

  /** `FaultTolerance.FunctionInfo`. */
  datatype FunctionInfo = FunctionInfo(
    functionArn: string,
    retries: int,
    circuitOpenThreshold: int,
    circuitResetTimeout: int,
    fallbackMessage: string)

  /** The two regular-expression shapes the route table uses, under
      `Matcher.matches` (the whole key must match). */
  datatype RoutePattern =
    | Exactly(key: string)          // "K$": the key K and nothing else
    | PrefixThenAny(prefix: string) // "P.+": P, then one or more characters other than line terminators

  datatype Route = Route(pattern: RoutePattern, info: FunctionInfo)

  /** The characters `.` does not match without DOTALL. */
  predicate LineTerminator(c: char) {
    c == '\n' || c == '\r' || c == '\U{85}' || c == '\U{2028}' || c == '\U{2029}'
  }

  predicate Matches(p: RoutePattern, key: string) {
    match p
    case Exactly(k) => key == k
    case PrefixThenAny(pre) =>
      && StartsWith(key, pre) && |key| > |pre|
      && forall i :: |pre| <= i < |key| ==> !LineTerminator(key[i])
  }

  /** The account's function ARNs, before the function name. */
  const FunctionArnPrefix: string := "arn:aws:lambda:us-east-1:824949725598:function"
  const CatalogFunction: string := "advancedMetodija747-GetAndSearchProductsFunctioni-Fia94NeRCooH"
  const ProductFunction: string := "advancedMetodija747-GetProductFunction-cyZJ6jck5ci9"
  const AddProductFunction: string := "advancedMetodija747-AddNewProductFunction-HdY2w0iQiOKY"
  const CatalogArn: string := FunctionArnPrefix + ":" + CatalogFunction
  const ProductArn: string := FunctionArnPrefix + ":" + ProductFunction
  const AddProductArn: string := FunctionArnPrefix + ":" + AddProductFunction

  /** `functionMap`, in insertion order. */
  const Routes: seq<Route> := [
    Route(Exactly("GET:/dispatcher/catalog"),
      FunctionInfo(CatalogArn, 3, 4, 30, "Catalog search is currently unavailable.")),
    Route(PrefixThenAny("GET:/dispatcher/catalog/"),
      FunctionInfo(ProductArn, 3, 4, 30, "Product details cannot be retrieved at this time.")),
    Route(Exactly("POST:/dispatcher/catalog"),
      FunctionInfo(AddProductArn, 3, 4, 30, "Adding or changing product is unavailable."))
  ]

  /** The event fields the dispatcher reads; either may be null. */
  datatype Request = Request(httpMethod: Option<string>, path: Option<string>)

  /** `httpMethod + ":" + path`. */
  function RouteKey(request: Request): string {
    Show(request.httpMethod) + ":" + Show(request.path)
  }

  /** The index of the first route, from `from` on, whose pattern matches. */
  function FindRouteFrom(routes: seq<Route>, key: string, from: nat): (r: Option<nat>)
    requires from <= |routes|
    ensures r.Some? ==> from <= r.value < |routes| && Matches(routes[r.value].pattern, key)
    ensures r.Some? ==> forall j :: from <= j < r.value ==> !Matches(routes[j].pattern, key)
    ensures r.None? <==> forall j :: from <= j < |routes| ==> !Matches(routes[j].pattern, key)
    decreases |routes| - from
  {
    if from == |routes| then None
    else if Matches(routes[from].pattern, key) then Some(from)
    else FindRouteFrom(routes, key, from + 1)
  }

  /** The routing loop: the first route in table order whose pattern matches
      the key, or none. */
  function FindRoute(routes: seq<Route>, key: string): (r: Option<nat>)
    ensures r.Some? ==> r.value < |routes| && Matches(routes[r.value].pattern, key)
    ensures r.Some? ==> forall j :: 0 <= j < r.value ==> !Matches(routes[j].pattern, key)
    ensures r.None? <==> forall j :: 0 <= j < |routes| ==> !Matches(routes[j].pattern, key)
  {
    FindRouteFrom(routes, key, 0)
  }

  /** `getFunctionNameFromARN`: the last `:`-separated segment; absent where
      Java indexes an empty split. */
  function FunctionNameFromArn(arn: string): Option<string> {
    LastSegment(arn, ':')
  }

  // ---------------------------------------------------------------------
  // Invocation outcomes and the dispatcher's reply

  /** The target's response payload, kept as opaque JSON. */
  type Json = string

  /** How one invocation ended. */
  datatype Outcome =
    /** `functionError()` was null; the payload parsed to a map, or Gson threw
        with the given message. */
    | Returned(payload: Result<Json, string>)
    /** `functionError()` was set; its `errorMessage` was read, or reading it
        threw with the given message. */
    | FunctionError(errorMessage: Result<string, string>)
    /** The invoke call itself threw with the given message. */
    | Threw(message: string)

  /** What attempt n observes: clock at its breaker check, the invocation's
      outcome, clock when its failure is logged. */
  datatype Attempt = Attempt(checkAt: nat, outcome: Outcome, failAt: nat)

  datatype Reply =
    | Generated(statusCode: int, body: string) // the map `generateResponse(statusCode, body)` builds
    | Forwarded(payload: Json)         // the target's own parsed payload
    | Escaped(thrown: Thrown)          // an exception left `handleRequest`

  /** What `handleRequest` leaves behind: its reply, the error table, the
      metrics handler, and how many invocations it made. */
  datatype Dispatch = Dispatch(reply: Reply, store: Store, metrics: M.Handler, invocations: nat)

  /** The state after one attempt, with the counters it incremented in
      order: either the dispatcher returns, or the loop goes on. */
  datatype Step =
    | Finished(reply: Reply, store: Store, counters: seq<M.Counter>)
    | Retry(store: Store, counters: seq<M.Counter>)

  /** The retry loop's result: reply, error table, counters incremented in
      order, and the number of invocations made. */
  datatype LoopResult = LoopResult(reply: Reply, store: Store, counters: seq<M.Counter>, invocations: nat)

  const InvalidRouteMessage: string := "Invalid path or method"
  const TimeoutSignature: string := "Task timed out"

  /** `fallbackResponse`: status 500 carrying the route's message. */
  function Fallback(info: FunctionInfo): (r: Reply)
    ensures r.Generated? && r.statusCode == 500 && r.body == info.fallbackMessage
  {
    Generated(500, info.fallbackMessage)
  }

  /** Incrementing the counters in order. */
  function Emit(h: M.Handler, cs: seq<M.Counter>): (r: M.Handler)
    ensures r.lambdaFunctionName == h.lambdaFunctionName
    ensures |r.published| == |h.published| + |cs|
    ensures r.published[..|h.published|] == h.published
    decreases |cs|
  {
    if |cs| == 0 then h
    else Emit(M.Increment(h, cs[0]), cs[1..])
  }

  /** Incrementing a sequence of counters raises each counter's tally by the
      number of times it occurs in the sequence. */
  lemma {:induction false} EmitTally(h: M.Handler, cs: seq<M.Counter>, c: M.Counter)
    ensures M.Tally(Emit(h, cs), c) == M.Tally(h, c) + multiset(cs)[c]
    decreases |cs|
  {
    if |cs| > 0 {
      var h1 := M.Increment(h, cs[0]);
      assert Emit(h, cs) == Emit(h1, cs[1..]);
      EmitTally(h1, cs[1..], c);
      M.TallyIncrement(h, cs[0], c);
      MultisetFirst(cs, c);
    }
  }

  /** How often `c` occurs in a non-empty sequence, counted from its head. */
  lemma MultisetFirst<T>(cs: seq<T>, c: T)
    requires |cs| > 0
    ensures multiset(cs)[c] == multiset(cs[1..])[c] + (if cs[0] == c then 1 else 0)
  {
    assert cs == [cs[0]] + cs[1..];
  }

  /** Every datum the increments publish is a count of one in the
      `FaultTolerance` namespace, dimensioned by the handler's current name. */
  lemma {:induction false} EmitDimension(h: M.Handler, cs: seq<M.Counter>)
    ensures forall i :: |h.published| <= i < |Emit(h, cs).published| ==>
      Emit(h, cs).published[i].dimension == M.Dimension(M.DimensionName, h.lambdaFunctionName)
    ensures forall i :: |h.published| <= i < |Emit(h, cs).published| ==>
      Emit(h, cs).published[i].namespace == M.Namespace && Emit(h, cs).published[i].value == 1
    decreases |cs|
  {
    if |cs| > 0 {
      var h1 := M.Increment(h, cs[0]);
      EmitDimension(h1, cs[1..]);
      var r := Emit(h, cs);
      assert r == Emit(h1, cs[1..]);
      assert r.published[..|h1.published|] == h1.published;
      forall i | |h.published| <= i < |r.published|
        ensures r.published[i].dimension == M.Dimension(M.DimensionName, h.lambdaFunctionName)
        ensures r.published[i].namespace == M.Namespace && r.published[i].value == 1
      {
        if i < |h1.published| {
          assert r.published[i] == h1.published[i];
        }
      }
    }
  }

  /** The counters of a call that returned without a function error, at
      attempt n. */
  function SuccessCounters(attempt: nat): (cs: seq<M.Counter>)
    ensures multiset(cs)[M.CallsSucceeded] == 1 && multiset(cs)[M.CallsNotTimedOut] == 1
    ensures multiset(cs)[M.SucceededWithoutRetries] == (if attempt == 1 then 1 else 0)
    ensures multiset(cs)[M.SucceededWithRetries] == (if attempt == 1 then 0 else 1)
    ensures multiset(cs)[M.CallsTimedOut] == 0 && multiset(cs)[M.CallsFailed] == 0 && multiset(cs)[M.CallsPrevented] == 0
    ensures multiset(cs)[M.RetriesFailed] == 0 && multiset(cs)[M.FallbackCalls] == 0
  {
    [M.CallsSucceeded, M.CallsNotTimedOut,
     if attempt == 1 then M.SucceededWithoutRetries else M.SucceededWithRetries]
  }

  /** The timeout counter a function error's message selects. */
  function TimeoutCounter(errorMessage: string): M.Counter {
    if Contains(errorMessage, TimeoutSignature) then M.CallsTimedOut else M.CallsNotTimedOut
  }

  /** The `ErrorType` text a failed attempt logs. */
  function ErrorText(o: Outcome): string {
    match o
    case Returned(p) => if p.Failure? then p.error else ""
    case FunctionError(m) => if m.Success? then "Error Message: " + m.value else m.error
    case Threw(message) => message
  }

  /** An attempt whose invocation returned a payload that parsed. */
  predicate Succeeded(o: Outcome) {
    o.Returned? && o.payload.Success?
  }

  /** The `catch (Exception e)` block: the failure is logged; the loop goes
      on unless this was the last attempt, which counts a failed retry and
      falls back. */
  function Caught(info: FunctionInfo, attempt: nat, failAt: nat, message: string, store: Store): (s: Step)
    ensures s.store == LogError(store, info.functionArn, info.circuitResetTimeout, failAt, message)
    ensures s.Retry? <==> attempt < info.retries
    ensures s.Finished? ==> s.reply == Fallback(info)
  {
    var store' := LogError(store, info.functionArn, info.circuitResetTimeout, failAt, message);
    if attempt < info.retries then Retry(store', [])
    else Finished(Fallback(info), store', [M.RetriesFailed, M.FallbackCalls])
  }

  /** A step with counters `cs` incremented before its own. */
  function After(cs: seq<M.Counter>, s: Step): Step {
    s.(counters := cs + s.counters)
  }

  /** One pass through the `try` block. Only a parsed payload ends the loop
      with a reply of the target's own; a function error always continues,
      even on the last attempt; any exception goes through `Caught`. */
  function Invoke(info: FunctionInfo, attempt: nat, a: Attempt, store: Store): (s: Step)
    ensures (s.Finished? && s.reply.Forwarded?) <==> Succeeded(a.outcome)
    ensures Succeeded(a.outcome) ==> s.reply.payload == a.outcome.payload.value && s.store == store
    ensures !Succeeded(a.outcome) ==>
      s.store == LogError(store, info.functionArn, info.circuitResetTimeout, a.failAt, ErrorText(a.outcome))
    ensures s.Finished? && !s.reply.Forwarded? ==> s.reply == Fallback(info) && attempt >= info.retries
    ensures s.Retry? <==> !Succeeded(a.outcome) && (attempt < info.retries || (a.outcome.FunctionError? && a.outcome.errorMessage.Success?))
    ensures s.counters == AttemptCounters(info.retries, attempt, a.outcome)
  {
    match a.outcome
    case Returned(payload) =>
      if payload.Success? then Finished(Forwarded(payload.value), store, SuccessCounters(attempt))
      else After(SuccessCounters(attempt), Caught(info, attempt, a.failAt, payload.error, store))
    case FunctionError(errorMessage) =>
      if errorMessage.Failure? then After([M.CallsFailed], Caught(info, attempt, a.failAt, errorMessage.error, store))
      else
        var store' := LogError(store, info.functionArn, info.circuitResetTimeout, a.failAt, "Error Message: " + errorMessage.value);
        Retry(store', [M.CallsFailed, TimeoutCounter(errorMessage.value)] + (if attempt < info.retries then [M.RetriesFailed] else []))
    case Threw(message) =>
      Caught(info, attempt, a.failAt, message, store)
  }

  /** The counters the last attempt adds when it gives up. */
  const GiveUpCounters: seq<M.Counter> := [M.RetriesFailed, M.FallbackCalls]

  /** The counters one attempt increments, in order, by how its invocation
      ended. */
  function AttemptCounters(retries: int, attempt: nat, o: Outcome): (cs: seq<M.Counter>)
    // one fallback exactly when this attempt falls back
    ensures multiset(cs)[M.FallbackCalls] == if !Succeeded(o) && attempt >= retries && !(o.FunctionError? && o.errorMessage.Success?) then 1 else 0
    ensures multiset(cs)[M.CallsPrevented] == 0
    // a call counts as succeeded once it returns, even if its payload then fails to parse
    ensures multiset(cs)[M.CallsSucceeded] == if o.Returned? then 1 else 0
    // only a function error counts as a failed call
    ensures multiset(cs)[M.CallsFailed] == if o.FunctionError? then 1 else 0
    // a function error whose message was read is timed out exactly when the
    // message says so, and counts a failed retry only while attempts remain
    ensures o.FunctionError? && o.errorMessage.Success? ==>
      && multiset(cs)[M.CallsTimedOut] == (if Contains(o.errorMessage.value, TimeoutSignature) then 1 else 0)
      && multiset(cs)[M.CallsNotTimedOut] == 1 - multiset(cs)[M.CallsTimedOut]
      && multiset(cs)[M.RetriesFailed] == (if attempt < retries then 1 else 0)
    // a returned call did not time out
    ensures o.Returned? ==> multiset(cs)[M.CallsNotTimedOut] == 1 && multiset(cs)[M.CallsTimedOut] == 0
    // an exception or an unreadable function error says nothing about timing
    ensures !o.Returned? && !(o.FunctionError? && o.errorMessage.Success?) ==>
      multiset(cs)[M.CallsNotTimedOut] == 0 && multiset(cs)[M.CallsTimedOut] == 0
    // any other failure counts a failed retry exactly when it gives up
    ensures !Succeeded(o) && !(o.FunctionError? && o.errorMessage.Success?) ==>
      multiset(cs)[M.RetriesFailed] == (if attempt < retries then 0 else 1)
    // a returned call counts a success with or without retries by its attempt
    ensures multiset(cs)[M.SucceededWithoutRetries] == if o.Returned? && attempt == 1 then 1 else 0
    ensures multiset(cs)[M.SucceededWithRetries] == if o.Returned? && attempt != 1 then 1 else 0
  {
    match o
    case Returned(p) =>
      var succeeded, giveUp := SuccessCounters(attempt), GiveUp(retries, attempt, p.Success?);
      assert multiset(succeeded + giveUp) == multiset(succeeded) + multiset(giveUp);
      succeeded + giveUp
    case FunctionError(m) =>
      if m.Failure? then
        var giveUp := GiveUp(retries, attempt, false);
        assert multiset([M.CallsFailed] + giveUp) == multiset{M.CallsFailed} + multiset(giveUp);
        [M.CallsFailed] + giveUp
      else ReadErrorCounters(retries, attempt, m.value)
    case Threw(_) => GiveUp(retries, attempt, false)
  }

  /** What an attempt adds after its call went wrong in the `catch` block:
      nothing while attempts remain, else a failed retry and a fallback. */
  function GiveUp(retries: int, attempt: nat, parsed: bool): (cs: seq<M.Counter>)
    ensures multiset(cs)[M.RetriesFailed] == multiset(cs)[M.FallbackCalls]
    ensures multiset(cs)[M.FallbackCalls] == if !parsed && attempt >= retries then 1 else 0
    ensures multiset(cs)[M.CallsTimedOut] == 0 && multiset(cs)[M.CallsNotTimedOut] == 0 && multiset(cs)[M.CallsPrevented] == 0
    ensures multiset(cs)[M.CallsSucceeded] == 0 && multiset(cs)[M.CallsFailed] == 0
    ensures multiset(cs)[M.SucceededWithoutRetries] == 0 && multiset(cs)[M.SucceededWithRetries] == 0
  {
    if parsed || attempt < retries then [] else GiveUpCounters
  }

  /** The counters of a function error whose message was read. */
  function ReadErrorCounters(retries: int, attempt: nat, errorMessage: string): (cs: seq<M.Counter>)
    ensures multiset(cs)[M.CallsFailed] == 1
    ensures multiset(cs)[M.CallsTimedOut] == (if Contains(errorMessage, TimeoutSignature) then 1 else 0)
    ensures multiset(cs)[M.CallsNotTimedOut] == 1 - multiset(cs)[M.CallsTimedOut]
    ensures multiset(cs)[M.RetriesFailed] == (if attempt < retries then 1 else 0)
    ensures multiset(cs)[M.CallsSucceeded] == 0 && multiset(cs)[M.CallsPrevented] == 0 && multiset(cs)[M.FallbackCalls] == 0
    ensures multiset(cs)[M.SucceededWithoutRetries] == 0 && multiset(cs)[M.SucceededWithRetries] == 0
  {
    [M.CallsFailed, TimeoutCounter(errorMessage)] + (if attempt < retries then [M.RetriesFailed] else [])
  }

  /** The counters of a prevented call. */
  const PreventedCounters: seq<M.Counter> := [M.CallsPrevented, M.FallbackCalls]

  /** The table after attempt n, if it fails, logs its error. */
  function LogAttempt(info: FunctionInfo, oracle: nat -> Attempt, n: nat, store: Store): Store {
    var a := oracle(n);
    if Succeeded(a.outcome) then store
    else LogError(store, info.functionArn, info.circuitResetTimeout, a.failAt, ErrorText(a.outcome))
  }

  /** The table after attempts `from..upto` have each logged their failure,
      in order. */
  function LogAttempts(info: FunctionInfo, oracle: nat -> Attempt, from: nat, upto: nat, store: Store): Store
    decreases if upto < from then 0 else upto - from + 1
  {
    if upto < from then store
    else LogAttempts(info, oracle, from + 1, upto, LogAttempt(info, oracle, from, store))
  }

  /** What the loop relies on about one invoked attempt: the table after it,
      the payload it forwards, the fallback it returns and what it counts. */
  predicate StepAccounted(info: FunctionInfo, oracle: nat -> Attempt, attempt: nat, store: Store, s: Step) {
    && s.store == LogAttempt(info, oracle, attempt, store)
    && (s.Finished? && s.reply.Forwarded? ==> oracle(attempt).outcome == Returned(Success(s.reply.payload)))
    && (s.Finished? && !s.reply.Forwarded? ==> s.reply == Fallback(info))
    && multiset(s.counters)[M.FallbackCalls] == (if s.Finished? && !s.reply.Forwarded? then 1 else 0)
    && multiset(s.counters)[M.CallsPrevented] == 0
  }

  lemma InvokeAccounted(info: FunctionInfo, attempt: nat, store: Store, oracle: nat -> Attempt)
    ensures StepAccounted(info, oracle, attempt, store, Invoke(info, attempt, oracle(attempt), store))
  {
  }

  /** What the loop from attempt n on guarantees: it never invokes beyond
      the retry budget; its reply is the payload of the attempt that
      succeeded, or the fallback; it counts one fallback exactly when it
      falls back, at most one prevented call, and none when it forwards;
      and every invoked attempt that failed has logged its error, in order. */
  predicate LoopAccounted(info: FunctionInfo, oracle: nat -> Attempt, attempt: nat, store: Store, l: LoopResult) {
    && attempt - 1 <= l.invocations
    && l.invocations <= (if info.retries < attempt then attempt - 1 else info.retries)
    && (l.reply.Forwarded? || l.reply == Fallback(info))
    && (l.reply.Forwarded? ==> attempt <= l.invocations)
    && (l.reply.Forwarded? ==> oracle(l.invocations).outcome == Returned(Success(l.reply.payload)))
    && multiset(l.counters)[M.FallbackCalls] == (if l.reply.Forwarded? then 0 else 1)
    && multiset(l.counters)[M.CallsPrevented] <= (if l.reply.Forwarded? then 0 else 1)
    && l.store == LogAttempts(info, oracle, attempt, l.invocations, store)
  }

  /** The `for (attempt = n; attempt <= retries; attempt++)` loop from
      attempt n on. */
  function RetryLoop(info: FunctionInfo, attempt: nat, store: Store, oracle: nat -> Attempt): (l: LoopResult)
    requires attempt >= 1
    ensures LoopAccounted(info, oracle, attempt, store, l)
    decreases info.retries - attempt + 1, 1
  {
    if attempt > info.retries then
      LoopResult(Fallback(info), store, [M.FallbackCalls], attempt - 1)
    else if IsCircuitOpen(store, info.functionArn, info.circuitOpenThreshold, oracle(attempt).checkAt) then
      LoopResult(Fallback(info), store, PreventedCounters, attempt - 1)
    else Continue(info, attempt, store, oracle)
  }

  /** The loop from attempt n on, once the breaker has let attempt n
      through: invoke, then return the reply or go on to attempt n + 1. */
  function Continue(info: FunctionInfo, attempt: nat, store: Store, oracle: nat -> Attempt): (l: LoopResult)
    requires 1 <= attempt <= info.retries
    ensures LoopAccounted(info, oracle, attempt, store, l)
    decreases info.retries - attempt + 1, 0
  {
    var s := Invoke(info, attempt, oracle(attempt), store);
    InvokeAccounted(info, attempt, store, oracle);
    match s
    case Finished(reply, store', cs) =>
      FinishedAccounted(info, oracle, attempt, store, s);
      LoopResult(reply, store', cs, attempt)
    case Retry(store', cs) =>
      var rest := RetryLoop(info, attempt + 1, store', oracle);
      RetryAccounted(info, oracle, attempt, store, s, rest);
      rest.(counters := cs + rest.counters)
  }

  /** An attempt that ends the loop accounts for the loop from it on. */
  lemma FinishedAccounted(info: FunctionInfo, oracle: nat -> Attempt, attempt: nat, store: Store, s: Step)
    requires 1 <= attempt <= info.retries
    requires s.Finished? && StepAccounted(info, oracle, attempt, store, s)
    ensures LoopAccounted(info, oracle, attempt, store, LoopResult(s.reply, s.store, s.counters, attempt))
  {
    assert LogAttempts(info, oracle, attempt + 1, attempt, s.store) == s.store;
  }

  /** An attempt that goes on, followed by a loop accounted from the next
      attempt, accounts for the loop from it on. */
  lemma RetryAccounted(info: FunctionInfo, oracle: nat -> Attempt, attempt: nat, store: Store, s: Step, rest: LoopResult)
    requires 1 <= attempt <= info.retries
    requires s.Retry? && StepAccounted(info, oracle, attempt, store, s)
    requires LoopAccounted(info, oracle, attempt + 1, s.store, rest)
    ensures LoopAccounted(info, oracle, attempt, store, rest.(counters := s.counters + rest.counters))
  {
    assert multiset(s.counters + rest.counters) == multiset(s.counters) + multiset(rest.counters);
  }

  /** `handleRequest` once a route is found and its function named: the
      dimension is set, the breaker is checked, then the retry loop runs. */
  function Guarded(info: FunctionInfo, name: string, store: Store, now: nat, oracle: nat -> Attempt): (d: Dispatch)
    ensures d.metrics.lambdaFunctionName == Some(name)
    ensures IsCircuitOpen(store, info.functionArn, info.circuitOpenThreshold, now) ==>
      && d.reply == Fallback(info) && d.invocations == 0 && d.store == store
      && M.Tally(d.metrics, M.CallsPrevented) == 1 && M.Tally(d.metrics, M.FallbackCalls) == 1
      && |d.metrics.published| == 2
    ensures d.invocations <= if info.retries < 0 then 0 else info.retries
    ensures d.reply.Forwarded? || d.reply == Fallback(info)
    ensures d.reply.Forwarded? ==> 1 <= d.invocations && oracle(d.invocations).outcome == Returned(Success(d.reply.payload))
  {
    var h := M.SetLambdaFunctionName(M.NewHandler(), name);
    if IsCircuitOpen(store, info.functionArn, info.circuitOpenThreshold, now) then
      EmitTally(h, PreventedCounters, M.CallsPrevented);
      EmitTally(h, PreventedCounters, M.FallbackCalls);
      Dispatch(Fallback(info), store, Emit(h, PreventedCounters), 0)
    else
      var l := RetryLoop(info, 1, store, oracle);
      Dispatch(l.reply, l.store, Emit(h, l.counters), l.invocations)
  }

  /** `handleRequest`: route, name the metrics dimension, then dispatch
      under the breaker. An unmatched key gets a 400 before anything is
      invoked or counted; an ARN whose split is empty throws. */
  function HandleRequest(routes: seq<Route>, request: Request, store: Store, now: nat, oracle: nat -> Attempt): (d: Dispatch)
    ensures FindRoute(routes, RouteKey(request)).None? ==>
      d == Dispatch(Generated(400, InvalidRouteMessage), store, M.NewHandler(), 0)
    ensures FindRoute(routes, RouteKey(request)).Some? ==>
      var info := routes[FindRoute(routes, RouteKey(request)).value].info;
      var name := FunctionNameFromArn(info.functionArn);
      && (name.None? ==> d == Dispatch(Escaped(IndexOutOfBounds), store, M.NewHandler(), 0))
      && (name.Some? ==> d == Guarded(info, name.value, store, now, oracle))
  {
    var found := FindRoute(routes, RouteKey(request));
    if found.None? then
      Dispatch(Generated(400, InvalidRouteMessage), store, M.NewHandler(), 0)
    else
      var info := routes[found.value].info;
      var name := FunctionNameFromArn(info.functionArn);
      if name.None? then Dispatch(Escaped(IndexOutOfBounds), store, M.NewHandler(), 0)
      else Guarded(info, name.value, store, now, oracle)
  }

  /** The map a reply carries back to the caller when the dispatcher built it. */
  function ResponseOf(r: Reply): (m: Option<RG.Response>)
    ensures r.Generated? <==> m.Some?
    ensures r.Generated? ==> RG.StatusOf(m.value) == Some(r.statusCode) && RG.BodyOf(m.value) == Some(r.body)
  {
    if r.Generated? then Some(RG.GenerateResponse(r.statusCode, r.body)) else None
  }

  // ---------------------------------------------------------------------
  // Properties of the retry loop and the dispatcher

  /** An open circuit at the start of an attempt ends the loop there: no
      invocation, no table change, and a prevented call plus a fallback
      counted. */
  lemma RetryLoopPrevented(info: FunctionInfo, attempt: nat, store: Store, oracle: nat -> Attempt)
    requires 1 <= attempt <= info.retries
    requires IsCircuitOpen(store, info.functionArn, info.circuitOpenThreshold, oracle(attempt).checkAt)
    ensures RetryLoop(info, attempt, store, oracle) == LoopResult(Fallback(info), store, PreventedCounters, attempt - 1)
  {
  }

  /** The error-table key attempt n writes if it fails. */
  function AttemptKey(info: FunctionInfo, oracle: nat -> Attempt, n: nat): ErrorKey {
    RecordKey(info.functionArn, info.circuitResetTimeout, oracle(n).failAt)
  }

  /** The error-table keys written by the failing attempts among
      `from..upto`. */
  function FailureKeys(info: FunctionInfo, oracle: nat -> Attempt, from: nat, upto: nat): (r: set<ErrorKey>)
    ensures forall k :: k in r ==> k.pk == info.functionArn
    decreases if upto < from then 0 else upto - from + 1
  {
    if upto < from then {}
    else
      (if Succeeded(oracle(from).outcome) then {} else {AttemptKey(info, oracle, from)})
      + FailureKeys(info, oracle, from + 1, upto)
  }

  /** Logging the failures of a range of attempts adds exactly their keys
      to the table, all under the target's ARN. */
  lemma {:induction false} LogAttemptsKeys(info: FunctionInfo, oracle: nat -> Attempt, from: nat, upto: nat, store: Store)
    ensures LogAttempts(info, oracle, from, upto, store).Keys == store.Keys + FailureKeys(info, oracle, from, upto)
    decreases if upto < from then 0 else upto - from + 1
  {
    if from <= upto {
      var store' := LogAttempt(info, oracle, from, store);
      LogAttemptsKeys(info, oracle, from + 1, upto, store');
    }
  }

  /** Each attempt writes at most one key, so the table grows by at most
      the number of invocations made. */
  lemma {:induction false} FailureKeysBound(info: FunctionInfo, oracle: nat -> Attempt, from: nat, upto: nat)
    ensures |FailureKeys(info, oracle, from, upto)| <= if upto < from then 0 else upto - from + 1
    decreases if upto < from then 0 else upto - from + 1
  {
    if from <= upto {
      var rest := FailureKeys(info, oracle, from + 1, upto);
      FailureKeysBound(info, oracle, from + 1, upto);
      var all := FailureKeys(info, oracle, from, upto);
      assert all <= rest + {AttemptKey(info, oracle, from)};
      SubsetCard(all, rest + {AttemptKey(info, oracle, from)});
    }
  }

  /** A routed request publishes exactly one fallback metric when it falls
      back and none when it forwards the target's reply, exactly one
      prevented call when the breaker is open before the loop and none when
      it forwards; every datum it publishes is dimensioned by the target's
      function name. */
  lemma GuardedMetrics(info: FunctionInfo, name: string, store: Store, now: nat, oracle: nat -> Attempt)
    ensures var d := Guarded(info, name, store, now, oracle);
      M.Tally(d.metrics, M.FallbackCalls) == if d.reply.Forwarded? then 0 else 1
    ensures var d := Guarded(info, name, store, now, oracle);
      IsCircuitOpen(store, info.functionArn, info.circuitOpenThreshold, now) ==> M.Tally(d.metrics, M.CallsPrevented) == 1
    ensures var d := Guarded(info, name, store, now, oracle);
      d.reply.Forwarded? ==> M.Tally(d.metrics, M.CallsPrevented) == 0
    ensures var d := Guarded(info, name, store, now, oracle);
      forall i :: 0 <= i < |d.metrics.published| ==>
        d.metrics.published[i].dimension == M.Dimension(M.DimensionName, Some(name))
  {
    var h := M.SetLambdaFunctionName(M.NewHandler(), name);
    assert M.Tally(h, M.FallbackCalls) == 0;
    assert M.Tally(h, M.CallsPrevented) == 0;
    if IsCircuitOpen(store, info.functionArn, info.circuitOpenThreshold, now) {
      EmitTally(h, PreventedCounters, M.FallbackCalls);
      EmitTally(h, PreventedCounters, M.CallsPrevented);
      EmitDimension(h, PreventedCounters);
    } else {
      var l := RetryLoop(info, 1, store, oracle);
      EmitTally(h, l.counters, M.FallbackCalls);
      EmitTally(h, l.counters, M.CallsPrevented);
      EmitDimension(h, l.counters);
    }
  }

  /** A routed request's error table gains exactly one record per failed
      invocation, all under the target's ARN, and at most one per
      invocation made. */
  lemma GuardedStore(info: FunctionInfo, name: string, store: Store, now: nat, oracle: nat -> Attempt)
    ensures var d := Guarded(info, name, store, now, oracle);
      && d.store.Keys == store.Keys + FailureKeys(info, oracle, 1, d.invocations)
      && |d.store.Keys - store.Keys| <= d.invocations
  {
    var d := Guarded(info, name, store, now, oracle);
    LogAttemptsKeys(info, oracle, 1, d.invocations, store);
    FailureKeysBound(info, oracle, 1, d.invocations);
    assert d.store.Keys - store.Keys <= FailureKeys(info, oracle, 1, d.invocations);
    SubsetCard(d.store.Keys - store.Keys, FailureKeys(info, oracle, 1, d.invocations));
  }

  /** The metrics dimension of a target named in the account's ARN form is
      the function name after the last colon. */
  lemma FunctionNameOfArn(name: string)
    requires name != "" && ':' !in name
    ensures FunctionNameFromArn(FunctionArnPrefix + ":" + name) == Some(name)
  {
    LastSegmentOf(FunctionArnPrefix, name, ':');
  }

  /** With a retry budget below one the loop ends before its first attempt. */
  lemma NoBudget(info: FunctionInfo, store: Store, oracle: nat -> Attempt)
    requires info.retries <= 0
    ensures RetryLoop(info, 1, store, oracle) == LoopResult(Fallback(info), store, [M.FallbackCalls], 0)
  {
  }

  /** With a retry budget below one the loop body never runs: a routed
      request falls back at once, invoking nothing, leaving the table as it
      was and counting one fallback, after one prevented call if the
      breaker was already open. */
  lemma NoRetriesFallsBack(info: FunctionInfo, name: string, store: Store, now: nat, oracle: nat -> Attempt)
    requires info.retries <= 0
    ensures var d := Guarded(info, name, store, now, oracle);
      && d.reply == Fallback(info) && d.invocations == 0 && d.store == store
      && M.Tally(d.metrics, M.FallbackCalls) == 1
      && M.Tally(d.metrics, M.CallsPrevented) == if IsCircuitOpen(store, info.functionArn, info.circuitOpenThreshold, now) then 1 else 0
  {
    var h := M.SetLambdaFunctionName(M.NewHandler(), name);
    var cs := if IsCircuitOpen(store, info.functionArn, info.circuitOpenThreshold, now) then PreventedCounters else [M.FallbackCalls];
    assert Guarded(info, name, store, now, oracle) == Dispatch(Fallback(info), store, Emit(h, cs), 0) by {
      NoBudget(info, store, oracle);
    }
    EmitTally(h, cs, M.FallbackCalls);
    EmitTally(h, cs, M.CallsPrevented);
  }

  /** An attempt the breaker lets through whose payload parses ends the
      loop with that payload after exactly that many invocations, counting
      a succeeded, not-timed-out call and a success with or without retries
      by the attempt's number. */
  lemma SucceedsAt(info: FunctionInfo, attempt: nat, store: Store, oracle: nat -> Attempt)
    requires 1 <= attempt <= info.retries
    requires !IsCircuitOpen(store, info.functionArn, info.circuitOpenThreshold, oracle(attempt).checkAt)
    requires Succeeded(oracle(attempt).outcome)
    ensures var l := RetryLoop(info, attempt, store, oracle);
      && l.reply == Forwarded(oracle(attempt).outcome.payload.value)
      && l.store == store && l.invocations == attempt
      && multiset(l.counters)[M.SucceededWithoutRetries] == (if attempt == 1 then 1 else 0)
      && multiset(l.counters)[M.SucceededWithRetries] == (if attempt == 1 then 0 else 1)
      && multiset(l.counters)[M.CallsSucceeded] == 1 && multiset(l.counters)[M.CallsNotTimedOut] == 1
      && multiset(l.counters)[M.CallsFailed] == 0 && multiset(l.counters)[M.CallsTimedOut] == 0
  {
    assert RetryLoop(info, attempt, store, oracle).counters == SuccessCounters(attempt);
  }

  /** How attempt n's invocation ends. */
  function OutcomeOf(oracle: nat -> Attempt, n: nat): Outcome {
    oracle(n).outcome
  }

  /** When no attempt within the budget returns a payload that parses —
      every invocation throws, reports a function error or returns garbage —
      the request falls back, counting exactly one fallback. */
  lemma NeverSucceedsFallsBack(info: FunctionInfo, name: string, store: Store, now: nat, oracle: nat -> Attempt)
    requires forall n :: 1 <= n <= info.retries ==> !Succeeded(OutcomeOf(oracle, n))
    ensures var d := Guarded(info, name, store, now, oracle);
      d.reply == Fallback(info) && M.Tally(d.metrics, M.FallbackCalls) == 1
  {
    var d := Guarded(info, name, store, now, oracle);
    if 1 <= d.invocations <= info.retries {
      assert !Succeeded(OutcomeOf(oracle, d.invocations));
    }
    GuardedMetrics(info, name, store, now, oracle);
  }

  /** The three routes of the table: the catalog listing, a product under
      it, and a product post; the bare `catalog/` path matches nothing and
      is answered with 400. */
  lemma RouteTable(id: string)
    requires id != "" && forall i :: 0 <= i < |id| ==> !LineTerminator(id[i])
    ensures FindRoute(Routes, "GET:/dispatcher/catalog") == Some(0)
    ensures FindRoute(Routes, "GET:/dispatcher/catalog/" + id) == Some(1)
    ensures FindRoute(Routes, "POST:/dispatcher/catalog") == Some(2)
    ensures FindRoute(Routes, "GET:/dispatcher/catalog/") == None
  {
    var k := "GET:/dispatcher/catalog/" + id;
    assert k[..|"GET:/dispatcher/catalog/"|] == "GET:/dispatcher/catalog/";
    assert k != "GET:/dispatcher/catalog" by { assert |k| > |"GET:/dispatcher/catalog"|; }
    assert Matches(Routes[1].pattern, k) by {
      forall i | |"GET:/dispatcher/catalog/"| <= i < |k| ensures !LineTerminator(k[i]) {
        assert k[i] == id[i - |"GET:/dispatcher/catalog/"|];
      }
    }
    assert !Matches(Routes[1].pattern, "POST:/dispatcher/catalog") by {
      assert "POST:/dispatcher/catalog"[0] != "GET:/dispatcher/catalog/"[0];
    }
    assert !Matches(Routes[1].pattern, "GET:/dispatcher/catalog");
    assert !Matches(Routes[0].pattern, "POST:/dispatcher/catalog") by {
      assert "POST:/dispatcher/catalog"[0] != "GET:/dispatcher/catalog"[0];
    }
    var post := "POST:/dispatcher/catalog";
    assert Matches(Routes[2].pattern, post);
    assert FindRouteFrom(Routes, post, 2) == Some(2);
    assert FindRouteFrom(Routes, post, 1) == Some(2);
  }
}

=== FILE: get_and_search_products.dfy ===
/** `GetAndSearchProducts.getAndSearchProducts`: read the search term,
    category, sort and page from the query string, build a DynamoDB scan
    filter with one `contains(productName, :valN)` clause per word of the
    term and a `categoryName = :cat` clause for the category, sort the
    scanned items, and return one page of them.

    The scan and the sort are outside services: the items the table returns
    for a filter, and the floating-point sort by an attribute, are passed
    in. */
module GetAndSearchProducts {
  import opened Wrappers
  import opened JavaExceptions
  import opened JavaStrings
  import opened JavaInts
  import opened RequestParams
  import opened Pagination
  import RT = ResponseTransformer

  const SearchTermKey: string := "searchTerm"
  const SortByKey: string := "sortBy"
  const SortOrderKey: string := "sortOrder"
  const CategoryKey: string := "category"
  const DefaultPageSize: Int32 := 4

  const Conjunction: string := " AND "
  const CategoryPlaceholder: string := ":cat"
  const CategoryClause: string := "categoryName = :cat"

  // ---------------------------------------------------------------------
  // The search filter

  /** The words of a search term that make clauses: the pieces between
      spaces, empty pieces skipped, in order. */
  function Words(pieces: seq<string>): (r: seq<string>)
    ensures forall i :: 0 <= i < |r| ==> r[i] != ""
    ensures |r| <= |pieces|
    decreases |pieces|
  {
    if |pieces| == 0 then []
    else
      var n := |pieces| - 1;
      assert pieces == pieces[..n] + [pieces[n]];
      Words(pieces[..n]) + (if pieces[n] != "" then [pieces[n]] else [])
  }

  /** The attribute-value name of the i-th word. */
  function Placeholder(i: nat): string {
    ":val" + ToDecimal(i)
  }

  /** The clause for the i-th word. */
  function Clause(i: nat): string {
    "contains(productName, :val" + ToDecimal(i) + ")"
  }

  /** Every word gets a name of its own, none of them the category's. */
  lemma PlaceholdersDistinct(i: nat, j: nat)
    ensures Placeholder(i) == Placeholder(j) ==> i == j
    ensures Placeholder(i) != CategoryPlaceholder
  {
    if Placeholder(i) == Placeholder(j) {
      assert ToDecimal(i) == Placeholder(i)[4..];
      assert ToDecimal(j) == Placeholder(j)[4..];
      DecimalInjective(i, j);
    }
    assert Placeholder(i)[1] != CategoryPlaceholder[1];
  }

  /** `word.substring(0, 1).toUpperCase() + word.substring(1).toLowerCase()`:
      the same letters, first upper case, the rest lower case. */
  function Capitalized(word: string): string
    requires word != ""
  {
    [UpperChar(word[0])] + ToLower(word[1..])
  }

  /** A capitalised word is as long as the word, starts with the first
      letter in upper case, and reads as the word again once lower-cased. */
  lemma CapitalizedLowers(word: string)
    requires word != ""
    ensures |Capitalized(word)| == |word| && Capitalized(word)[0] == UpperChar(word[0])
    ensures ToLower(Capitalized(word)) == ToLower(word)
  {
    assert ToLower(Capitalized(word))[0] == ToLower(word)[0];
  }

  /** A scan filter: the expression and the values its names stand for. */
  datatype Filter = Filter(expression: string, values: map<string, string>)

  /** The clauses of n words, each after an ` AND ` but the first:
      `contains(productName, :val0) AND contains(productName, :val1) ...`. */
  function SearchExpression(n: nat): (r: string)
    ensures r == "" <==> n == 0
  {
    if n == 0 then ""
    else if n == 1 then Clause(0)
    else SearchExpression(n - 1) + Conjunction + Clause(n - 1)
  }

  /** The clauses of the first words, in order. */
  predicate ClauseList(clauses: seq<string>) {
    forall i :: 0 <= i < |clauses| ==> clauses[i] == Clause(i)
  }

  /** The expression is the clauses joined by ` AND `. */
  lemma {:induction false} SearchExpressionJoins(clauses: seq<string>)
    requires ClauseList(clauses)
    ensures SearchExpression(|clauses|) == JoinWith(clauses, Conjunction)
    decreases |clauses|
  {
    var n := |clauses|;
    if n > 1 {
      var prefix := clauses[..n - 1];
      assert ClauseList(prefix) by {
        assert forall i :: 0 <= i < n - 1 ==> prefix[i] == clauses[i];
      }
      SearchExpressionJoins(prefix);
      assert clauses == prefix + [Clause(n - 1)];
      JoinAppend(prefix, Clause(n - 1), Conjunction);
    } else if n == 1 {
      assert clauses == [Clause(0)];
    }
  }

  /** Each word's name bound to the word capitalised. */
  function SearchValues(words: seq<string>): map<string, string>
    requires forall i :: 0 <= i < |words| ==> words[i] != ""
    decreases |words|
  {
    if |words| == 0 then map[]
    else
      var n := |words| - 1;
      SearchValues(words[..n])[Placeholder(n) := Capitalized(words[n])]
  }

  /** Each word's name is bound to the word capitalised, and no other name
      is bound: a later word never overwrites an earlier one. */
  lemma {:induction false} SearchValuesBind(words: seq<string>)
    requires forall i :: 0 <= i < |words| ==> words[i] != ""
    ensures forall i :: 0 <= i < |words| ==> Placeholder(i) in SearchValues(words) && SearchValues(words)[Placeholder(i)] == Capitalized(words[i])
    ensures SearchValues(words).Keys == set i | 0 <= i < |words| :: Placeholder(i)
    decreases |words|
  {
    if |words| > 0 {
      SearchValuesBind(words[..|words| - 1]);
      BindStep(words);
      KeysStep(words);
    }
  }

  /** The bindings of one more word, from those of the words before it. */
  lemma BindStep(words: seq<string>)
    requires |words| > 0 && forall i :: 0 <= i < |words| ==> words[i] != ""
    requires var prev := words[..|words| - 1];
      forall i :: 0 <= i < |prev| ==> Placeholder(i) in SearchValues(prev) && SearchValues(prev)[Placeholder(i)] == Capitalized(prev[i])
    ensures forall i :: 0 <= i < |words| ==> Placeholder(i) in SearchValues(words) && SearchValues(words)[Placeholder(i)] == Capitalized(words[i])
  {
    var n := |words| - 1;
    var prev := words[..n];
    assert SearchValues(words) == SearchValues(prev)[Placeholder(n) := Capitalized(words[n])];
    forall i | 0 <= i < |words|
      ensures Placeholder(i) in SearchValues(words) && SearchValues(words)[Placeholder(i)] == Capitalized(words[i])
    {
      if i < n {
        PlaceholdersDistinct(i, n);
        assert prev[i] == words[i];
      }
    }
  }

  /** The names bound after one more word, from those before it. */
  lemma KeysStep(words: seq<string>)
    requires |words| > 0 && forall i :: 0 <= i < |words| ==> words[i] != ""
    requires var prev := words[..|words| - 1];
      SearchValues(prev).Keys == set i | 0 <= i < |prev| :: Placeholder(i)
    ensures SearchValues(words).Keys == set i | 0 <= i < |words| :: Placeholder(i)
  {
    var n := |words| - 1;
    assert SearchValues(words).Keys == SearchValues(words[..n]).Keys + {Placeholder(n)};
    assert (set i | 0 <= i < |words| :: Placeholder(i)) == (set i | 0 <= i < n :: Placeholder(i)) + {Placeholder(n)};
  }

  /** The search part of the scan filter. */
  function SearchFilter(words: seq<string>): (f: Filter)
    requires forall i :: 0 <= i < |words| ==> words[i] != ""
  {
    Filter(SearchExpression(|words|), SearchValues(words))
  }

  lemma AllPlaceholdersDistinct()
    ensures forall i: nat, j: nat :: Placeholder(i) == Placeholder(j) ==> i == j
    ensures forall i: nat :: Placeholder(i) != CategoryPlaceholder
  {
    forall i: nat, j: nat ensures Placeholder(i) == Placeholder(j) ==> i == j {
      PlaceholdersDistinct(i, j);
    }
  }

  /** One more word binds one more name and keeps the others. */
  lemma SearchValuesAppend(words: seq<string>, w: string)
    requires forall i :: 0 <= i < |words| ==> words[i] != ""
    requires w != ""
    ensures SearchValues(words + [w]) == SearchValues(words)[Placeholder(|words|) := Capitalized(w)]
  {
    assert (words + [w])[..|words|] == words;
  }

  /** The words of one more piece. */
  lemma WordsStep(pieces: seq<string>, k: nat)
    requires k < |pieces|
    ensures pieces[k] == "" ==> Words(pieces[..k + 1]) == Words(pieces[..k])
    ensures pieces[k] != "" ==> Words(pieces[..k + 1]) == Words(pieces[..k]) + [pieces[k]]
  {
    assert pieces[..k + 1][..k] == pieces[..k];
    assert Words(pieces[..k]) + [] == Words(pieces[..k]);
  }

  /** One more word adds its clause, after an ` AND ` unless it is the
      first. */
  lemma SearchExpressionStep(n: nat)
    ensures SearchExpression(n + 1) == (if n > 0 then SearchExpression(n) + Conjunction else "") + Clause(n)
  {
    if n == 0 {
      assert "" + Clause(0) == Clause(0);
    }
  }

  /** The builder and the map after one more word. */
  lemma TakeWord(words: seq<string>, w: string)
    requires forall i :: 0 <= i < |words| ==> words[i] != ""
    requires w != ""
    ensures SearchExpression(|words| + 1) ==
      (if |words| > 0 then SearchExpression(|words|) + Conjunction else SearchExpression(|words|)) + Clause(|words|)
    ensures SearchValues(words + [w]) == SearchValues(words)[Placeholder(|words|) := Capitalized(w)]
  {
    SearchExpressionStep(|words|);
    SearchValuesAppend(words, w);
  }

  /** One piece of the term through the loop body: an empty piece is
      skipped; a word appends its clause, after an ` AND ` unless it is the
      first, and binds its name to the word capitalised. */
  method TakePiece(piece: string, ghost words: seq<string>, builder: string, values: map<string, string>, index: nat)
    returns (builder': string, values': map<string, string>, index': nat)
    requires forall i :: 0 <= i < |words| ==> words[i] != ""
    requires index == |words| && builder == SearchExpression(index) && values == SearchValues(words)
    ensures piece == "" ==> builder' == builder && values' == values && index' == index
    ensures piece != "" ==>
      && index' == index + 1
      && builder' == SearchExpression(index')
      && values' == SearchValues(words + [piece])
  {
    builder', values', index' := builder, values, index;
    if piece != "" {
      TakeWord(words, piece);
      var capitalized := Capitalized(piece);
      if index > 0 {
        builder' := builder' + Conjunction;
      }
      builder' := builder' + Clause(index);
      values' := values'[Placeholder(index) := capitalized];
      index' := index + 1;
    }
  }

  /** The loop as written, appending to a StringBuilder and putting each
      value into the map, with a counter of the words taken. */
  method BuildSearch(searchTerm: string) returns (f: Filter)
    ensures f == SearchFilter(Words(Split(searchTerm, ' ')))
  {
    var pieces := Split(searchTerm, ' ');
    var builder := "";
    var values: map<string, string> := map[];
    var index := 0;
    if searchTerm != "" {
      var k := 0;
      ghost var words: seq<string> := [];
      while k < |pieces|
        invariant 0 <= k <= |pieces|
        invariant words == Words(pieces[..k]) && index == |words|
        invariant builder == SearchExpression(index) && values == SearchValues(words)
      {
        WordsStep(pieces, k);
        builder, values, index := TakePiece(pieces[k], words, builder, values, index);
        if pieces[k] != "" {
          words := words + [pieces[k]];
        }
        k := k + 1;
      }
      assert pieces[..k] == pieces;
    } else {
      assert pieces == [""];
      assert pieces[..0] == [];
    }
    f := Filter(builder, values);
  }

  /** The filter the scan is given: the search clauses, then the category
      clause; none at all when both are absent. */
  function ScanFilter(searchTerm: string, category: string): (r: Option<Filter>)
    ensures r.None? <==> Words(Split(searchTerm, ' ')) == [] && category == ""
    ensures r.Some? && category != "" ==> EndsWith(r.value.expression, CategoryClause)
  {
    var search := SearchFilter(Words(Split(searchTerm, ' ')));
    if category == "" then
      if search.expression == "" then None else Some(search)
    else
      var prefix := if search.expression == "" then "" else search.expression + Conjunction;
      var expression := prefix + CategoryClause;
      assert expression[|expression| - |CategoryClause|..] == CategoryClause;
      Some(Filter(expression, search.values[CategoryPlaceholder := category]))
  }

  /** Each word, none of them empty, has its name bound to the word
      capitalised. */
  predicate BindsWords(values: map<string, string>, words: seq<string>) {
    forall i :: 0 <= i < |words| ==> words[i] != "" && Placeholder(i) in values && values[Placeholder(i)] == Capitalized(words[i])
  }

  /** The names the words' bindings use. */
  function WordNames(words: seq<string>): set<string> {
    set i | 0 <= i < |words| :: Placeholder(i)
  }

  /** The bindings of a scan filter: each word's name to the word
      capitalised, the category's name to a non-empty category, and
      nothing else. */
  predicate ScanBindings(values: map<string, string>, words: seq<string>, category: string) {
    && BindsWords(values, words)
    && (category != "" ==> CategoryPlaceholder in values && values[CategoryPlaceholder] == category)
    && values.Keys == WordNames(words) + (if category == "" then {} else {CategoryPlaceholder})
  }

  /** The scan filter binds each word's name to the word capitalised and
      the category's name to the category, and nothing else. */
  lemma ScanFilterBinds(searchTerm: string, category: string)
    requires ScanFilter(searchTerm, category).Some?
    ensures ScanBindings(ScanFilter(searchTerm, category).value.values, Words(Split(searchTerm, ' ')), category)
  {
    ScanFilterValues(searchTerm, category);
    var words := Words(Split(searchTerm, ' '));
    if category == "" {
      WordBindings(words);
    } else {
      WordAndCategoryBindings(words, category);
    }
  }

  /** Without a category, the words' bindings are the scan filter's. */
  lemma WordBindings(words: seq<string>)
    requires forall i :: 0 <= i < |words| ==> words[i] != ""
    ensures ScanBindings(SearchValues(words), words, "")
  {
    SearchValuesBind(words);
    assert SearchValues(words).Keys == WordNames(words) + {};
  }

  /** With a category, the words' bindings and the category's are the
      scan filter's. */
  lemma WordAndCategoryBindings(words: seq<string>, category: string)
    requires forall i :: 0 <= i < |words| ==> words[i] != ""
    requires category != ""
    ensures ScanBindings(SearchValues(words)[CategoryPlaceholder := category], words, category)
  {
    SearchValuesBind(words);
    CategoryBinds(SearchValues(words), words, category);
  }

  /** The scan filter's values: the words' bindings, with the category's
      added when there is one. */
  lemma ScanFilterValues(searchTerm: string, category: string)
    requires ScanFilter(searchTerm, category).Some?
    ensures var values := SearchValues(Words(Split(searchTerm, ' ')));
      ScanFilter(searchTerm, category).value.values ==
        if category == "" then values else values[CategoryPlaceholder := category]
  {
  }

  /** Binding a non-empty category's name to it completes the bindings. */
  lemma CategoryBinds(values: map<string, string>, words: seq<string>, category: string)
    requires category != ""
    requires BindsWords(values, words) && values.Keys == WordNames(words)
    ensures ScanBindings(values[CategoryPlaceholder := category], words, category)
  {
    forall i | 0 <= i < |words|
      ensures words[i] != "" && Placeholder(i) in values[CategoryPlaceholder := category]
      ensures values[CategoryPlaceholder := category][Placeholder(i)] == Capitalized(words[i])
    {
      PlaceholdersDistinct(i, i);
    }
  }

  /** Words written with single spaces come back as the same words, each
      bound to its capitalised form. */
  lemma SearchForWords(words: seq<string>, category: string)
    requires |words| > 0 && forall i :: 0 <= i < |words| ==> words[i] != "" && ' ' !in words[i]
    ensures Words(Split(JoinWith(words, " "), ' ')) == words
    ensures ScanFilter(JoinWith(words, " "), category).Some?
    ensures BindsWords(ScanFilter(JoinWith(words, " "), category).value.values, words)
  {
    JoinSplit(words, ' ');
    WordsOfWords(words);
    ScanFilterBinds(JoinWith(words, " "), category);
  }

  /** Words that are all non-empty are all kept. */
  lemma {:induction false} WordsOfWords(words: seq<string>)
    requires forall i :: 0 <= i < |words| ==> words[i] != ""
    ensures Words(words) == words
    decreases |words|
  {
    if |words| > 0 {
      var n := |words| - 1;
      WordsOfWords(words[..n]);
      assert words == words[..n] + [words[n]];
    }
  }

  // ---------------------------------------------------------------------
  // The handler

  /** The attribute to sort by, and whether the order is reversed. */
  datatype Ordering = Ordering(attribute: string, descending: bool)

  /** `sortBy` names `AverageRating` or `Price`; any other value leaves the
      scan order. `sortOrder` reverses it when it is `DSC` in any case. */
  function SortOrdering(sortBy: string, sortOrder: string): (r: Option<Ordering>)
    ensures r.Some? <==> sortBy == "AverageRating" || sortBy == "Price"
    ensures r.Some? ==> r.value.attribute == sortBy && (r.value.descending <==> ToUpper(sortOrder) == "DSC")
  {
    if sortBy == "AverageRating" || sortBy == "Price" then Some(Ordering(sortBy, ToUpper(sortOrder) == "DSC"))
    else None
  }

  /** The response body. */
  datatype ProductPage = ProductPage(
    products: seq<map<string, string>>,
    totalPages: Int32,
    totalProducts: nat,
    currentRangeStart: Int32,
    currentRangeEnd: Int32)

  datatype Outcome =
    | Listed(filter: Option<Filter>, body: ProductPage) // 200, with the filter the scan was given
    | Throws(cause: Thrown)                             // rethrown as a RuntimeException

  /** `queryStringParameters.getOrDefault(key, "")`. */
  function Text(query: Params, key: string): string {
    Get(query, key).GetOr("")
  }

  /** The scanned items in the order the response lists them: as the scan
      returned them when there is no ordering, else as the sort returns
      them. */
  function Arranged(items: seq<RT.Item>, ordering: Option<Ordering>,
                    sort: (seq<RT.Item>, Ordering) -> Result<seq<RT.Item>, Thrown>): Result<seq<RT.Item>, Thrown> {
    if ordering.None? then Success(items) else sort(items, ordering.value)
  }

  /** The ordering a request's `sortBy` and `sortOrder` select. */
  function RequestOrdering(e: Event): Option<Ordering> {
    SortOrdering(Text(QueryOrEmpty(e), SortByKey), Text(QueryOrEmpty(e), SortOrderKey))
  }

  /** The body lists page `page` of the sorted items: the items between the
      page's start and end, each flattened, numbered from `start + 1` (as
      an `int` sum) to `end`. */
  predicate ListsPage(body: ProductPage, sorted: seq<RT.Item>, page: Int32, pageSize: Int32)
    requires |sorted| <= MaxInt
  {
    && Paginate(sorted, page, pageSize).Success?
    && var p := Paginate(sorted, page, pageSize).value;
       && body.products == RT.TransformItems(sorted[p.start..p.end])
       && body.currentRangeStart == Wrap32(p.start + 1)
       && body.currentRangeEnd == p.end
  }

  function HandleGetAndSearchProducts(e: Event, scan: Option<Filter> -> seq<RT.Item>,
                                      sort: (seq<RT.Item>, Ordering) -> Result<seq<RT.Item>, Thrown>): (r: Outcome)
    requires forall f :: |scan(f)| <= MaxInt
    requires forall items, o :: sort(items, o).Success? ==> |sort(items, o).value| == |items|
    ensures r.Listed? ==> r.filter == ScanFilter(ToLower(Text(QueryOrEmpty(e), SearchTermKey)), Text(QueryOrEmpty(e), CategoryKey))
    ensures r.Listed? ==>
      && PageParams(QueryOrEmpty(e), DefaultPageSize).Success?
      && r.body.totalProducts == |scan(r.filter)|
      && |r.body.products| <= PageParams(QueryOrEmpty(e), DefaultPageSize).value.1
      && r.body.currentRangeEnd <= r.body.totalProducts
      && r.body.totalPages == TotalPages(r.body.totalProducts, PageParams(QueryOrEmpty(e), DefaultPageSize).value.1)
    // the products are the requested page of the scan, sorted by the
    // request's ordering or left in scan order, each flattened; the range
    // numbers the page's first item from 1 and ends at its last
    ensures r.Listed? ==>
      var sorted := Arranged(scan(r.filter), RequestOrdering(e), sort);
      && sorted.Success? && |sorted.value| == |scan(r.filter)|
      && ListsPage(r.body, sorted.value, PageParams(QueryOrEmpty(e), DefaultPageSize).value.0,
                   PageParams(QueryOrEmpty(e), DefaultPageSize).value.1)
    ensures r.Throws? && PageParams(QueryOrEmpty(e), DefaultPageSize).Failure? ==> r.cause == NumberFormat
    // with readable numbers, a listing exactly when the sort and the page
    // succeed; a failing sort's exception is the handler's
    ensures PageParams(QueryOrEmpty(e), DefaultPageSize).Success? ==>
      var sorted := Arranged(scan(ScanFilter(ToLower(Text(QueryOrEmpty(e), SearchTermKey)), Text(QueryOrEmpty(e), CategoryKey))), RequestOrdering(e), sort);
      && (sorted.Failure? ==> r == Throws(sorted.error))
      && (sorted.Success? ==>
           (r.Listed? <==> Paginate(sorted.value, PageParams(QueryOrEmpty(e), DefaultPageSize).value.0,
                                    PageParams(QueryOrEmpty(e), DefaultPageSize).value.1).Success?))
  {
    var query := QueryOrEmpty(e);
    var searchTerm := ToLower(Text(query, SearchTermKey));
    var ordering := SortOrdering(Text(query, SortByKey), Text(query, SortOrderKey));
    var category := Text(query, CategoryKey);
    match PageParams(query, DefaultPageSize)
    case Failure(cause) => Throws(cause)
    case Success((page, pageSize)) =>
      var filter := ScanFilter(searchTerm, category);
      var items := scan(filter);
      var sorted := Arranged(items, ordering, sort);
      if sorted.Failure? then Throws(sorted.error)
      else
        match Paginate(sorted.value, page, pageSize)
        case Failure(cause) => Throws(cause)
        case Success(p) =>
          Listed(filter, ProductPage(RT.TransformItems(p.items), p.totalPages, |sorted.value|, Wrap32(p.start + 1), p.end))
  }

  /** Without query parameters the handler scans unfiltered and returns the
      first four items in scan order, numbered from 1. */
  lemma DefaultListing(e: Event, scan: Option<Filter> -> seq<RT.Item>,
                       sort: (seq<RT.Item>, Ordering) -> Result<seq<RT.Item>, Thrown>)
    requires forall f :: |scan(f)| <= MaxInt
    requires forall items, o :: sort(items, o).Success? ==> |sort(items, o).value| == |items|
    requires e.queryStringParameters.None?
    ensures var r := HandleGetAndSearchProducts(e, scan, sort);
      && r.Listed? && r.filter.None?
      && r.body.products == RT.TransformItems(scan(None)[..Min(DefaultPageSize, |scan(None)|)])
      && r.body.currentRangeStart == 1
  {
    assert Split("", ' ') == [""];
    assert Words([""]) == [];
    FirstPage(scan(None), DefaultPageSize);
  }

  /** Without a sort, page `page` of size `pageSize` lists the scanned items
      from `(page - 1) * pageSize` up to `page * pageSize` or the end, each
      flattened and numbered from 1; a page starting past the end throws. */
  lemma ListedPage(e: Event, scan: Option<Filter> -> seq<RT.Item>,
                   sort: (seq<RT.Item>, Ordering) -> Result<seq<RT.Item>, Thrown>)
    requires forall f :: |scan(f)| <= MaxInt
    requires forall items, o :: sort(items, o).Success? ==> |sort(items, o).value| == |items|
    requires Get(QueryOrEmpty(e), SortByKey).GetOr("") !in {"AverageRating", "Price"}
    requires PageParams(QueryOrEmpty(e), DefaultPageSize).Success?
    ensures var r := HandleGetAndSearchProducts(e, scan, sort);
      var (page, pageSize) := PageParams(QueryOrEmpty(e), DefaultPageSize).value;
      var items := scan(ScanFilter(ToLower(Text(QueryOrEmpty(e), SearchTermKey)), Text(QueryOrEmpty(e), CategoryKey)));
      r.Listed? <==> Paginate(items, page, pageSize).Success?
    ensures var r := HandleGetAndSearchProducts(e, scan, sort);
      var (page, pageSize) := PageParams(QueryOrEmpty(e), DefaultPageSize).value;
      var items := scan(ScanFilter(ToLower(Text(QueryOrEmpty(e), SearchTermKey)), Text(QueryOrEmpty(e), CategoryKey)));
      1 <= page && 0 <= pageSize && page * pageSize <= MaxInt ==>
        && (r.Listed? <==> (page - 1) * pageSize <= |items|)
        && (r.Listed? ==> ExactPage(r.body, items, page, pageSize))
  {
    var page := PageParams(QueryOrEmpty(e), DefaultPageSize).value.0;
    var pageSize := PageParams(QueryOrEmpty(e), DefaultPageSize).value.1;
    var items := scan(ScanFilter(ToLower(Text(QueryOrEmpty(e), SearchTermKey)), Text(QueryOrEmpty(e), CategoryKey)));
    var r := HandleGetAndSearchProducts(e, scan, sort);
    assert RequestOrdering(e).None?;
    assert Arranged(items, RequestOrdering(e), sort) == Success(items);
    if 1 <= page && 0 <= pageSize && page * pageSize <= MaxInt {
      PaginateExact(items, page, pageSize);
      if r.Listed? {
        ExactPageOf(r.body, items, page, pageSize);
      }
    }
  }

  /** A body listing items `(page - 1) * pageSize` up to `page * pageSize`
      or the end, flattened, numbered from 1. */
  predicate ExactPage(body: ProductPage, items: seq<RT.Item>, page: int, pageSize: int)
    requires 1 <= page && 0 <= pageSize && (page - 1) * pageSize <= |items|
  {
    && body.products == RT.TransformItems(items[(page - 1) * pageSize..Min(page * pageSize, |items|)])
    && body.currentRangeStart == (page - 1) * pageSize + 1
    && body.currentRangeEnd == Min(page * pageSize, |items|)
  }

  lemma ExactPageOf(body: ProductPage, items: seq<RT.Item>, page: Int32, pageSize: Int32)
    requires |items| <= MaxInt
    requires 1 <= page && 0 <= pageSize && page * pageSize <= MaxInt
    requires Paginate(items, page, pageSize).Success?
    requires (page - 1) * pageSize <= |items|
    requires var p := Paginate(items, page, pageSize).value;
      && p.start == (page - 1) * pageSize && p.end == Min(page * pageSize, |items|)
      && body.products == RT.TransformItems(items[p.start..p.end])
      && body.currentRangeStart == Wrap32(p.start + 1) && body.currentRangeEnd == p.end
    ensures ExactPage(body, items, page, pageSize)
  {
    assert (page - 1) * pageSize == page * pageSize - pageSize;
  }
}

=== FILE: get_cart.dfy ===
/** `GetCart.handleRequest`: verify the raw `Authorization` header, query
    the user's cart, answer an empty cart at once, and otherwise parse its
    `OrderList` with `transformCartItems` and return one page of the
    products with the stored total price.

    Token verification and the cart query are outside services: the
    verifier's verdict for a header, and the items the query returns for
    the user, are passed in. */
module GetCart {
  import opened Wrappers
  import opened JavaExceptions
  import opened JavaStrings
  import opened JavaInts
  import opened RequestParams
  import opened Pagination
  import RT = ResponseTransformer

  const DefaultPageSize: Int32 := 10
  const InvalidTokenPrefix: string := "Invalid token: "

  datatype Outcome =
    | Unauthorized(body: string)  // 401
    | EmptyCart                   // 200 {"products": [], "totalPages": 0, "totalPrice": 0}
    | Listed(products: seq<RT.Product>, totalPages: Int32, totalPrice: Option<string>) // 200
    | Throws(cause: Thrown)       // rethrown as a RuntimeException

  /** `items.get(0).get("OrderList").s()`: a missing attribute is null and
      so is the string view of a non-string one; either throws on the
      following `isEmpty()`. */
  function OrderListOf(item: RT.Item): (r: Result<string, Thrown>)
    ensures r.Failure? <==> RT.OrderListKey !in item || item[RT.OrderListKey].s.None?
    ensures r.Failure? ==> r.error == NullPointer
    ensures r.Success? ==> item[RT.OrderListKey].s == Some(r.value)
  {
    if RT.OrderListKey !in item || item[RT.OrderListKey].s.None? then Failure(NullPointer)
    else Success(item[RT.OrderListKey].s.value)
  }

  /** A query result the handler answers with the empty cart: no item, or
      an item whose `OrderList` is the empty string. */
  predicate IsEmptyCart(items: seq<RT.Item>) {
    |items| == 0 || OrderListOf(items[0]) == Success("")
  }

  /** The `TotalPrice` the response echoes: the number view of the stored
      attribute, null when there is none. */
  function TotalPriceOf(item: RT.Item): Option<string> {
    if RT.TotalPriceKey in item then item[RT.TotalPriceKey].n else None
  }

  /** A Java string is shorter than `Integer.MAX_VALUE` characters. */
  predicate JavaSized(item: RT.Item) {
    RT.OrderListKey in item && item[RT.OrderListKey].s.Some? ==> |item[RT.OrderListKey].s.value| < MaxInt
  }

  /** What a verified user gets for the cart the query found. */
  function HandleGetCart(e: Event, verify: Option<string> -> Verification, items: seq<RT.Item>): (r: Outcome)
    requires forall i :: 0 <= i < |items| ==> JavaSized(items[i])
    ensures e.headers.None? ==> r == Throws(NullPointer)
    ensures e.headers.Some? ==>
      var v := verify(Get(e.headers.value, AuthorizationKey));
      && (r.Unauthorized? <==> v.Refused? && GetCartCatches(v.failure))
      && (r.Unauthorized? ==> r.body == InvalidTokenPrefix + v.message)
      && (v.Refused? && !GetCartCatches(v.failure) ==> r == Throws(Unverified(v.message)))
      && (v.Verified? ==> r == ReadCart(e, items))
  {
    match AuthorizationHeader(e)
    case Failure(cause) => Throws(cause)
    case Success(header) =>
      match verify(header)
      case Refused(failure, message) =>
        if GetCartCatches(failure) then Unauthorized(InvalidTokenPrefix + message) else Throws(Unverified(message))
      case Verified(_) => ReadCart(e, items)
  }

  /** The cart of a verified user: the empty answer for an empty cart,
      otherwise the parsed `OrderList` paged by the query parameters. */
  function ReadCart(e: Event, items: seq<RT.Item>): (r: Outcome)
    requires forall i :: 0 <= i < |items| ==> JavaSized(items[i])
    ensures !r.Unauthorized?
    ensures r == EmptyCart <==> IsEmptyCart(items)
    ensures |items| > 0 && OrderListOf(items[0]).Failure? ==> r == Throws(NullPointer)
    ensures r.Listed? ==>
      && |items| > 0 && OrderListOf(items[0]).Success?
      && RT.ParseOrderList(OrderListOf(items[0]).value).Success?
      && |RT.ParseOrderList(OrderListOf(items[0]).value).value| <= MaxInt
      && r == ListPage(e, RT.ParseOrderList(OrderListOf(items[0]).value).value, TotalPriceOf(items[0]))
  {
    if |items| == 0 then EmptyCart
    else
      match OrderListOf(items[0])
      case Failure(cause) => Throws(cause)
      case Success(orderList) =>
        if orderList == "" then EmptyCart
        else
          match RT.ParseOrderList(orderList)
          case Failure(cause) => Throws(cause)
          case Success(ps) =>
            assert JavaSized(items[0]);
            RT.ParsedLength(orderList);
            ListPage(e, ps, TotalPriceOf(items[0]))
  }

  /** The products line 108 reads back: `transformCartItems` of the single
      cart item fails exactly when the `OrderList` does not parse, and
      otherwise holds the parsed list under `products` and the stored
      `TotalPrice` under its own name. */
  lemma CartItemProducts(item: RT.Item, orderList: string)
    requires OrderListOf(item) == Success(orderList)
    ensures RT.TransformCartItems([item]).Success? <==> RT.ParseOrderList(orderList).Success?
    ensures RT.TransformCartItems([item]).Success? ==>
      && RT.TransformCartItems([item]).value[0][RT.ProductsKey] == RT.Products(RT.ParseOrderList(orderList).value)
      && (RT.TotalPriceKey in item ==> RT.TransformCartItems([item]).value[0][RT.TotalPriceKey] == RT.Plain(TotalPriceOf(item)))
  {
  }

  /** The page of products the query parameters ask for, with the stored
      total price. */
  function ListPage(e: Event, ps: seq<RT.Product>, totalPrice: Option<string>): (r: Outcome)
    requires |ps| <= MaxInt
    ensures r.Listed? || r.Throws?
    ensures e.queryStringParameters.None? ==> r == Throws(NullPointer)
    ensures r.Listed? <==>
      && e.queryStringParameters.Some?
      && PageParams(e.queryStringParameters.value, DefaultPageSize).Success?
      && var (page, pageSize) := PageParams(e.queryStringParameters.value, DefaultPageSize).value;
         Paginate(ps, page, pageSize).Success?
    ensures r.Listed? ==>
      var (page, pageSize) := PageParams(e.queryStringParameters.value, DefaultPageSize).value;
      && r.products == Paginate(ps, page, pageSize).value.items
      && r.totalPages == TotalPages(|ps|, pageSize)
      && r.totalPrice == totalPrice
  {
    match QueryOrThrow(e)
    case Failure(cause) => Throws(cause)
    case Success(query) =>
      match PageParams(query, DefaultPageSize)
      case Failure(cause) => Throws(cause)
      case Success((page, pageSize)) =>
        match Paginate(ps, page, pageSize)
        case Failure(cause) => Throws(cause)
        case Success(p) => Listed(p.items, p.totalPages, totalPrice)
  }

  // ---------------------------------------------------------------------
  // Properties

  /** A verified user whose header the verifier accepts. */
  predicate Accepted(e: Event, verify: Option<string> -> Verification) {
    e.headers.Some? && verify(Get(e.headers.value, AuthorizationKey)).Verified?
  }

  /** A cart stored in the `OrderList` format is read back as the products
      it was written from, and paged by the query parameters. */
  lemma StoredCartReads(e: Event, verify: Option<string> -> Verification, items: seq<RT.Item>, ps: seq<RT.Product>)
    requires Accepted(e, verify)
    requires forall i :: 0 <= i < |items| ==> JavaSized(items[i])
    requires |ps| > 0 && forall i :: 0 <= i < |ps| ==> RT.Storable(ps[i])
    requires |items| > 0 && OrderListOf(items[0]) == Success(RT.RenderOrderList(ps))
    ensures |ps| <= MaxInt
    ensures HandleGetCart(e, verify, items) == ListPage(e, ps, TotalPriceOf(items[0]))
  {
    RT.OrderListRoundTrip(ps);
    RT.ParsedLength(RT.RenderOrderList(ps));
    assert RT.ParseOrderList("").Failure?;
    assert JavaSized(items[0]);
  }

  /** Read without query parameters, such a cart lists its first ten
      products and the number of pages needed for all of them. */
  lemma StoredCartFirstPage(e: Event, verify: Option<string> -> Verification, items: seq<RT.Item>, ps: seq<RT.Product>)
    requires Accepted(e, verify) && e.queryStringParameters == Some(map[])
    requires forall i :: 0 <= i < |items| ==> JavaSized(items[i])
    requires |ps| > 0 && forall i :: 0 <= i < |ps| ==> RT.Storable(ps[i])
    requires |items| > 0 && OrderListOf(items[0]) == Success(RT.RenderOrderList(ps))
    ensures |ps| <= MaxInt
    ensures HandleGetCart(e, verify, items) ==
      Listed(ps[..Min(DefaultPageSize, |ps|)], TotalPages(|ps|, DefaultPageSize), TotalPriceOf(items[0]))
  {
    StoredCartReads(e, verify, items, ps);
    var t := TotalPriceOf(items[0]);
    assert ListPage(e, ps, t) == Listed(ps[..Min(DefaultPageSize, |ps|)], TotalPages(|ps|, DefaultPageSize), t) by {
      FirstPage(ps, DefaultPageSize);
      assert PageParams(map[], DefaultPageSize) == Success((1, DefaultPageSize));
    }
  }

  /** With the default page size, product i of a stored cart is listed on
      page i / 10 + 1, at position i % 10. */
  lemma ProductOnItsPage(e: Event, verify: Option<string> -> Verification, items: seq<RT.Item>, ps: seq<RT.Product>, i: nat)
    requires Accepted(e, verify) && e.queryStringParameters == Some(map[PageKey := ToDecimal(i / DefaultPageSize + 1)])
    requires forall i :: 0 <= i < |items| ==> JavaSized(items[i])
    requires |ps| > 0 && forall i :: 0 <= i < |ps| ==> RT.Storable(ps[i])
    requires |items| > 0 && OrderListOf(items[0]) == Success(RT.RenderOrderList(ps))
    requires i < |ps| && |ps| + DefaultPageSize <= MaxInt
    ensures var r := HandleGetCart(e, verify, items);
      r.Listed? && i % DefaultPageSize < |r.products| && r.products[i % DefaultPageSize] == ps[i]
  {
    StoredCartReads(e, verify, items, ps);
    PageOfItem(ps, DefaultPageSize, i);
    var page := i / DefaultPageSize + 1;
    PageQuery(page);
    ListedAt(e, ps, TotalPriceOf(items[0]), page);
  }

  /** A query naming only the page reads as that page of the default size. */
  lemma PageQuery(page: Int32)
    ensures PageParams(map[PageKey := ToDecimal(page)], DefaultPageSize) == Success((page, DefaultPageSize))
  {
    var query := map[PageKey := ToDecimal(page)];
    IntParamRoundTrip(map[], PageKey, "1", page);
    IntParamDefault(query, PageSizeKey, DefaultPageSize);
  }

  /** A page that exists is the one listed. */
  lemma ListedAt(e: Event, ps: seq<RT.Product>, t: Option<string>, page: Int32)
    requires |ps| <= MaxInt
    requires e.queryStringParameters.Some?
    requires PageParams(e.queryStringParameters.value, DefaultPageSize) == Success((page, DefaultPageSize))
    requires Paginate(ps, page, DefaultPageSize).Success?
    ensures ListPage(e, ps, t).Listed?
    ensures ListPage(e, ps, t).products == Paginate(ps, page, DefaultPageSize).value.items
  {
  }

  /** The cart AddToCart creates and DeleteFromCart can leave behind, `";"`,
      is not the empty cart: it is parsed and listed as no products on no
      pages, with the stored total price. */
  lemma TerminatorOnlyCart(e: Event, verify: Option<string> -> Verification, items: seq<RT.Item>)
    requires Accepted(e, verify) && e.queryStringParameters == Some(map[])
    requires forall i :: 0 <= i < |items| ==> JavaSized(items[i])
    requires |items| > 0 && OrderListOf(items[0]) == Success(";")
    ensures HandleGetCart(e, verify, items) == Listed([], 0, TotalPriceOf(items[0]))
  {
    RT.EmptyOrderList();
    var none: seq<RT.Product> := [];
    FirstPage(none, DefaultPageSize);
  }

  /** A request without a query string throws for any cart that is not
      empty: the parameters are read with `getOrDefault` on a null map. */
  lemma NoQueryString(e: Event, verify: Option<string> -> Verification, items: seq<RT.Item>)
    requires Accepted(e, verify) && e.queryStringParameters.None?
    requires forall i :: 0 <= i < |items| ==> JavaSized(items[i])
    requires |items| > 0 && OrderListOf(items[0]).Success? && OrderListOf(items[0]).value != ""
    requires RT.ParseOrderList(OrderListOf(items[0]).value).Success?
    ensures HandleGetCart(e, verify, items) == Throws(NullPointer)
  {
    assert JavaSized(items[0]);
    RT.ParsedLength(OrderListOf(items[0]).value);
  }
}

=== FILE: get_orders.dfy ===
/** `GetOrders.getOrders` and `handleRequest`: verify the Bearer token,
    read `page` and `pageSize`, query the user's orders with `pageSize` as
    the query's limit, page the returned items, and present each order.
    Every exception becomes the same 500 response.

    Token verification and the orders table are outside services: the
    verifier's verdict for a token and the user's stored orders are passed
    in, and the query is the `Limit` semantics of a DynamoDB query over
    them. Presenting an order (`transformOrderItem`, which parses the
    order's product list as JSON, and the `TimeStamp` reformatting) is
    passed in as well. */
module GetOrders {
  import opened Wrappers
  import opened JavaExceptions
  import opened JavaStrings
  import opened JavaInts
  import opened RequestParams
  import opened Pagination
  import RT = ResponseTransformer

  const DefaultPageSize: Int32 := 10
  const UnauthorizedMessage: string := "Unauthorized: Invalid token."
  const FailureMessage: string := "Error fetching orders."

  datatype Outcome =
    | Unauthorized                                            // 401, body the JSON string UnauthorizedMessage
    | Orders(orders: seq<map<string, string>>, totalPages: Int32) // 200
    | Failed                                                  // 500, body the JSON string FailureMessage

  /** The status code of each outcome. */
  function StatusCode(r: Outcome): int {
    match r
    case Unauthorized => 401
    case Orders(_, _) => 200
    case Failed => 500
  }

  /** A DynamoDB query with `Limit`: the first `limit` items in key order;
      a limit below 1 is rejected by the service. */
  function LimitedQuery(stored: seq<RT.Item>, limit: Int32): (r: Result<seq<RT.Item>, Thrown>)
    ensures r.Success? <==> limit >= 1
    ensures r.Success? ==> |r.value| <= limit && |r.value| <= |stored| && r.value == stored[..|r.value|]
    ensures r.Success? && limit <= |stored| ==> |r.value| == limit
    ensures r.Success? && |stored| <= limit ==> r.value == stored
  {
    if limit < 1 then Failure(Rejected("Limit must be at least 1")) else Success(stored[..Min(limit, |stored|)])
  }

  /** Each paged item presented in turn; any failure fails the whole
      response. */
  function PresentAll(items: seq<RT.Item>, present: RT.Item -> Option<map<string, string>>): (r: Option<seq<map<string, string>>>)
    ensures r.Some? <==> forall i :: 0 <= i < |items| ==> present(items[i]).Some?
    ensures r.Some? ==> |r.value| == |items| && forall i :: 0 <= i < |items| ==> r.value[i] == present(items[i]).value
  {
    if forall i :: 0 <= i < |items| ==> present(items[i]).Some? then
      Some(seq(|items|, i requires 0 <= i < |items| => present(items[i]).value))
    else None
  }

  /** The handler over a given query: `query(limit)` is what the orders
      table answers for the user's key condition and the limit. */
  function HandleWith(e: Event, verify: string -> Verification,
                      query: Int32 -> Result<seq<RT.Item>, Thrown>,
                      present: RT.Item -> Option<map<string, string>>): (r: Outcome)
    requires forall limit :: query(limit).Success? ==> |query(limit).value| <= MaxInt
    ensures e.headers.None? ==> r == Failed
    ensures r == Unauthorized <==> e.headers.Some? && verify(BearerToken(Get(e.headers.value, AuthorizationKey))).Refused?
    ensures r.Orders? ==>
      && e.headers.Some? && verify(BearerToken(Get(e.headers.value, AuthorizationKey))).Verified?
      && QueryOrThrow(e).Success? && PageParams(QueryOrThrow(e).value, DefaultPageSize).Success?
      && var (page, pageSize) := PageParams(QueryOrThrow(e).value, DefaultPageSize).value;
         && query(pageSize).Success?
         && Paginate(query(pageSize).value, page, pageSize).Success?
         && var p := Paginate(query(pageSize).value, page, pageSize).value;
            && PresentAll(p.items, present) == Some(r.orders)
            && r.totalPages == TotalPages(|query(pageSize).value|, pageSize)
  {
    if e.headers.None? then Failed
    else
      match verify(BearerToken(Get(e.headers.value, AuthorizationKey)))
      case Refused(_, _) => Unauthorized
      case Verified(_) =>
        match QueryOrThrow(e)
        case Failure(_) => Failed
        case Success(params) =>
          match PageParams(params, DefaultPageSize)
          case Failure(_) => Failed
          case Success((page, pageSize)) =>
            match query(pageSize)
            case Failure(_) => Failed
            case Success(items) =>
              match Paginate(items, page, pageSize)
              case Failure(_) => Failed
              case Success(p) =>
                match PresentAll(p.items, present)
                case None => Failed
                case Some(orders) => Orders(orders, p.totalPages)
  }

  /** The handler as written: the query is limited to `pageSize` items. */
  function HandleGetOrders(e: Event, verify: string -> Verification, stored: seq<RT.Item>,
                           present: RT.Item -> Option<map<string, string>>): (r: Outcome)
    requires |stored| <= MaxInt
    ensures r.Orders? ==>
      && e.queryStringParameters.Some? && PageParams(e.queryStringParameters.value, DefaultPageSize).Success?
      && var (page, pageSize) := PageParams(e.queryStringParameters.value, DefaultPageSize).value;
      && 1 <= pageSize
      && r.totalPages == TotalPages(Min(pageSize, |stored|), pageSize)
  {
    HandleWith(e, verify, (limit: Int32) => LimitedQuery(stored, limit), present)
  }

  // ---------------------------------------------------------------------
  // Properties

  /** A caller whose Bearer token the verifier accepts. */
  predicate Accepted(e: Event, verify: string -> Verification) {
    e.headers.Some? && verify(BearerToken(Get(e.headers.value, AuthorizationKey))).Verified?
  }

  /** Every order presents. */
  predicate AllPresent(stored: seq<RT.Item>, present: RT.Item -> Option<map<string, string>>) {
    forall i :: 0 <= i < |stored| ==> present(stored[i]).Some?
  }

  /** Because the query returns at most `pageSize` orders, the response
      never reports more than one page, and every page after the first
      is empty (or fails). */
  lemma OrdersCapped(e: Event, verify: string -> Verification, stored: seq<RT.Item>,
                     present: RT.Item -> Option<map<string, string>>)
    requires |stored| <= MaxInt
    ensures var r := HandleGetOrders(e, verify, stored, present);
      r.Orders? ==>
        && r.totalPages <= 1
        && var (page, pageSize) := PageParams(e.queryStringParameters.value, DefaultPageSize).value;
           2 <= page && page * pageSize <= MaxInt ==> r.orders == []
  {
    var r := HandleGetOrders(e, verify, stored, present);
    if r.Orders? {
      var query := (limit: Int32) => LimitedQuery(stored, limit);
      assert r == HandleWith(e, verify, query, present);
      var (page, pageSize) := PageParams(e.queryStringParameters.value, DefaultPageSize).value;
      var items := query(pageSize).value;
      assert |items| <= pageSize;
      var p := Paginate(items, page, pageSize).value;
      assert PresentAll(p.items, present) == Some(r.orders);
      if 2 <= page && page * pageSize <= MaxInt {
        CappedResult(items, page, pageSize);
      } else {
        AtMostOnePage(|items|, pageSize);
      }
    }
  }

  /** Eleven stored orders and `page=2` at the default size: the response
      is an empty page out of one, so the eleventh order is never
      listed. */
  lemma SecondPageOfElevenOrders(e: Event, verify: string -> Verification, stored: seq<RT.Item>,
                                 present: RT.Item -> Option<map<string, string>>)
    requires Accepted(e, verify) && e.queryStringParameters == Some(map[PageKey := "2"])
    requires |stored| == 11 && AllPresent(stored, present)
    ensures HandleGetOrders(e, verify, stored, present) == Orders([], 1)
  {
    IntParamRoundTrip(map[], PageKey, "1", 2);
    IntParamDefault(map[PageKey := "2"], PageSizeKey, DefaultPageSize);
    assert ToDecimal(2) == "2";
    var items := stored[..10];
    PaginateExact(items, 2, DefaultPageSize);
    assert TotalPages(10, DefaultPageSize) == 1;
  }

  // ---------------------------------------------------------------------
  // The handler paging over all of the user's orders

  /** The handler with an unlimited query, as its pagination intends. */
  function HandleGetOrdersUncapped(e: Event, verify: string -> Verification, stored: seq<RT.Item>,
                                   present: RT.Item -> Option<map<string, string>>): (r: Outcome)
    requires |stored| <= MaxInt
    ensures r.Orders? ==>
      && e.queryStringParameters.Some? && PageParams(e.queryStringParameters.value, DefaultPageSize).Success?
      && r.totalPages == TotalPages(|stored|, PageParams(e.queryStringParameters.value, DefaultPageSize).value.1)
  {
    HandleWith(e, verify, (limit: Int32) => Success(stored), present)
  }

  /** Order i is listed on page i / 10 + 1, at position i % 10, of the
      default page size. */
  lemma EveryOrderOnItsPage(e: Event, verify: string -> Verification, stored: seq<RT.Item>,
                            present: RT.Item -> Option<map<string, string>>, i: nat)
    requires Accepted(e, verify) && e.queryStringParameters == Some(map[PageKey := ToDecimal(i / DefaultPageSize + 1)])
    requires i < |stored| && |stored| + DefaultPageSize <= MaxInt && AllPresent(stored, present)
    ensures var r := HandleGetOrdersUncapped(e, verify, stored, present);
      r.Orders? && i % DefaultPageSize < |r.orders| && r.orders[i % DefaultPageSize] == present(stored[i]).value
  {
    var params := map[PageKey := ToDecimal(i / DefaultPageSize + 1)];
    var page := i / DefaultPageSize + 1;
    assert PageParams(params, DefaultPageSize) == Success((page, DefaultPageSize)) by {
      IntParamRoundTrip(map[], PageKey, "1", page);
      IntParamDefault(params, PageSizeKey, DefaultPageSize);
    }
    PageOfItem(stored, DefaultPageSize, i);
    PresentedPage(stored, present, page, DefaultPageSize);
    var query := (limit: Int32) => Success(stored);
    ListedWith(e, verify, query, present, page, DefaultPageSize);
  }

  /** Every order of a page is presented when every stored one is. */
  lemma PresentedPage(stored: seq<RT.Item>, present: RT.Item -> Option<map<string, string>>, page: Int32, pageSize: Int32)
    requires |stored| <= MaxInt && AllPresent(stored, present)
    requires Paginate(stored, page, pageSize).Success?
    ensures PresentAll(Paginate(stored, page, pageSize).value.items, present).Some?
  {
    var p := Paginate(stored, page, pageSize).value;
    assert forall k :: 0 <= k < |p.items| ==> p.items[k] == stored[p.start + k];
  }

  /** Once the parameters read, the query answers and the page exists, the
      response is that page's orders presented. */
  lemma ListedWith(e: Event, verify: string -> Verification,
                   query: Int32 -> Result<seq<RT.Item>, Thrown>,
                   present: RT.Item -> Option<map<string, string>>, page: Int32, pageSize: Int32)
    requires forall limit :: query(limit).Success? ==> |query(limit).value| <= MaxInt
    requires Accepted(e, verify) && e.queryStringParameters.Some?
    requires PageParams(e.queryStringParameters.value, DefaultPageSize) == Success((page, pageSize))
    requires query(pageSize).Success? && Paginate(query(pageSize).value, page, pageSize).Success?
    requires PresentAll(Paginate(query(pageSize).value, page, pageSize).value.items, present).Some?
    ensures var p := Paginate(query(pageSize).value, page, pageSize).value;
      HandleWith(e, verify, query, present) == Orders(PresentAll(p.items, present).value, p.totalPages)
  {
  }
}

=== FILE: java_ints.dfy ===
/** Java's 32-bit `int`: its range, two's-complement wrap-around, and the
    decimal conversions `Integer.parseInt` and `String.valueOf(int)`. */
module JavaInts {
  import opened Wrappers

  const MinInt: int := -0x8000_0000
  const MaxInt: int := 0x7fff_ffff
  const Modulus: int := 0x1_0000_0000

  type Int32 = x: int | MinInt <= x <= MaxInt

  /** The Java `int` an exact result wraps to. */
  function Wrap32(x: int): (r: Int32)
    ensures (r - x) % Modulus == 0
    ensures MinInt <= x <= MaxInt ==> r == x
  {
    (x - MinInt) % Modulus + MinInt
  }

  predicate IsDigit(c: char) {
    '0' <= c <= '9'
  }

  predicate AllDigits(s: string) {
    forall i :: 0 <= i < |s| ==> IsDigit(s[i])
  }

  /** The value of a string of decimal digits, most significant first. */
  function DigitsValue(s: string): nat
    requires AllDigits(s)
    decreases |s|
  {
    if |s| == 0 then 0
    else DigitsValue(s[..|s| - 1]) * 10 + (s[|s| - 1] as int - '0' as int)
  }

  /** `Integer.parseInt(s)`: an optional `+` or `-`, then at least one ASCII
      digit, with a value that fits an `int`; absent where Java throws
      NumberFormatException. */
  function ParseInt(s: string): (r: Option<Int32>)
    ensures r.Some? ==> |s| > 0
  {
    if |s| == 0 then None
    else
      var negative := s[0] == '-';
      var digits := if s[0] == '-' || s[0] == '+' then s[1..] else s;
      if |digits| == 0 || !AllDigits(digits) then None
      else
        var magnitude: int := DigitsValue(digits);
        var v := if negative then -magnitude else magnitude;
        if MinInt <= v <= MaxInt then Some(v) else None
  }

  function DigitChar(d: int): char
    requires 0 <= d < 10
  {
    ('0' as int + d) as char
  }

  /** The decimal digits of `n`, without leading zeros. */
  function Digits(n: nat): (r: string)
    ensures |r| > 0 && AllDigits(r)
    decreases n
  {
    if n < 10 then [DigitChar(n)] else Digits(n / 10) + [DigitChar(n % 10)]
  }

  /** `String.valueOf(n)` / `Integer.toString(n)`. */
  function ToDecimal(n: int): (r: string)
    ensures |r| > 0
    ensures forall i :: 0 <= i < |r| ==> IsDigit(r[i]) || r[i] == '-'
  {
    if n < 0 then "-" + Digits(-n) else Digits(n)
  }

  lemma {:induction false} DigitsRoundTrip(n: nat)
    ensures DigitsValue(Digits(n)) == n
    decreases n
  {
    if n >= 10 {
      DigitsRoundTrip(n / 10);
      var r := Digits(n);
      assert r[..|r| - 1] == Digits(n / 10);
    }
  }

  /** Parsing the decimal form of any `int` gives the `int` back. */
  lemma ParseToDecimal(n: Int32)
    ensures ParseInt(ToDecimal(n)) == Some(n)
  {
    if n < 0 {
      ParseNegative(-(n as int));
    } else {
      DigitsRoundTrip(n);
      var r := Digits(n);
      assert r[0] != '-' && r[0] != '+';
    }
  }

  /** Parsing a minus sign followed by the digits of a magnitude that fits
      gives its negation. */
  lemma ParseNegative(m: nat)
    requires 0 < m <= -MinInt
    ensures ParseInt("-" + Digits(m)) == Some(-(m as int))
  {
    DigitsRoundTrip(m);
    var s := "-" + Digits(m);
    assert s[0] == '-';
    assert s[1..] == Digits(m);
  }

  /** A decimal form never holds a separator character of the cart format. */
  lemma DecimalHasNoSeparators(n: int)
    ensures ':' !in ToDecimal(n) && ';' !in ToDecimal(n) && ' ' !in ToDecimal(n)
  {
  }

  /** Distinct naturals have distinct decimal forms. */
  lemma DecimalInjective(a: nat, b: nat)
    requires ToDecimal(a) == ToDecimal(b)
    ensures a == b
  {
    DigitsRoundTrip(a);
    DigitsRoundTrip(b);
  }
}

=== FILE: java_strings.dfy ===
/** The few `java.lang.String` operations the handlers rely on, over
    `seq<char>`: `split` on a one-character delimiter (with Java's removal of
    trailing empty strings), `String.join`, `startsWith`, `endsWith`,
    `contains`, and ASCII case conversion. */
module JavaStrings {
  import opened Wrappers

  /** The pieces of `s` between occurrences of `d`, empty pieces included;
      always at least one piece. */
  function RawSplit(s: string, d: char): (r: seq<string>)
    ensures 1 <= |r| <= |s| + 1
    ensures forall i :: 0 <= i < |r| ==> d !in r[i]
    decreases |s|
  {
    if |s| == 0 then [""]
    else
      var rest := RawSplit(s[1..], d);
      if s[0] == d then [""] + rest
      else [[s[0]] + rest[0]] + rest[1..]
  }

  /** `String.join(sep, parts)`: the parts with `sep` between neighbours. */
  function JoinWith(parts: seq<string>, sep: string): string
    decreases |parts|
  {
    if |parts| == 0 then ""
    else if |parts| == 1 then parts[0]
    else parts[0] + sep + JoinWith(parts[1..], sep)
  }

  /** Every part followed by `d` (what a StringBuilder that appends
      `part + d` for each part produces). */
  function Terminated(parts: seq<string>, d: char): string
    decreases |parts|
  {
    if |parts| == 0 then "" else parts[0] + [d] + Terminated(parts[1..], d)
  }

  /** The list with its trailing empty strings removed. */
  function DropTrailingEmpty(parts: seq<string>): (r: seq<string>)
    ensures |r| <= |parts| && r == parts[..|r|]
    ensures |r| > 0 ==> r[|r| - 1] != ""
    ensures forall i :: |r| <= i < |parts| ==> parts[i] == ""
    decreases |parts|
  {
    if |parts| > 0 && parts[|parts| - 1] == "" then DropTrailingEmpty(parts[..|parts| - 1])
    else parts
  }

  /** `s.split(d)` for a delimiter that is not a regular-expression
      metacharacter: the whole string when `d` does not occur, otherwise the
      pieces between delimiters with trailing empty pieces removed (so
      `";".split(";")` is empty and `"".split(";")` is `[""]`). */
  function Split(s: string, d: char): (r: seq<string>)
    ensures forall i :: 0 <= i < |r| ==> d !in r[i]
    ensures d !in s ==> r == [s]
    ensures d in s && |r| > 0 ==> r[|r| - 1] != ""
    ensures |r| <= |s| + 1
  {
    if d !in s then [s] else DropTrailingEmpty(RawSplit(s, d))
  }

  /** `parts[parts.length - 1]` after `s.split(d)`; absent when the split is
      empty, where Java throws ArrayIndexOutOfBoundsException. */
  function LastSegment(s: string, d: char): (r: Option<string>)
    ensures r.Some? ==> d !in r.value
    ensures r.None? <==> d in s && forall i :: 0 <= i < |s| ==> s[i] == d
  {
    var parts := Split(s, d);
    AllDelimitersSplitEmpty(s, d);
    if |parts| == 0 then None else Some(parts[|parts| - 1])
  }

  /** A possibly null string as string concatenation renders it. */
  function Show(s: Option<string>): string {
    s.GetOr("null")
  }

  predicate StartsWith(s: string, prefix: string) {
    |prefix| <= |s| && s[..|prefix|] == prefix
  }

  predicate EndsWith(s: string, suffix: string) {
    |suffix| <= |s| && s[|s| - |suffix|..] == suffix
  }

  /** `s.contains(sub)`: `sub` occurs at some position of `s`. */
  predicate Contains(s: string, sub: string) {
    exists i :: 0 <= i <= |s| - |sub| && OccursAt(s, sub, i)
  }

  predicate OccursAt(s: string, sub: string, i: int)
    requires 0 <= i <= |s| - |sub|
  {
    s[i..i + |sub|] == sub
  }

  function LowerChar(c: char): char {
    if 'A' <= c <= 'Z' then (c as int + 32) as char else c
  }

  function UpperChar(c: char): char {
    if 'a' <= c <= 'z' then (c as int - 32) as char else c
  }

  /** `toLowerCase()` restricted to the ASCII letters. */
  function ToLower(s: string): (r: string)
    ensures |r| == |s|
    ensures forall i :: 0 <= i < |s| ==> r[i] == LowerChar(s[i])
  {
    seq(|s|, i requires 0 <= i < |s| => LowerChar(s[i]))
  }

  /** `toUpperCase()` restricted to the ASCII letters. */
  function ToUpper(s: string): (r: string)
    ensures |r| == |s|
    ensures forall i :: 0 <= i < |s| ==> r[i] == UpperChar(s[i])
  {
    seq(|s|, i requires 0 <= i < |s| => UpperChar(s[i]))
  }

  // ---------------------------------------------------------------------
  // Lemmas about splitting and joining

  /** Joining the raw pieces with the delimiter gives the string back. */
  lemma {:induction false} RawSplitJoin(s: string, d: char)
    ensures JoinWith(RawSplit(s, d), [d]) == s
    decreases |s|
  {
    if |s| > 0 {
      var rest := RawSplit(s[1..], d);
      RawSplitJoin(s[1..], d);
      if s[0] == d {
        assert RawSplit(s, d) == [""] + rest;
        assert ([""] + rest)[1..] == rest;
        assert s == [d] + s[1..];
      } else {
        var r := RawSplit(s, d);
        assert r == [[s[0]] + rest[0]] + rest[1..];
        if |rest| == 1 {
          assert s == [s[0]] + s[1..];
        } else {
          assert r[1..] == rest[1..];
          assert JoinWith(rest, [d]) == rest[0] + [d] + JoinWith(rest[1..], [d]);
          assert s == [s[0]] + s[1..];
        }
      }
    }
  }

  /** Splitting a piece free of the delimiter yields that piece alone. */
  lemma {:induction false} RawSplitNoDelimiter(s: string, d: char)
    requires d !in s
    ensures RawSplit(s, d) == [s]
    decreases |s|
  {
    if |s| > 0 {
      assert d !in s[1..] by {
        forall i | 0 <= i < |s[1..]| ensures s[1..][i] != d {
          assert s[1..][i] == s[i + 1];
        }
      }
      RawSplitNoDelimiter(s[1..], d);
      assert [s[0]] + s[1..] == s;
    }
  }

  /** Splitting one character onto the front of a string. */
  lemma RawSplitCons(c: char, t: string, d: char)
    ensures RawSplit([c] + t, d) ==
      if c == d then [""] + RawSplit(t, d) else [[c] + RawSplit(t, d)[0]] + RawSplit(t, d)[1..]
  {
    assert ([c] + t)[1..] == t;
  }

  /** Prepending to the first piece commutes with appending pieces. */
  lemma PrependFirstPiece(x: string, ra: seq<string>, rb: seq<string>)
    requires |ra| >= 1
    ensures [x + (ra + rb)[0]] + (ra + rb)[1..] == ([x + ra[0]] + ra[1..]) + rb
  {
    assert (ra + rb)[0] == ra[0];
    assert (ra + rb)[1..] == ra[1..] + rb;
  }

  /** A delimiter between two strings separates their pieces. */
  lemma {:induction false} RawSplitAppend(a: string, b: string, d: char)
    ensures RawSplit(a + [d] + b, d) == RawSplit(a, d) + RawSplit(b, d)
    decreases |a|
  {
    if |a| == 0 {
      assert a + [d] + b == [d] + b;
      RawSplitCons(d, b, d);
    } else {
      var t := a[1..];
      RawSplitAppend(t, b, d);
      assert a == [a[0]] + t;
      assert a + [d] + b == [a[0]] + (t + [d] + b);
      if a[0] == d {
        DelimiterFirst(t, b, d);
      } else {
        CharacterFirst(a[0], t, b, d);
      }
    }
  }

  /** A leading delimiter opens an empty piece, with or without more text
      after `t`. */
  lemma DelimiterFirst(t: string, b: string, d: char)
    requires RawSplit(t + [d] + b, d) == RawSplit(t, d) + RawSplit(b, d)
    ensures RawSplit([d] + (t + [d] + b), d) == RawSplit([d] + t, d) + RawSplit(b, d)
  {
    RawSplitCons(d, t + [d] + b, d);
    RawSplitCons(d, t, d);
    AppendAssociates([""], RawSplit(t, d), RawSplit(b, d));
  }

  lemma AppendAssociates<T>(x: seq<T>, y: seq<T>, z: seq<T>)
    ensures x + (y + z) == (x + y) + z
  {
  }

  /** A leading character joins the first piece, with or without more text
      after `t`. */
  lemma CharacterFirst(c: char, t: string, b: string, d: char)
    requires c != d
    requires RawSplit(t + [d] + b, d) == RawSplit(t, d) + RawSplit(b, d)
    ensures RawSplit([c] + (t + [d] + b), d) == RawSplit([c] + t, d) + RawSplit(b, d)
  {
    RawSplitCons(c, t + [d] + b, d);
    RawSplitCons(c, t, d);
    PrependFirstPiece([c], RawSplit(t, d), RawSplit(b, d));
  }

  /** Splitting a join of delimiter-free parts gives the parts back. */
  lemma {:induction false} JoinRawSplit(parts: seq<string>, d: char)
    requires |parts| >= 1
    requires forall i :: 0 <= i < |parts| ==> d !in parts[i]
    ensures RawSplit(JoinWith(parts, [d]), d) == parts
    decreases |parts|
  {
    if |parts| == 1 {
      RawSplitNoDelimiter(parts[0], d);
    } else {
      JoinRawSplit(parts[1..], d);
      RawSplitNoDelimiter(parts[0], d);
      RawSplitAppend(parts[0], JoinWith(parts[1..], [d]), d);
      assert [parts[0]] + parts[1..] == parts;
    }
  }

  /** Parts each followed by the delimiter split into the parts and one
      trailing empty piece. */
  lemma {:induction false} RawSplitTerminated(parts: seq<string>, d: char)
    requires forall i :: 0 <= i < |parts| ==> d !in parts[i]
    ensures RawSplit(Terminated(parts, d), d) == parts + [""]
    decreases |parts|
  {
    if |parts| > 0 {
      RawSplitTerminated(parts[1..], d);
      RawSplitNoDelimiter(parts[0], d);
      RawSplitAppend(parts[0], Terminated(parts[1..], d), d);
      assert parts[0] + [d] + Terminated(parts[1..], d) == Terminated(parts, d);
      assert [parts[0]] + (parts[1..] + [""]) == parts + [""];
    }
  }

  /** `Split` of a join of delimiter-free parts whose last part is not empty
      gives the parts back. */
  lemma JoinSplit(parts: seq<string>, d: char)
    requires |parts| >= 1 && parts[|parts| - 1] != ""
    requires forall i :: 0 <= i < |parts| ==> d !in parts[i]
    ensures Split(JoinWith(parts, [d]), d) == parts
  {
    JoinRawSplit(parts, d);
    var s := JoinWith(parts, [d]);
    if d !in s {
      RawSplitNoDelimiter(s, d);
    }
  }

  /** `Split` of delimiter-terminated parts: the parts, minus trailing empty
      ones; when there are no parts, the string is empty and `Split` gives
      `[""]`. */
  lemma SplitTerminated(parts: seq<string>, d: char)
    requires forall i :: 0 <= i < |parts| ==> d !in parts[i]
    ensures |parts| > 0 ==> Split(Terminated(parts, d), d) == DropTrailingEmpty(parts)
    ensures |parts| == 0 ==> Split(Terminated(parts, d), d) == [""]
  {
    RawSplitTerminated(parts, d);
    if |parts| > 0 {
      var s := Terminated(parts, d);
      assert d in s by {
        assert s == parts[0] + [d] + Terminated(parts[1..], d);
        assert s[|parts[0]|] == d;
      }
      DropOneEmpty(parts);
    }
  }

  /** One more trailing empty string is dropped with the rest. */
  lemma DropOneEmpty(parts: seq<string>)
    ensures DropTrailingEmpty(parts + [""]) == DropTrailingEmpty(parts)
  {
    assert (parts + [""])[..|parts|] == parts;
  }

  /** A string made only of delimiters splits into nothing. */
  lemma {:induction false} AllDelimitersRawSplit(s: string, d: char)
    requires forall i :: 0 <= i < |s| ==> s[i] == d
    ensures forall j :: 0 <= j < |RawSplit(s, d)| ==> RawSplit(s, d)[j] == ""
    decreases |s|
  {
    if |s| > 0 {
      AllDelimitersRawSplit(s[1..], d);
    }
  }

  lemma AllDelimitersSplitEmpty(s: string, d: char)
    ensures |Split(s, d)| == 0 <==> d in s && forall i :: 0 <= i < |s| ==> s[i] == d
  {
    if d in s && forall i :: 0 <= i < |s| ==> s[i] == d {
      AllDelimitersRawSplit(s, d);
      DropAllEmpty(RawSplit(s, d));
    } else if d in s {
      NonDelimiterMakesPiece(s, d);
    }
  }

  lemma {:induction false} DropAllEmpty(parts: seq<string>)
    requires forall j :: 0 <= j < |parts| ==> parts[j] == ""
    ensures DropTrailingEmpty(parts) == []
    decreases |parts|
  {
    if |parts| > 0 {
      DropAllEmpty(parts[..|parts| - 1]);
    }
  }

  /** A character other than the delimiter leaves a non-empty piece. */
  lemma NonDelimiterMakesPiece(s: string, d: char)
    requires exists i :: 0 <= i < |s| && s[i] != d
    ensures |Split(s, d)| > 0
  {
    var i :| 0 <= i < |s| && s[i] != d;
    var j := PieceAt(s, d, i);
    KeptPiece(RawSplit(s, d), j);
  }

  /** A non-empty piece survives the removal of trailing empty strings. */
  lemma KeptPiece(parts: seq<string>, j: nat)
    requires j < |parts| && parts[j] != ""
    ensures |DropTrailingEmpty(parts)| > j
  {
  }

  /** The raw piece holding position `i` of a non-delimiter is non-empty. */
  lemma {:induction false} PieceAt(s: string, d: char, i: nat) returns (j: nat)
    requires i < |s| && s[i] != d
    ensures j < |RawSplit(s, d)| && RawSplit(s, d)[j] != ""
    decreases |s|
  {
    var r := RawSplit(s, d);
    var rest := RawSplit(s[1..], d);
    if i == 0 || s[0] != d {
      assert r[0] == [s[0]] + rest[0];
      j := 0;
    } else {
      var k := PieceAt(s[1..], d, i - 1);
      assert r[k + 1] == rest[k];
      j := k + 1;
    }
  }

  /** The first raw piece is the text before the first delimiter. */
  lemma {:induction false} RawSplitFirst(s: string, d: char)
    ensures StartsWith(s, RawSplit(s, d)[0])
    ensures |RawSplit(s, d)[0]| == |s| || s[|RawSplit(s, d)[0]|] == d
    decreases |s|
  {
    if |s| > 0 && s[0] != d {
      RawSplitFirst(s[1..], d);
      var rest := RawSplit(s[1..], d);
      assert RawSplit(s, d)[0] == [s[0]] + rest[0];
      assert s == [s[0]] + s[1..];
    }
  }

  /** The first piece of a non-empty split is the text before the first
      delimiter. */
  lemma SplitFirst(s: string, d: char)
    requires |Split(s, d)| > 0
    ensures StartsWith(s, Split(s, d)[0])
    ensures |Split(s, d)[0]| == |s| || s[|Split(s, d)[0]|] == d
  {
    if d in s {
      RawSplitFirst(s, d);
    }
  }

  /** A join followed by one more delimiter terminates every part. */
  lemma {:induction false} JoinTerminated(parts: seq<string>, d: char)
    requires |parts| > 0
    ensures JoinWith(parts, [d]) + [d] == Terminated(parts, d)
    decreases |parts|
  {
    if |parts| > 1 {
      JoinTerminated(parts[1..], d);
    }
  }

  /** Joining one more part appends the separator and the part. */
  lemma {:induction false} JoinAppend(parts: seq<string>, x: string, sep: string)
    requires |parts| > 0
    ensures JoinWith(parts + [x], sep) == JoinWith(parts, sep) + sep + x
    decreases |parts|
  {
    assert (parts + [x])[0] == parts[0];
    if |parts| > 1 {
      assert (parts + [x])[1..] == parts[1..] + [x];
      JoinAppend(parts[1..], x, sep);
    } else {
      assert (parts + [x])[1..] == [x];
    }
  }

  /** A join ends with its last part. */
  lemma JoinEndsWithLast(parts: seq<string>, sep: string)
    requires |parts| > 0
    ensures EndsWith(JoinWith(parts, sep), parts[|parts| - 1])
  {
    var n := |parts|;
    if n > 1 {
      assert parts == parts[..n - 1] + [parts[n - 1]];
      JoinAppend(parts[..n - 1], parts[n - 1], sep);
    }
  }

  /** Terminating one more part appends it and its delimiter. */
  lemma {:induction false} TerminatedAppend(parts: seq<string>, x: string, d: char)
    ensures Terminated(parts + [x], d) == Terminated(parts, d) + x + [d]
    decreases |parts|
  {
    if |parts| == 0 {
      assert parts + [x] == [x];
    } else {
      assert (parts + [x])[0] == parts[0];
      assert (parts + [x])[1..] == parts[1..] + [x];
      TerminatedAppend(parts[1..], x, d);
    }
  }

  /** The last segment of a string that ends with a delimiter followed by a
      non-empty name free of delimiters is that name. */
  lemma LastSegmentOf(prefix: string, name: string, d: char)
    requires name != "" && d !in name
    ensures LastSegment(prefix + [d] + name, d) == Some(name)
  {
    var s := prefix + [d] + name;
    RawSplitAppend(prefix, name, d);
    RawSplitNoDelimiter(name, d);
    assert s[|prefix|] == d;
    var r := RawSplit(s, d);
    assert r[|r| - 1] == name;
  }

  /** A string free of the delimiter is its own last segment. */
  lemma LastSegmentWhole(name: string, d: char)
    requires d !in name
    ensures LastSegment(name, d) == Some(name)
  {
  }
}

=== FILE: metrics_handler.dfy ===
/** `MetricsHandler`: nine counters, each published to CloudWatch as one
    datum of value 1 in the `FaultTolerance` namespace, with a
    `LambdaFunction` dimension naming the function the dispatcher routed to.
    The CloudWatch sink is modelled as the sequence of data published so far. */
module MetricsHandler {
  import opened Wrappers

  /** The nine `increment*` methods, by the event each one counts. */
  datatype Counter =
    | CallsSucceeded             // incrementCallsSucceeded
    | CallsFailed                // incrementCallsFailed
    | CallsPrevented             // incrementCallsPrevented
    | SucceededWithoutRetries    // incrementSuccessfulCallsWithoutRetries
    | SucceededWithRetries       // incrementSuccessfulCallsWithRetries
    | RetriesFailed              // incrementFailedCalls
    | CallsTimedOut              // incrementCallsTimedOut
    | CallsNotTimedOut           // incrementCallsNotTimedOut
    | FallbackCalls              // incrementFallbackCalls

  datatype StandardUnit = Count

  datatype Dimension = Dimension(name: string, value: Option<string>)

  datatype MetricDatum = MetricDatum(
    namespace: string,
    metricName: string,
    dimension: Dimension,
    value: int,
    unit: StandardUnit)

  /** The handler's state: the name last set (null until set) and everything
      published so far. */
  datatype Handler = Handler(lambdaFunctionName: Option<string>, published: seq<MetricDatum>)

  const Namespace: string := "FaultTolerance"
  const DimensionName: string := "LambdaFunction"

  /** The CloudWatch metric name each counter publishes under. */
  function MetricName(c: Counter): string {
    match c
    case CallsSucceeded => "circuitBreaker.callsSucceeded.total"
    case CallsFailed => "circuitBreaker.callsFailed.total"
    case CallsPrevented => "circuitBreaker.callsPrevented.total"
    case SucceededWithoutRetries => "retry.callsSucceededNotRetried.total"
    case SucceededWithRetries => "retry.callsSucceededRetried.total"
    case RetriesFailed => "retry.callsFailed.total"
    case CallsTimedOut => "timeout.callsTimedOut.total"
    case CallsNotTimedOut => "timeout.callsNotTimedOut.total"
    case FallbackCalls => "fallback.calls.total"
  }

  /** A freshly constructed handler: no name set, nothing published. */
  function NewHandler(): (h: Handler)
    ensures h.lambdaFunctionName.None? && |h.published| == 0
  {
    Handler(None, [])
  }

  /** `setLambdaFunctionName`: later data carry this name; nothing is
      published. */
  function SetLambdaFunctionName(h: Handler, name: string): (r: Handler)
    ensures r.lambdaFunctionName == Some(name)
    ensures r.published == h.published
  {
    h.(lambdaFunctionName := Some(name))
  }

  /** `publishMetric(name, value, unit)`: one datum appended to the sink. */
  function Publish(h: Handler, metricName: string, value: int, unit: StandardUnit): Handler {
    var datum := MetricDatum(Namespace, metricName, Dimension(DimensionName, h.lambdaFunctionName), value, unit);
    h.(published := h.published + [datum])
  }

  /** Any of the nine `increment*` methods. */
  function Increment(h: Handler, c: Counter): (r: Handler)
    ensures r.lambdaFunctionName == h.lambdaFunctionName
    ensures |r.published| == |h.published| + 1
    ensures r.published[..|h.published|] == h.published
    ensures var d := r.published[|h.published|];
      && d.namespace == Namespace
      && d.metricName == MetricName(c)
      && d.dimension == Dimension(DimensionName, h.lambdaFunctionName)
      && d.value == 1
      && d.unit == Count
  {
    Publish(h, MetricName(c), 1, Count)
  }

  /** How many of the data carry the given metric name. */
  function CountNamed(data: seq<MetricDatum>, name: string): nat
    decreases |data|
  {
    if |data| == 0 then 0
    else CountNamed(data[..|data| - 1], name) + (if data[|data| - 1].metricName == name then 1 else 0)
  }

  /** How many published data carry the counter's metric name. */
  function Tally(h: Handler, c: Counter): nat {
    CountNamed(h.published, MetricName(c))
  }

  /** Distinct counters publish under distinct names. */
  lemma MetricNamesDistinct(c1: Counter, c2: Counter)
    ensures MetricName(c1) == MetricName(c2) <==> c1 == c2
  {
  }

  /** Incrementing a counter raises its tally by one and leaves every other
      counter's tally unchanged. */
  lemma TallyIncrement(h: Handler, c: Counter, other: Counter)
    ensures Tally(Increment(h, c), c) == Tally(h, c) + 1
    ensures other != c ==> Tally(Increment(h, c), other) == Tally(h, other)
  {
    var r := Increment(h, c);
    assert r.published[..|r.published| - 1] == h.published;
    MetricNamesDistinct(c, other);
  }

  /** Every datum ever published is a count of one in the handler's
      namespace, dimensioned by the name set when it was published. */
  ghost predicate WellFormed(h: Handler) {
    forall i :: 0 <= i < |h.published| ==>
      && h.published[i].namespace == Namespace
      && h.published[i].dimension.name == DimensionName
      && h.published[i].value == 1
      && h.published[i].unit == Count
  }

  lemma IncrementKeepsWellFormed(h: Handler, c: Counter)
    requires WellFormed(h)
    ensures WellFormed(Increment(h, c))
  {
  }
}

=== FILE: pagination.dfy ===
/** The page arithmetic every list endpoint repeats:

      totalPages = (int) Math.ceil((double) n / pageSize)
      start      = (page - 1) * pageSize
      end        = Math.min(start + pageSize, n)
      page items = items.subList(start, end)

    in Java `int` arithmetic, with `subList`'s range checks. */
module Pagination {
  import opened Wrappers
  import opened JavaExceptions
  import opened JavaInts

  /** `(int) Math.ceil((double) n / pageSize)` for a list size `n`.

      The quotient of two `int`s is exact enough in a `double` that its
      ceiling is the exact ceiling: a non-integral quotient lies at least
      `1/|pageSize|` from the nearest integer, far more than its rounding
      error. Division by zero gives NaN for `n = 0` and +Infinity otherwise,
      which the cast turns into 0 and `Integer.MAX_VALUE`. */
  function TotalPages(n: nat, pageSize: Int32): (r: Int32)
    requires n <= MaxInt
    // with a positive size: the fewest pages that hold n items
    ensures pageSize > 0 ==> 0 <= r && n <= r * pageSize && (r == 0 || (r - 1) * pageSize < n)
    ensures pageSize == 0 ==> r == if n == 0 then 0 else MaxInt
    // with a negative size: the ceiling of a non-positive quotient
    ensures pageSize < 0 ==> r <= 0 && r * pageSize <= n && n < (r - 1) * pageSize
  {
    if pageSize > 0 then
      var q := (n + pageSize - 1) / pageSize;
      CeilDiv(n, pageSize);
      q
    else if pageSize == 0 then
      if n == 0 then 0 else MaxInt
    else
      var d: int := -(pageSize as int);
      var q: int := n / d;
      FloorDiv(n, d);
      assert (-q) * pageSize == q * d;
      assert (-q - 1) * pageSize == (q + 1) * d;
      -q
  }

  lemma MulLe(a: int, b: int, c: int)
    requires a <= b && 0 <= c
    ensures a * c <= b * c
  {
    assert b * c - a * c == (b - a) * c;
  }

  lemma FloorDiv(n: nat, d: int)
    requires 0 < d
    ensures 0 <= n / d <= n && (n / d) * d <= n < (n / d + 1) * d
    ensures n == (n / d) * d + n % d && 0 <= n % d < d
  {
    var q := n / d;
    assert n == q * d + n % d;
    assert (q + 1) * d == q * d + d;
    assert 0 <= q by {
      if q < 0 { MulLe(q, -1, d); }
    }
    MulLe(1, d, q);
  }

  lemma CeilDiv(n: nat, d: int)
    requires 0 < d
    ensures var q := (n + d - 1) / d;
      0 <= q && n <= q * d && (q == 0 || (q - 1) * d < n) && (n > 0 ==> q <= n)
  {
    var q := (n + d - 1) / d;
    assert n + d - 1 == q * d + (n + d - 1) % d;
    assert (q - 1) * d == q * d - d;
    assert 0 <= q by {
      if q < 0 { MulLe(q, -1, d); }
    }
    if n > 0 {
      assert q <= n by {
        if q > n {
          MulLe(n + 1, q, d);
          assert (n + 1) * d == n * d + d;
          MulLe(1, n, d);
        }
      }
    }
  }

  /** `(page - 1) * pageSize`, each operation wrapping. */
  function PageStart(page: Int32, pageSize: Int32): Int32 {
    Wrap32(Wrap32(page - 1) * pageSize)
  }

  /** `Math.min(start + pageSize, n)`, the addition wrapping. */
  function PageEnd(start: Int32, pageSize: Int32, n: nat): (r: Int32)
    requires n <= MaxInt
    ensures r <= n
  {
    var e := Wrap32(start + pageSize);
    if e < n then e else n
  }

  /** `List.subList(from, to)`: IndexOutOfBoundsException for an index
      outside the list, IllegalArgumentException for a start after the end. */
  function SubList<T>(items: seq<T>, from: int, to: int): (r: Result<seq<T>, Thrown>)
    ensures r.Success? <==> 0 <= from <= to <= |items|
    ensures r.Success? ==> |r.value| == to - from && forall i :: 0 <= i < |r.value| ==> r.value[i] == items[from + i]
    ensures (from < 0 || to > |items|) ==> r == Failure(IndexOutOfBounds)
    ensures 0 <= from && to <= |items| && from > to ==> r == Failure(IllegalArgument)
  {
    if from < 0 || to > |items| then Failure(IndexOutOfBounds)
    else if from > to then Failure(IllegalArgument)
    else Success(items[from..to])
  }

  /** One page of a list, with the figures the responses report. */
  datatype Page<T> = Page(items: seq<T>, totalPages: Int32, start: Int32, end: Int32)

  /** The page a list endpoint returns, or the exception `subList` throws. */
  function Paginate<T>(all: seq<T>, page: Int32, pageSize: Int32): (r: Result<Page<T>, Thrown>)
    requires |all| <= MaxInt
    ensures r.Success? ==> 0 <= r.value.start <= r.value.end <= |all|
    ensures r.Success? ==> r.value.items == all[r.value.start..r.value.end]
    // a page never holds more than pageSize items
    ensures r.Success? ==> |r.value.items| <= pageSize
    ensures r.Success? ==> r.value.totalPages == TotalPages(|all|, pageSize)
    ensures r.Failure? ==> r.error == IndexOutOfBounds || r.error == IllegalArgument
  {
    var start := PageStart(page, pageSize);
    var end := PageEnd(start, pageSize, |all|);
    var items :- SubList(all, start, end);
    assert items == all[start..end];
    Success(Page(items, TotalPages(|all|, pageSize), start, end))
  }

  // ---------------------------------------------------------------------
  // Pages without overflow

  /** While `page * pageSize` fits an `int`, page p covers the items
      `(p - 1) * pageSize` up to `p * pageSize`, and exists exactly when it
      does not start past the end. */
  lemma PaginateExact<T>(all: seq<T>, page: Int32, pageSize: Int32)
    requires |all| <= MaxInt
    requires 1 <= page && 0 <= pageSize && page * pageSize <= MaxInt
    ensures var r := Paginate(all, page, pageSize);
      && (r.Success? <==> (page - 1) * pageSize <= |all|)
      && (r.Failure? ==> r.error == IllegalArgument)
      && (r.Success? ==> r.value.start == (page - 1) * pageSize)
      && (r.Success? ==> r.value.end == Min(page * pageSize, |all|))
  {
    assert (page - 1) * pageSize == page * pageSize - pageSize;
    assert 0 <= (page - 1) * pageSize;
  }

  function Min(a: int, b: int): int {
    if a < b then a else b
  }

  /** The first page always exists and holds the first `pageSize` items. */
  lemma FirstPage<T>(all: seq<T>, pageSize: Int32)
    requires |all| <= MaxInt && 0 <= pageSize
    ensures Paginate(all, 1, pageSize).Success?
    ensures Paginate(all, 1, pageSize).value.items == all[..Min(pageSize, |all|)]
  {
    PaginateExact(all, 1, pageSize);
  }

  /** A page number below 1 makes a negative start and throws. */
  lemma PageBelowOne<T>(all: seq<T>, page: Int32, pageSize: Int32)
    requires |all| <= MaxInt
    requires page <= 0 && 0 < pageSize && MinInt <= (page - 1) * pageSize
    ensures Paginate(all, page, pageSize) == Failure(IndexOutOfBounds)
  {
    assert (page - 1) * pageSize <= -pageSize by {
      assert (page - 1) * pageSize == page * pageSize - pageSize;
      MulLe(page, 0, pageSize);
    }
  }

  /** The items of pages 1 to k, in page order. */
  function PagesUpTo<T>(all: seq<T>, pageSize: Int32, k: nat): seq<T>
    requires |all| <= MaxInt
    decreases k
  {
    if k == 0 then []
    else
      var r := if k <= MaxInt then Paginate(all, k, pageSize) else Failure(IndexOutOfBounds);
      PagesUpTo(all, pageSize, k - 1) + (if r.Success? then r.value.items else [])
  }

  /** Reading pages 1 to k gives the first `k * pageSize` items. */
  lemma {:induction false} PagesUpToPrefix<T>(all: seq<T>, pageSize: Int32, k: nat)
    requires |all| + pageSize <= MaxInt && 0 < pageSize
    requires k <= TotalPages(|all|, pageSize)
    ensures PagesUpTo(all, pageSize, k) == all[..Min(k * pageSize, |all|)]
    decreases k
  {
    if k > 0 {
      var total := TotalPages(|all|, pageSize);
      assert (k - 1) * pageSize < |all| by {
        MulLe(k - 1, total - 1, pageSize);
      }
      assert k * pageSize == (k - 1) * pageSize + pageSize;
      PaginateExact(all, k, pageSize);
      PagesUpToPrefix(all, pageSize, k - 1);
      var lo := (k - 1) * pageSize;
      assert all[..lo] + all[lo..Min(k * pageSize, |all|)] == all[..Min(k * pageSize, |all|)];
    }
  }

  /** The pages 1 to `totalPages` together hold every item exactly once,
      in order. */
  lemma PagesCover<T>(all: seq<T>, pageSize: Int32)
    requires |all| + pageSize <= MaxInt && 0 < pageSize
    ensures PagesUpTo(all, pageSize, TotalPages(|all|, pageSize)) == all
  {
    PagesUpToPrefix(all, pageSize, TotalPages(|all|, pageSize));
  }

  /** Item `i = q * pageSize + m`, with `m < pageSize`, sits on page
      q + 1 at offset m. */
  lemma ItemOnItsPage<T>(all: seq<T>, pageSize: Int32, i: nat, q: nat, m: nat)
    requires |all| + pageSize <= MaxInt && 0 < pageSize && i < |all|
    requires i == q * pageSize + m && m < pageSize
    ensures q + 1 <= TotalPages(|all|, pageSize)
    ensures Paginate(all, q + 1, pageSize).Success?
    ensures Paginate(all, q + 1, pageSize).value.items[m] == all[i]
  {
    var total := TotalPages(|all|, pageSize);
    assert (q + 1) * pageSize == q * pageSize + pageSize;
    assert q + 1 <= total by {
      if q + 1 > total {
        MulLe(total, q, pageSize);
      }
    }
    PaginateExact(all, q + 1, pageSize);
  }

  /** Item i sits on page i / pageSize + 1, at position i % pageSize. */
  lemma PageOfItem<T>(all: seq<T>, pageSize: Int32, i: nat)
    requires i < |all| && |all| + pageSize <= MaxInt && 0 < pageSize
    ensures i / pageSize + 1 <= MaxInt
    ensures Paginate(all, i / pageSize + 1, pageSize).Success?
    ensures i % pageSize < |Paginate(all, i / pageSize + 1, pageSize).value.items|
    ensures Paginate(all, i / pageSize + 1, pageSize).value.items[i % pageSize] == all[i]
  {
    var q, m := i / pageSize, i % pageSize;
    FloorDiv(i, pageSize);
    ItemOnItsPage(all, pageSize, i, q, m);
    PaginateExact(all, q + 1, pageSize);
  }

  /** A result of at most `pageSize` items fits on one page. */
  lemma AtMostOnePage(n: nat, pageSize: Int32)
    requires n <= pageSize && 0 < pageSize
    ensures TotalPages(n, pageSize) <= 1
  {
    var total := TotalPages(n, pageSize);
    if total >= 2 {
      MulLe(1, total - 1, pageSize);
    }
  }

  // ---------------------------------------------------------------------
  // Pages with overflow

  /** Past the overflow the start wraps: (429496731 - 1) * 10 is
      4294967300, which wraps to 4, so against ten items that far page
      succeeds and lists the last six, while there is only one page. */
  lemma FarPageWraps<T>(all: seq<T>)
    requires |all| == 10
    ensures var r := Paginate(all, 429496731, 10);
      r.Success? && r.value.items == all[4..] && r.value.totalPages == 1
  {
    assert Wrap32(429496730 * 10) == 4;
  }

  /** A page below 1 need not throw either: (-268435454 - 1) * 16 is
      -4294967280, which wraps to 16, so against 32 items that page lists
      the second half. */
  lemma NegativePageWraps<T>(all: seq<T>)
    requires |all| == 32
    ensures var r := Paginate(all, -268435454, 16);
      r.Success? && r.value.items == all[16..] && r.value.totalPages == 2
  {
    assert Wrap32(-268435455 * 16) == 16;
  }

  /** Against a result capped at `pageSize` items there is at most one
      page, and every later page is empty or throws. */
  lemma CappedResult<T>(all: seq<T>, page: Int32, pageSize: Int32)
    requires |all| <= pageSize && 0 < pageSize
    requires 2 <= page && page * pageSize <= MaxInt
    ensures TotalPages(|all|, pageSize) <= 1
    ensures Paginate(all, page, pageSize).Success? ==> Paginate(all, page, pageSize).value.items == []
  {
    AtMostOnePage(|all|, pageSize);
    PaginateExact(all, page, pageSize);
    assert (page - 1) * pageSize >= pageSize by {
      assert (page - 1) * pageSize == page * pageSize - pageSize;
      MulLe(2, page, pageSize);
    }
  }
}

=== FILE: product_comments.dfy ===
/** The two comment handlers, `GetProductComments.getProductComments` and
    `getComments.getProductComments`: read the product id and the page,
    query the product's comments, and return one page of them together
    with the number of comments and the histogram of all their ratings.

    They differ only in where the product id comes from and in which
    parameter is read first. The comment query is an outside service: the
    items it returns for a product id, or the exception it throws, are
    passed in. */
module ProductComments {
  import opened Wrappers
  import opened JavaExceptions
  import opened JavaInts
  import opened RequestParams
  import opened Pagination
  import opened RatingCounts
  import RT = ResponseTransformer

  const DefaultPageSize: Int32 := 4
  const ProductIdKey: string := "productId"

  /** The response body. */
  datatype CommentPage = CommentPage(
    comments: seq<map<string, string>>,
    totalPages: Int32,
    totalComments: nat,
    ratingCounts: map<Rating, nat>)

  datatype Outcome =
    | Listed(productId: Option<string>, body: CommentPage) // 200, with the id the query was given
    | Throws(cause: Thrown)                                  // rethrown as a RuntimeException

  /** What both handlers do with the comments the query returned: page
      them, transform the page, and count the ratings of all of them. */
  function CommentsPage(items: seq<RT.Item>, page: Int32, pageSize: Int32): (r: Result<CommentPage, Thrown>)
    requires |items| <= MaxInt
    ensures r.Success? <==> Paginate(items, page, pageSize).Success? && Ratings(items).Success?
    // the page is checked before the ratings are read
    ensures Paginate(items, page, pageSize).Failure? ==> r == Failure(Paginate(items, page, pageSize).error)
    ensures r.Failure? && Paginate(items, page, pageSize).Success? ==> r.error == NullPointer
    ensures r.Success? ==>
      var p := Paginate(items, page, pageSize).value;
      && r.value.comments == RT.TransformItems(items[p.start..p.end])
      && |r.value.comments| <= pageSize
      && r.value.totalPages == TotalPages(|items|, pageSize)
      && r.value.totalComments == |items|
      && r.value.ratingCounts == Histogram(Ratings(items).value)
  {
    match Paginate(items, page, pageSize)
    case Failure(cause) => Failure(cause)
    case Success(p) =>
      match Ratings(items)
      case Failure(cause) => Failure(cause)
      case Success(rs) => Success(CommentPage(RT.TransformItems(p.items), p.totalPages, |items|, Histogram(rs)))
  }

  /** `GetProductComments`: the product id is the last segment of the
      `proxy` path, read before the page parameters; a missing query
      string reads as empty. */
  function HandleGetProductComments(e: Event, query: string -> Result<seq<RT.Item>, Thrown>): (r: Outcome)
    requires forall id :: query(id).Success? ==> |query(id).value| <= MaxInt
    ensures ProxyProductId(e).Failure? ==> r == Throws(ProxyProductId(e).error)
    ensures ProxyProductId(e).Success? && PageParams(QueryOrEmpty(e), DefaultPageSize).Failure? ==> r == Throws(NumberFormat)
    // a failing query is rethrown, once the id and the numbers were read
    ensures ProxyProductId(e).Success? && PageParams(QueryOrEmpty(e), DefaultPageSize).Success? ==>
      query(ProxyProductId(e).value).Failure? ==> r == Throws(query(ProxyProductId(e).value).error)
    ensures r.Listed? ==>
      && ProxyProductId(e).Success? && r.productId == Some(ProxyProductId(e).value)
      && PageParams(QueryOrEmpty(e), DefaultPageSize).Success?
      && query(ProxyProductId(e).value).Success?
      && var (page, pageSize) := PageParams(QueryOrEmpty(e), DefaultPageSize).value;
         CommentsPage(query(ProxyProductId(e).value).value, page, pageSize) == Success(r.body)
  {
    match ProxyProductId(e)
    case Failure(cause) => Throws(cause)
    case Success(productId) =>
      match PageParams(QueryOrEmpty(e), DefaultPageSize)
      case Failure(cause) => Throws(cause)
      case Success((page, pageSize)) =>
        match query(productId)
        case Failure(cause) => Throws(cause)
        case Success(items) =>
          match CommentsPage(items, page, pageSize)
          case Failure(cause) => Throws(cause)
          case Success(body) => Listed(Some(productId), body)
  }

  /** `getComments`: the page parameters are read first, then the product
      id is `pathParameters.get("productId")` as it is, null when absent;
      null path parameters throw. The query decides what a null id
      yields. */
  function HandleGetComments(e: Event, query: Option<string> -> Result<seq<RT.Item>, Thrown>): (r: Outcome)
    requires forall id :: query(id).Success? ==> |query(id).value| <= MaxInt
    ensures PageParams(QueryOrEmpty(e), DefaultPageSize).Failure? ==> r == Throws(NumberFormat)
    ensures PageParams(QueryOrEmpty(e), DefaultPageSize).Success? && e.pathParameters.None? ==> r == Throws(NullPointer)
    ensures r.Listed? ==>
      && e.pathParameters.Some? && r.productId == Get(e.pathParameters.value, ProductIdKey)
      && PageParams(QueryOrEmpty(e), DefaultPageSize).Success?
      && query(r.productId).Success?
      && var (page, pageSize) := PageParams(QueryOrEmpty(e), DefaultPageSize).value;
         CommentsPage(query(r.productId).value, page, pageSize) == Success(r.body)
  {
    match PageParams(QueryOrEmpty(e), DefaultPageSize)
    case Failure(cause) => Throws(cause)
    case Success((page, pageSize)) =>
      if e.pathParameters.None? then Throws(NullPointer)
      else
        var productId := Get(e.pathParameters.value, ProductIdKey);
        match query(productId)
        case Failure(cause) => Throws(cause)
        case Success(items) =>
          match CommentsPage(items, page, pageSize)
          case Failure(cause) => Throws(cause)
          case Success(body) => Listed(productId, body)
  }

  // ---------------------------------------------------------------------
  // Properties

  /** The histogram counts every comment, not only those on the page: each
      rating maps to the number of comments with that rating, and the
      counts add up to `totalComments`. */
  lemma CountsCoverAllComments(items: seq<RT.Item>, page: Int32, pageSize: Int32)
    requires |items| <= MaxInt
    requires CommentsPage(items, page, pageSize).Success?
    ensures var body := CommentsPage(items, page, pageSize).value;
      var rs := Ratings(items).value;
      && (forall r :: r in body.ratingCounts <==> r in rs)
      && (forall r :: r in body.ratingCounts ==> body.ratingCounts[r] == Occurrences(rs, r))
      && SumOver(FirstAppearances(rs), body.ratingCounts) == body.totalComments
  {
    HistogramCounts(Ratings(items).value);
    CountsSumToTotal(Ratings(items).value);
  }

  /** Whatever page is asked for, the comment count and the histogram are
      those of the whole product. */
  lemma SameCountsOnEveryPage(e1: Event, e2: Event, query: string -> Result<seq<RT.Item>, Thrown>)
    requires forall id :: query(id).Success? ==> |query(id).value| <= MaxInt
    requires ProxyProductId(e1) == ProxyProductId(e2)
    ensures var r1 := HandleGetProductComments(e1, query);
      var r2 := HandleGetProductComments(e2, query);
      r1.Listed? && r2.Listed? ==>
        r1.body.totalComments == r2.body.totalComments && r1.body.ratingCounts == r2.body.ratingCounts
  {
  }

  /** Without query parameters the first four comments are listed. */
  lemma DefaultCommentsPage(e: Event, query: string -> Result<seq<RT.Item>, Thrown>)
    requires forall id :: query(id).Success? ==> |query(id).value| <= MaxInt
    requires ProxyProductId(e).Success? && QueryOrEmpty(e) == map[]
    requires query(ProxyProductId(e).value).Success? && Ratings(query(ProxyProductId(e).value).value).Success?
    ensures var r := HandleGetProductComments(e, query);
      var items := query(ProxyProductId(e).value).value;
      r.Listed? && r.body.comments == RT.TransformItems(items[..Min(DefaultPageSize, |items|)])
  {
    FirstPage(query(ProxyProductId(e).value).value, DefaultPageSize);
  }

  /** The two handlers read their parameters in opposite orders: with null
      path parameters and a `page` that is not a number, one throws
      NullPointerException and the other NumberFormatException. */
  lemma ReadOrder(e: Event, query: string -> Result<seq<RT.Item>, Thrown>, lookup: Option<string> -> Result<seq<RT.Item>, Thrown>)
    requires forall id :: query(id).Success? ==> |query(id).value| <= MaxInt
    requires forall id :: lookup(id).Success? ==> |lookup(id).value| <= MaxInt
    requires e.pathParameters.None? && e.queryStringParameters == Some(map[PageKey := "one"])
    ensures HandleGetProductComments(e, query) == Throws(NullPointer)
    ensures HandleGetComments(e, lookup) == Throws(NumberFormat)
  {
    assert !IsDigit('o');
  }
}

=== FILE: rating_counts.dfy ===
/** The `ratingCounts` histogram the comment handlers return: for every
    comment the query found (not only those on the page), the number view
    of its `Rating` attribute is counted under that value. A `HashMap`
    accepts a null key, so a rating that is not a number is counted under
    null; a comment without a `Rating` throws. */
module RatingCounts {
  import opened Wrappers
  import opened JavaExceptions
  import RT = ResponseTransformer

  const RatingKey: string := "Rating"

  /** A rating as the histogram sees it: `item.get("Rating").n()`. */
  type Rating = Option<string>

  /** The ratings of the comments, in order; a comment without a `Rating`
      attribute makes `item.get("Rating").n()` throw. */
  function Ratings(items: seq<RT.Item>): (r: Result<seq<Rating>, Thrown>)
    ensures r.Success? <==> forall i :: 0 <= i < |items| ==> RatingKey in items[i]
    ensures r.Failure? ==> r.error == NullPointer
    ensures r.Success? ==> |r.value| == |items| && forall i :: 0 <= i < |items| ==> r.value[i] == items[i][RatingKey].n
  {
    if forall i :: 0 <= i < |items| ==> RatingKey in items[i] then
      Success(seq(|items|, i requires 0 <= i < |items| => items[i][RatingKey].n))
    else Failure(NullPointer)
  }

  /** How many of the ratings equal r. */
  function Occurrences(rs: seq<Rating>, r: Rating): (n: nat)
    ensures n <= |rs|
    decreases |rs|
  {
    if |rs| == 0 then 0
    else Occurrences(rs[..|rs| - 1], r) + (if rs[|rs| - 1] == r then 1 else 0)
  }

  /** `ratingCounts.put(r, ratingCounts.getOrDefault(r, 0) + 1)`. */
  function Bump(counts: map<Rating, nat>, r: Rating): map<Rating, nat> {
    counts[r := (if r in counts then counts[r] else 0) + 1]
  }

  /** The map the loop leaves after counting the ratings in order. */
  function Histogram(rs: seq<Rating>): map<Rating, nat>
    decreases |rs|
  {
    if |rs| == 0 then map[] else Bump(Histogram(rs[..|rs| - 1]), rs[|rs| - 1])
  }

  /** One more rating bumps its own count. */
  lemma HistogramStep(rs: seq<Rating>, r: Rating)
    ensures Histogram(rs + [r]) == Bump(Histogram(rs), r)
    ensures Occurrences(rs + [r], r) == Occurrences(rs, r) + 1
    ensures forall s :: s != r ==> Occurrences(rs + [r], s) == Occurrences(rs, s)
  {
    assert (rs + [r])[..|rs|] == rs;
  }

  /** The histogram holds exactly the ratings that occur, each with the
      number of its occurrences. */
  lemma {:induction false} HistogramCounts(rs: seq<Rating>)
    ensures forall r :: r in Histogram(rs) <==> r in rs
    ensures forall r :: r in Histogram(rs) ==> Histogram(rs)[r] == Occurrences(rs, r)
    decreases |rs|
  {
    if |rs| > 0 {
      var n := |rs| - 1;
      HistogramCounts(rs[..n]);
      HistogramStep(rs[..n], rs[n]);
      assert rs == rs[..n] + [rs[n]];
      forall r ensures r in Histogram(rs) <==> r in rs {
        assert r in rs <==> r in rs[..n] || r == rs[n];
      }
      forall r | r in Histogram(rs) ensures Histogram(rs)[r] == Occurrences(rs, r) {
        if r !in rs[..n] {
          NoOccurrences(rs[..n], r);
        }
      }
    }
  }

  /** A rating that never occurs has no occurrences. */
  lemma {:induction false} NoOccurrences(rs: seq<Rating>, r: Rating)
    requires r !in rs
    ensures Occurrences(rs, r) == 0
    decreases |rs|
  {
    if |rs| > 0 {
      assert rs[..|rs| - 1] <= rs;
      NoOccurrences(rs[..|rs| - 1], r);
    }
  }

  // ---------------------------------------------------------------------
  // The counts add up to the number of comments

  /** The distinct ratings in order of first appearance: one enumeration
      of the histogram's keys. */
  function FirstAppearances(rs: seq<Rating>): (keys: seq<Rating>)
    ensures forall r :: r in keys <==> r in rs
    decreases |rs|
  {
    if |rs| == 0 then []
    else
      var n := |rs| - 1;
      var keys := FirstAppearances(rs[..n]);
      assert rs == rs[..n] + [rs[n]];
      if rs[n] in keys then keys else keys + [rs[n]]
  }

  /** No rating is listed twice. */
  predicate Distinct(keys: seq<Rating>) {
    forall i, j :: 0 <= i < j < |keys| ==> keys[i] != keys[j]
  }

  /** The counts of the listed ratings added up. */
  function SumOver(keys: seq<Rating>, counts: map<Rating, nat>): nat
    decreases |keys|
  {
    if |keys| == 0 then 0
    else SumOver(keys[..|keys| - 1], counts) + (if keys[|keys| - 1] in counts then counts[keys[|keys| - 1]] else 0)
  }

  /** Bumping a rating that is listed once adds one to the sum. */
  lemma {:induction false} SumBump(keys: seq<Rating>, counts: map<Rating, nat>, r: Rating)
    requires Distinct(keys) && r in keys
    ensures SumOver(keys, Bump(counts, r)) == SumOver(keys, counts) + 1
    decreases |keys|
  {
    var n := |keys| - 1;
    if keys[n] == r {
      assert r !in keys[..n];
      SumUntouched(keys[..n], counts, r);
    } else {
      assert r in keys[..n];
      SumBump(keys[..n], counts, r);
    }
  }

  /** Bumping a rating that is not listed leaves the sum. */
  lemma {:induction false} SumUntouched(keys: seq<Rating>, counts: map<Rating, nat>, r: Rating)
    requires r !in keys
    ensures SumOver(keys, Bump(counts, r)) == SumOver(keys, counts)
    decreases |keys|
  {
    if |keys| > 0 {
      assert keys[..|keys| - 1] <= keys;
      SumUntouched(keys[..|keys| - 1], counts, r);
    }
  }

  /** A rating the counts do not hold adds nothing to the sum. */
  lemma {:induction false} SumAbsent(keys: seq<Rating>, counts: map<Rating, nat>, r: Rating)
    requires r !in counts
    ensures SumOver(keys + [r], counts) == SumOver(keys, counts)
  {
    assert (keys + [r])[..|keys|] == keys;
  }

  /** The histogram's keys, listed once each, and their counts summed make
      the number of ratings. */
  lemma CountsSumToTotal(rs: seq<Rating>)
    ensures Distinct(FirstAppearances(rs))
    ensures forall r :: r in FirstAppearances(rs) <==> r in Histogram(rs)
    ensures SumOver(FirstAppearances(rs), Histogram(rs)) == |rs|
  {
    HistogramCounts(rs);
    SumOfCounts(rs);
  }

  /** A rating met for the first time is listed last with a count of one. */
  lemma FirstSighting(keys: seq<Rating>, counts: map<Rating, nat>, r: Rating)
    requires Distinct(keys) && r !in keys && r !in counts
    ensures Distinct(keys + [r])
    ensures SumOver(keys + [r], Bump(counts, r)) == SumOver(keys, counts) + 1
  {
    assert (keys + [r])[..|keys|] == keys;
    SumUntouched(keys, counts, r);
  }

  lemma {:induction false} SumOfCounts(rs: seq<Rating>)
    ensures Distinct(FirstAppearances(rs))
    ensures SumOver(FirstAppearances(rs), Histogram(rs)) == |rs|
    decreases |rs|
  {
    if |rs| > 0 {
      var n := |rs| - 1;
      var r := rs[n];
      var keys := FirstAppearances(rs[..n]);
      var counts := Histogram(rs[..n]);
      assert Histogram(rs) == Bump(counts, r);
      SumOfCounts(rs[..n]);
      if r in keys {
        assert FirstAppearances(rs) == keys;
        SumBump(keys, counts, r);
      } else {
        assert FirstAppearances(rs) == keys + [r];
        HistogramCounts(rs[..n]);
        FirstSighting(keys, counts, r);
      }
    }
  }

  // ---------------------------------------------------------------------
  // The loop

  /** The loop over all comments, counting each rating as it goes. */
  method CountRatings(items: seq<RT.Item>) returns (r: Result<map<Rating, nat>, Thrown>)
    ensures r.Failure? <==> Ratings(items).Failure?
    ensures r.Failure? ==> r.error == NullPointer
    ensures r.Success? ==> r.value == Histogram(Ratings(items).value)
  {
    var counts: map<Rating, nat> := map[];
    ghost var rs: seq<Rating> := [];
    var i := 0;
    while i < |items|
      invariant 0 <= i <= |items| && |rs| == i
      invariant forall j :: 0 <= j < i ==> RatingKey in items[j] && rs[j] == items[j][RatingKey].n
      invariant counts == Histogram(rs)
    {
      if RatingKey !in items[i] {
        return Failure(NullPointer);
      }
      var rating := items[i][RatingKey].n;
      HistogramStep(rs, rating);
      counts := counts[rating := (if rating in counts then counts[rating] else 0) + 1];
      rs := rs + [rating];
      i := i + 1;
    }
    assert rs == Ratings(items).value;
    r := Success(counts);
  }
}

=== FILE: request_params.dfy ===
/** What the cart, catalog and order handlers read from an API Gateway event
    before touching any table: the `Authorization` header (with or without
    its `Bearer ` prefix), the product id at the end of the `proxy` path
    parameter, and the integer query parameters `page` and `pageSize` with
    their defaults. Token verification is an outside service: its verdict is
    passed in, and each handler decides which of its failures it answers and
    which it lets escape. */
module RequestParams {
  import opened Wrappers
  import opened JavaExceptions
  import opened JavaStrings
  import opened JavaInts

  type Params = map<string, string>

  /** The event maps the handlers read; each may be null. */
  datatype Event = Event(
    headers: Option<Params>,
    pathParameters: Option<Params>,
    queryStringParameters: Option<Params>)

  /** `Map.get`: the value, or null for a missing key. */
  function Get(m: Params, key: string): (r: Option<string>)
    ensures r.Some? <==> key in m
    ensures r.Some? ==> r.value == m[key]
  {
    if key in m then Some(m[key]) else None
  }

  // ---------------------------------------------------------------------
  // Authorization

  const AuthorizationKey: string := "Authorization"
  const BearerPrefix: string := "Bearer "

  /** `headers.get("Authorization")`; null headers throw. */
  function AuthorizationHeader(e: Event): (r: Result<Option<string>, Thrown>)
    ensures r.Failure? <==> e.headers.None?
    ensures r.Failure? ==> r.error == NullPointer
    ensures r.Success? ==> (r.value.Some? <==> AuthorizationKey in e.headers.value)
  {
    if e.headers.None? then Failure(NullPointer) else Success(Get(e.headers.value, AuthorizationKey))
  }

  /** The token the cart and order handlers verify: the header minus its
      `Bearer ` prefix, or `""` when the header is null or lacks the
      prefix. */
  function BearerToken(header: Option<string>): (token: string)
    ensures header.Some? && StartsWith(header.value, BearerPrefix) ==> header.value == BearerPrefix + token
    ensures !(header.Some? && StartsWith(header.value, BearerPrefix)) ==> token == ""
  {
    if header.Some? && StartsWith(header.value, BearerPrefix) then header.value[|BearerPrefix|..] else ""
  }

  /** A header built from a token yields that token back. */
  lemma BearerTokenRoundTrip(token: string)
    ensures BearerToken(Some(BearerPrefix + token)) == token
  {
    assert (BearerPrefix + token)[..|BearerPrefix|] == BearerPrefix;
  }

  /** Why verification of a token failed, by the exception class it throws. */
  datatype TokenFailure =
    | JwtInvalid         // JWTVerificationException: undecodable, bad signature, wrong issuer
    | IssuerUrlMalformed // MalformedURLException from the issuer's key-set URL
    | KeyUnavailable     // JwkException: the signing key could not be fetched
    | Unexpected         // any unchecked exception

  /** `TokenVerifier.verifyToken`: the subject, or the failure and its
      message. */
  datatype Verification = Verified(userId: string) | Refused(failure: TokenFailure, message: string)

  /** The failures AddToCart and DeleteFromCart answer with 403: every
      checked exception `verifyToken` declares. */
  predicate CartWriterCatches(f: TokenFailure) {
    f != Unexpected
  }

  /** The failures GetCart answers with 401: `JWTVerificationException` and
      `MalformedURLException`, but not `JwkException`. */
  predicate GetCartCatches(f: TokenFailure) {
    f == JwtInvalid || f == IssuerUrlMalformed
  }

  // ---------------------------------------------------------------------
  // Path parameters

  const ProxyKey: string := "proxy"

  /** `pathParameters.get("proxy").split("/")` and its last element: null
      maps or a missing proxy throw NullPointerException, and a proxy made
      only of slashes splits into nothing and throws
      ArrayIndexOutOfBoundsException. */
  function ProxyProductId(e: Event): (r: Result<string, Thrown>)
    ensures r.Failure? && r.error == NullPointer <==> e.pathParameters.None? || ProxyKey !in e.pathParameters.value
    ensures r.Failure? ==> r.error == NullPointer || r.error == IndexOutOfBounds
    ensures r.Success? ==> '/' !in r.value
  {
    if e.pathParameters.None? || ProxyKey !in e.pathParameters.value then Failure(NullPointer)
    else
      var last := LastSegment(e.pathParameters.value[ProxyKey], '/');
      if last.None? then Failure(IndexOutOfBounds) else Success(last.value)
  }

  /** A proxy path ending in `/id` yields the id. */
  lemma ProxyProductIdOf(e: Event, prefix: string, id: string)
    requires e.pathParameters.Some? && ProxyKey in e.pathParameters.value
    requires e.pathParameters.value[ProxyKey] == prefix + "/" + id
    requires id != "" && '/' !in id
    ensures ProxyProductId(e) == Success(id)
  {
    LastSegmentOf(prefix, id, '/');
  }

  /** A proxy path without any slash is the id itself. */
  lemma ProxyProductIdWhole(e: Event, id: string)
    requires e.pathParameters.Some? && ProxyKey in e.pathParameters.value
    requires e.pathParameters.value[ProxyKey] == id && '/' !in id
    ensures ProxyProductId(e) == Success(id)
  {
    LastSegmentWhole(id, '/');
  }

  /** A proxy made of slashes only throws. */
  lemma ProxyOfSlashes(e: Event, n: nat)
    requires e.pathParameters.Some? && ProxyKey in e.pathParameters.value
    requires n > 0 && e.pathParameters.value[ProxyKey] == seq(n, _ => '/')
    ensures ProxyProductId(e) == Failure(IndexOutOfBounds)
  {
    assert e.pathParameters.value[ProxyKey][0] == '/';
  }

  // ---------------------------------------------------------------------
  // Query parameters

  const PageKey: string := "page"
  const PageSizeKey: string := "pageSize"

  /** The query map of the catalog and comment handlers, which read a null
      or missing map as empty. */
  function QueryOrEmpty(e: Event): Params {
    e.queryStringParameters.GetOr(map[])
  }

  /** The query map of GetCart and GetOrders, which call `getOrDefault` on
      it directly and so throw when it is null. */
  function QueryOrThrow(e: Event): (r: Result<Params, Thrown>)
    ensures r.Failure? <==> e.queryStringParameters.None?
    ensures r.Failure? ==> r.error == NullPointer
    ensures r.Success? ==> r.value == e.queryStringParameters.value
  {
    if e.queryStringParameters.None? then Failure(NullPointer) else Success(e.queryStringParameters.value)
  }

  /** `Integer.parseInt(params.getOrDefault(key, default))`. */
  function IntParam(params: Params, key: string, default: string): (r: Result<Int32, Thrown>)
    ensures r.Failure? ==> r.error == NumberFormat
    ensures r.Success? <==> ParseInt(Get(params, key).GetOr(default)).Some?
  {
    var text := if key in params then params[key] else default;
    var n := ParseInt(text);
    if n.None? then Failure(NumberFormat) else Success(n.value)
  }

  /** `page` and `pageSize`, defaulting to 1 and to the handler's own page
      size; a value that is not an `int` throws NumberFormatException. */
  function PageParams(params: Params, defaultPageSize: Int32): (r: Result<(Int32, Int32), Thrown>)
    ensures r.Failure? ==> r.error == NumberFormat
    ensures PageKey !in params && PageSizeKey !in params ==> r == Success((1, defaultPageSize))
  {
    ParseToDecimal(1);
    ParseToDecimal(defaultPageSize);
    var page :- IntParam(params, PageKey, "1");
    var pageSize :- IntParam(params, PageSizeKey, ToDecimal(defaultPageSize));
    Success((page, pageSize))
  }

  /** A parameter written in decimal reads back as that number. */
  lemma IntParamRoundTrip(params: Params, key: string, default: string, n: Int32)
    ensures IntParam(params[key := ToDecimal(n)], key, default) == Success(n)
  {
    ParseToDecimal(n);
  }

  /** A missing parameter reads as its default. */
  lemma IntParamDefault(params: Params, key: string, n: Int32)
    requires key !in params
    ensures IntParam(params, key, ToDecimal(n)) == Success(n)
  {
    ParseToDecimal(n);
  }
}

=== FILE: response_generator.dfy ===
/** `ResponseGenerator.generateResponse`: the API Gateway proxy response map
    every handler returns, and Gson's encoding of a bare string, which some
    handlers put in the body. */
module ResponseGenerator {
  import opened Wrappers

  /** A value of the response map (`Map<String, Object>` in Java). */
  datatype Field =
    | StatusCode(code: int)
    | Body(text: string)
    | Headers(entries: map<string, string>)

  type Response = map<string, Field>

  const StatusKey: string := "statusCode"
  const BodyKey: string := "body"
  const HeadersKey: string := "headers"

  /** The three CORS headers attached to every response. */
  const CorsHeaders: map<string, string> := map[
    "Access-Control-Allow-Origin" := "*",
    "Access-Control-Allow-Methods" := "GET, POST, PUT, DELETE, OPTIONS",
    "Access-Control-Allow-Headers" := "Content-Type,X-Amz-Date,Authorization,X-Api-Key,X-Amz-Security-Token,X-Amz-User-Agent"
  ]

  function GenerateResponse(statusCode: int, body: string): (r: Response)
    ensures r.Keys == {StatusKey, BodyKey, HeadersKey}
    ensures StatusOf(r) == Some(statusCode)
    ensures BodyOf(r) == Some(body)
    ensures r[HeadersKey] == Headers(CorsHeaders)
  {
    map[StatusKey := StatusCode(statusCode), BodyKey := Body(body), HeadersKey := Headers(CorsHeaders)]
  }

  /** The status code a response map carries, if it carries one. */
  function StatusOf(r: Response): Option<int> {
    if StatusKey in r && r[StatusKey].StatusCode? then Some(r[StatusKey].code) else None
  }

  /** The body a response map carries, if it carries one. */
  function BodyOf(r: Response): Option<string> {
    if BodyKey in r && r[BodyKey].Body? then Some(r[BodyKey].text) else None
  }

  /** Two generated responses are equal exactly when their status codes and
      bodies are. */
  lemma GenerateResponseInjective(s1: int, b1: string, s2: int, b2: string)
    ensures GenerateResponse(s1, b1) == GenerateResponse(s2, b2) <==> s1 == s2 && b1 == b2
  {
    if GenerateResponse(s1, b1) == GenerateResponse(s2, b2) {
      assert StatusOf(GenerateResponse(s1, b1)) == StatusOf(GenerateResponse(s2, b2));
      assert BodyOf(GenerateResponse(s1, b1)) == BodyOf(GenerateResponse(s2, b2));
    }
  }

  lemma CorsHeadersAreThree()
    ensures |CorsHeaders| == 3
  {
    assert CorsHeaders.Keys == {"Access-Control-Allow-Origin", "Access-Control-Allow-Methods", "Access-Control-Allow-Headers"};
  }

  // ---------------------------------------------------------------------
  // Gson's `toJson(String)`

  function HexDigit(n: int): char
    requires 0 <= n < 16
  {
    if n < 10 then ('0' as int + n) as char else ('a' as int + n - 10) as char
  }

  /** `\uXXXX` for a character below U+10000. */
  function UnicodeEscape(c: char): string
    requires (c as int) < 0x1_0000
  {
    var n := c as int;
    ['\\', 'u', HexDigit(n / 4096), HexDigit(n / 256 % 16), HexDigit(n / 16 % 16), HexDigit(n % 16)]
  }

  /** The characters Gson's default (HTML-safe) writer escapes. */
  predicate Escaped(c: char) {
    c as int < 0x20 || c == '"' || c == '\\' || c == '<' || c == '>' || c == '&' || c == '='
    || c == '\'' || c == '\U{2028}' || c == '\U{2029}'
  }

  function EscapeChar(c: char): string {
    if c == '"' then "\\\""
    else if c == '\\' then "\\\\"
    else if c == '\t' then "\\t"
    else if c == '\U{8}' then "\\b"
    else if c == '\n' then "\\n"
    else if c == '\r' then "\\r"
    else if c == '\U{C}' then "\\f"
    else if Escaped(c) then UnicodeEscape(c)
    else [c]
  }

  function EscapeAll(s: string): string
    decreases |s|
  {
    if |s| == 0 then "" else EscapeChar(s[0]) + EscapeAll(s[1..])
  }

  /** `new Gson().toJson(s)` for a Java string `s`. */
  function JsonString(s: string): (r: string)
    ensures |r| >= 2 && r[0] == '"' && r[|r| - 1] == '"'
  {
    "\"" + EscapeAll(s) + "\""
  }

  /** A string with no character Gson escapes is encoded as itself in
      quotes. */
  lemma {:induction false} EscapeAllPlain(s: string)
    requires forall i :: 0 <= i < |s| ==> !Escaped(s[i])
    ensures EscapeAll(s) == s
    decreases |s|
  {
    if |s| > 0 {
      EscapeAllPlain(s[1..]);
      assert [s[0]] + s[1..] == s;
    }
  }

  lemma JsonStringPlain(s: string)
    requires forall i :: 0 <= i < |s| ==> !Escaped(s[i])
    ensures JsonString(s) == "\"" + s + "\""
  {
    EscapeAllPlain(s);
  }
}

=== FILE: response_transformer.dfy ===
/** `ResponseTransformer`: turning DynamoDB items into string maps, and the
    cart's `OrderList` format `"pid:qty;pid:qty"` into a product list. */
module ResponseTransformer {
  import opened Wrappers
  import opened JavaExceptions
  import opened JavaStrings

  /** A DynamoDB attribute, seen through its string view `s()` and number
      view `n()`; attributes of any other type have neither. */
  datatype AttributeValue = AttributeValue(s: Option<string>, n: Option<string>)

  /** A stored item: attribute name to attribute. */
  type Item = map<string, AttributeValue>

  function S(text: string): AttributeValue {
    AttributeValue(Some(text), None)
  }

  function N(text: string): AttributeValue {
    AttributeValue(None, Some(text))
  }

  /** An attribute `transformItem` keeps: one with a string or number view. */
  predicate HasText(v: AttributeValue) {
    v.s.Some? || v.n.Some?
  }

  /** The text `transformItem` keeps: the string view, else the number view. */
  function Text(v: AttributeValue): string
    requires HasText(v)
  {
    if v.s.Some? then v.s.value else v.n.value
  }

  /** `transformItem`: every attribute with a string or number view, mapped
      to that text; attributes of other types are dropped. */
  function TransformItem(item: Item): (r: map<string, string>)
    ensures r.Keys <= item.Keys
    ensures forall k :: k in item ==> (k in r <==> HasText(item[k]))
    ensures forall k :: k in r ==> r[k] == Text(item[k])
  {
    map k | k in item && HasText(item[k]) :: Text(item[k])
  }

  /** `transformItems`: `transformItem` applied to each item, in order. */
  function TransformItems(items: seq<Item>): (r: seq<map<string, string>>)
    ensures |r| == |items|
    ensures forall i :: 0 <= i < |items| ==> r[i] == TransformItem(items[i])
  {
    seq(|items|, i requires 0 <= i < |items| => TransformItem(items[i]))
  }

  /** An item of string attributes, as DynamoDB returns one that was written
      from a string map. */
  function StringItem(m: map<string, string>): Item {
    map k | k in m :: S(m[k])
  }

  /** Storing a string map and transforming it back gives the map. */
  lemma TransformStringItem(m: map<string, string>)
    ensures TransformItem(StringItem(m)) == m
  {
    var r := TransformItem(StringItem(m));
    assert r.Keys == m.Keys;
  }

  /** Transforming commutes with taking a page of the items. */
  lemma TransformItemsSlice(items: seq<Item>, lo: nat, hi: nat)
    requires lo <= hi <= |items|
    ensures TransformItems(items[lo..hi]) == TransformItems(items)[lo..hi]
  {
  }

  // ---------------------------------------------------------------------
  // The cart's OrderList format

  datatype Product = Product(productId: string, quantity: string)

  /** A value of a transformed cart item. */
  datatype CartValue =
    | Plain(text: Option<string>)     // a string that may be null
    | Products(products: seq<Product>) // the parsed OrderList

  const OrderListKey: string := "OrderList"
  const TotalPriceKey: string := "TotalPrice"
  const ProductsKey: string := "products"

  /** `order.split(":")` then `parts[0]` and `parts[1]`. */
  function ParseOrder(order: string): (r: Result<Product, Thrown>)
    ensures r.Success? <==> |Split(order, ':')| >= 2
    ensures r.Success? ==> r.value == Product(Split(order, ':')[0], Split(order, ':')[1])
  {
    var parts := Split(order, ':');
    if |parts| < 2 then Failure(IndexOutOfBounds) else Success(Product(parts[0], parts[1]))
  }

  /** `ParseOrder` over each order in turn; the first failure is thrown. */
  function ParseOrders(orders: seq<string>): (r: Result<seq<Product>, Thrown>)
    ensures r.Success? <==> forall i :: 0 <= i < |orders| ==> ParseOrder(orders[i]).Success?
    ensures r.Success? ==> |r.value| == |orders|
    ensures r.Success? ==> forall i :: 0 <= i < |orders| ==> r.value[i] == ParseOrder(orders[i]).value
    decreases |orders|
  {
    if |orders| == 0 then Success([])
    else
      var p :- ParseOrder(orders[0]);
      var rest :- ParseOrders(orders[1..]);
      Success([p] + rest)
  }

  /** The products an `OrderList` string holds: `s.split(";")`, then each
      order parsed. */
  function ParseOrderList(s: string): Result<seq<Product>, Thrown> {
    ParseOrders(Split(s, ';'))
  }

  /** An `OrderList` of n characters holds at most n + 1 products. */
  lemma ParsedLength(s: string)
    ensures ParseOrderList(s).Success? ==> |ParseOrderList(s).value| <= |s| + 1
  {
  }

  /** The `pid:qty` form of one cart entry. */
  function EntryOf(p: Product): string {
    p.productId + ":" + p.quantity
  }

  /** A product that survives the `OrderList` format: both fields non-empty
      and free of the separators. */
  predicate Storable(p: Product) {
    && p.productId != "" && p.quantity != ""
    && ':' !in p.productId && ';' !in p.productId
    && ':' !in p.quantity && ';' !in p.quantity
  }

  /** The `pid:qty` entries of a product list, in order. */
  function Entries(ps: seq<Product>): (r: seq<string>)
    ensures |r| == |ps| && forall i :: 0 <= i < |ps| ==> r[i] == EntryOf(ps[i])
  {
    seq(|ps|, i requires 0 <= i < |ps| => EntryOf(ps[i]))
  }

  /** The `OrderList` string for a product list: entries joined by `;`. */
  function RenderOrderList(ps: seq<Product>): string {
    JoinWith(Entries(ps), ";")
  }

  /** `transformCartItems` for one item: `OrderList` becomes `products`,
      `TotalPrice` keeps its number view, any other attribute its string
      view. An item holding both `OrderList` and an attribute literally
      named `products` puts both under one key; Java's winner depends on
      the item map's iteration order, and here the parsed list wins. */
  function TransformCartItem(item: Item): (r: Result<map<string, CartValue>, Thrown>)
    ensures r.Success? ==>
      && (forall k :: k in item && k != OrderListKey ==> k in r.value)
      && (OrderListKey in item <==> ProductsKey in r.value && r.value[ProductsKey].Products?)
      && (TotalPriceKey in item ==> r.value[TotalPriceKey] == Plain(item[TotalPriceKey].n))
    // every other attribute maps to its string view
    ensures r.Success? ==> forall k :: k in item && k != OrderListKey && k != TotalPriceKey && k != ProductsKey ==>
      r.value[k] == Plain(item[k].s)
    // and nothing else appears
    ensures r.Success? ==> forall k :: k in r.value ==> (k in item && k != OrderListKey) || (k == ProductsKey && OrderListKey in item)
    // the OrderList is read with `.s()` and parsed; either may throw
    ensures OrderListKey in item ==>
      (r.Success? <==> item[OrderListKey].s.Some? && ParseOrderList(item[OrderListKey].s.value).Success?)
    ensures r.Success? && OrderListKey in item ==>
      r.value[ProductsKey] == Products(ParseOrderList(item[OrderListKey].s.value).value)
  {
    var others := map k | k in item && k != OrderListKey ::
      if k == TotalPriceKey then Plain(item[k].n) else Plain(item[k].s);
    if OrderListKey !in item then Success(others)
    else if item[OrderListKey].s.None? then Failure(NullPointer)
    else
      var ps :- ParseOrderList(item[OrderListKey].s.value);
      Success(others[ProductsKey := Products(ps)])
  }

  /** `transformCartItems`: each item transformed in order; the first
      failure is thrown. */
  function TransformCartItems(items: seq<Item>): (r: Result<seq<map<string, CartValue>>, Thrown>)
    ensures r.Success? ==> |r.value| == |items|
    ensures r.Success? <==> forall i :: 0 <= i < |items| ==> TransformCartItem(items[i]).Success?
    ensures r.Success? ==> forall i :: 0 <= i < |items| ==> r.value[i] == TransformCartItem(items[i]).value
    decreases |items|
  {
    if |items| == 0 then Success([])
    else
      var t :- TransformCartItem(items[0]);
      var rest :- TransformCartItems(items[1..]);
      Success([t] + rest)
  }

  // ---------------------------------------------------------------------
  // Properties of the OrderList format

  /** The initial cart `";"` holds no products. */
  lemma EmptyOrderList()
    ensures ParseOrderList(";") == Success([])
  {
    assert ';' in ";";
    assert RawSplit(";", ';') == ["", ""];
  }

  /** A non-empty order without a `:` makes the whole list fail. */
  lemma OrderWithoutColon(s: string, i: nat)
    requires i < |Split(s, ';')|
    requires Split(s, ';')[i] != "" && ':' !in Split(s, ';')[i]
    ensures ParseOrderList(s).Failure?
  {
    var order := Split(s, ';')[i];
    assert Split(order, ':') == [order];
  }

  lemma {:induction false} EntrySplit(p: Product)
    requires Storable(p)
    ensures Split(EntryOf(p), ':') == [p.productId, p.quantity]
  {
    assert EntryOf(p) == JoinWith([p.productId, p.quantity], [':']);
    JoinSplit([p.productId, p.quantity], ':');
  }

  /** The entries of storable products split back out of the list. */
  lemma SplitRendered(ps: seq<Product>)
    requires |ps| > 0
    requires forall i :: 0 <= i < |ps| ==> Storable(ps[i])
    ensures Split(RenderOrderList(ps), ';') == Entries(ps)
    ensures forall i :: 0 <= i < |ps| ==> ParseOrder(Entries(ps)[i]) == Success(ps[i])
  {
    var entries := Entries(ps);
    forall i | 0 <= i < |entries|
      ensures ';' !in entries[i]
      ensures ParseOrder(entries[i]) == Success(ps[i])
    {
      EntrySplit(ps[i]);
    }
    assert entries[|entries| - 1] != "";
    JoinSplit(entries, ';');
  }

  /** Rendering storable products and parsing them back gives the same
      products in the same order. */
  lemma OrderListRoundTrip(ps: seq<Product>)
    requires |ps| > 0
    requires forall i :: 0 <= i < |ps| ==> Storable(ps[i])
    ensures ParseOrderList(RenderOrderList(ps)) == Success(ps)
  {
    SplitRendered(ps);
    var r := ParseOrders(Entries(ps));
    assert r.Success?;
    assert r.value == ps;
  }

  /** The list written with a `;` after every entry (as a StringBuilder
      leaves it) parses back the same way, once it holds a product. */
  lemma TerminatedRoundTrip(ps: seq<Product>)
    requires |ps| > 0
    requires forall i :: 0 <= i < |ps| ==> Storable(ps[i])
    ensures ParseOrderList(Terminated(Entries(ps), ';')) == Success(ps)
  {
    SplitRendered(ps);
    StoredSplit(ps);
    var r := ParseOrders(Entries(ps));
    assert r.Success?;
    assert r.value == ps;
  }

  /** The terminated list splits like the joined one. */
  lemma StoredSplit(ps: seq<Product>)
    requires |ps| > 0
    requires forall i :: 0 <= i < |ps| ==> Storable(ps[i])
    ensures Split(Terminated(Entries(ps), ';'), ';') == Entries(ps)
  {
    var entries := Entries(ps);
    forall i | 0 <= i < |entries| ensures ';' !in entries[i] {
      EntrySplit(ps[i]);
    }
    SplitTerminated(entries, ';');
    var r := DropTrailingEmpty(entries);
    assert entries[|entries| - 1] != "";
    assert |r| == |entries|;
  }
}

=== FILE: wrappers.dfy ===
/** Option and Result, the two failure-carrying datatypes the model uses in
    place of Java's null references and thrown exceptions. */
module Wrappers {

  /** A value that may be absent (a Java reference that may be null). */
  datatype Option<+T> = None | Some(value: T) {

    /** The value, or `default` when absent (Java's `getOrDefault`). */
    function GetOr(default: T): T {
      match this
      case Some(v) => v
      case None => default
    }
  }

  /** Either a value or the reason a computation threw. */
  datatype Result<+R, +E> = Success(value: R) | Failure(error: E) {

    predicate IsFailure() {
      Failure?
    }

    function PropagateFailure<U>(): Result<U, E>
      requires Failure?
    {
      Failure(error)
    }

    function Extract(): R
      requires Success?
    {
      value
    }
  }
}

/** The Java exceptions whose occurrence the model tracks, by kind. */
module JavaExceptions {

  datatype Thrown =
    | IndexOutOfBounds     // an array index or `subList` range outside the list
    | NullPointer          // a method called on a missing (null) value
    | NumberFormat         // `Integer.parseInt` of a non-numeric string
    | IllegalArgument      // `subList` with a start after its end
    | Rejected(reason: string)  // an AWS service rejected the request
    | Unverified(reason: string) // a token-verification exception the handler does not catch
}
